=== FILE: README.md ===
# Excel–Meta matcher: a Dafny model of its matching, export and reporting rules

The application takes a spreadsheet of keywords and matches each keyword to
Meta (Facebook) interest suggestions. An AI provider scores the candidates.
Users review the best match per keyword and export the results back to a
spreadsheet. Under its Express routes, Mongoose schemas and React pages sit
small deterministic rules, and this project models those rules as immutable
datatypes and pure functions:

- **Match results** (`MatchResults`, server/models/MatchResult.js):
  - creating a pending result, whose value is trimmed and must not be blank;
  - marking a result processed, which stores the candidates unflagged and a
    flagged copy of the chosen one as the selection, or failed;
  - re-selecting a candidate, after which exactly that candidate is flagged
    and `matchScore` follows the selection.
- **Files** (`Files`, server/models/File.js): the status enum, the schema
  defaults, and the three unguarded status transitions.
- **AI scoring** (`AiService`, server/services/aiService.js):
  - provider scores joined back to candidates by exact text;
  - the stable sort by descending score and the best-index rule;
  - the simulated heuristic (95 / 85 / 60 + 10k / 50, then jitter and a clamp
    to [35, 98]).
  The random jitter is an input.
- **Meta suggestions** (`MetaService`, server/services/metaService.js): the
  audience-size midpoint rule, the mapping of the reply's items, the simulated
  suggestions, and the word-by-word English "translation".
- **Spreadsheets** (`ExcelService`, `ExcelProcessing`):
  - the column and row-count rule;
  - the non-blank cells of a column with 1-based row numbers;
  - batch sizes and batch windows that partition the rows;
  - the progress percentage;
  - the keyed and positional export layouts.
- **Routes of the JS server** (`AiRoutes`, `FileRoutes`, with the shared
  `Http`, `Store` and `Numbers` helpers):
  - the 400/404/500 guards;
  - the query-filter construction and its `parseInt` coercions;
  - pagination;
  - delete cascades;
  - export options.
- **Routes of the TypeScript server** (`TsResultRoutes`, `TsExportRoutes`,
  server/src/routes/): analysis with de-duplicated column values, the
  best-suggestion `reduce`, the schema's `required` checks that skip a
  value on save, re-selection by id, the score clamp and fallbacks,
  and export rows. This revision disagrees with the JS one, so it is kept in
  its own modules.
- **Client** (`Visualization`, `ResultsPage`, `ResultsTable`, `ClientTypes`):
  - the score summary and its buckets;
  - the audience summary, keyword comparisons and word cloud;
  - progress counts and the correlation points;
  - the results page filter;
  - the table's score bands and status badges.

The collections behave like in-memory MongoDB: `Store.Db` holds files and
results in insertion order. Everything the code reaches outside itself is
passed in as a value:
- the spreadsheet contents, as a sequence of rows;
- provider replies;
- random draws;
- clocks, as timestamps;
- the batch reader.

A JavaScript number that may be `null` or `undefined` is a `JsNumber`, or an
`Option<int>` read through `Truthy`. Averages, means and percentages are exact
`real`s.

## Model

| member | source | states |
|---|---|---|
| Files.FileStatusName | server/models/File.js:34-38 | the stored status is one of 'uploaded', 'processing', 'completed', 'error' |
| Files.FileStatusNameInjective | server/models/File.js:34-38 | distinct statuses are stored under distinct names |
| Files.NewFile | server/models/File.js:3-61 | a new record keeps its path and size, holds its two names without surrounding whitespace (the `trim` setters), and takes the schema defaults: no columns, 0 rows, no selected column, status 'uploaded', no error, no timestamps |
| Files.BlankNameInvalid | server/models/File.js:9-13 | a whitespace-only original name trims to '' and fails `required` |
| Files.StartProcessing | server/models/File.js:64-68 | `startProcessing` sets status 'processing' and the start time and changes nothing else |
| Files.CompleteProcessing | server/models/File.js:71-75 | `completeProcessing` sets status 'completed' and the completion time and changes nothing else |
| Files.MarkError | server/models/File.js:78-82 | `markError` sets status 'error' and the message and changes nothing else |
| Files.TransitionsUnguarded | server/models/File.js:64-82 | no transition checks the current status, so 'completed' can go back to 'processing' and 'error' can go to 'completed' |
| Files.StaleErrorMessage | server/models/File.js:64-82 | after an error, a later successful run still carries the old error message |
| MatchResults.MarkProcessed | server/models/MatchResult.js:77-90 | `markProcessed` fails exactly when a non-empty list gets an index outside it. Otherwise the candidate list is stored as given, the selection is a flagged copy of the indexed candidate, the score is the supplied one when truthy and otherwise the selection's, and the status is 'processed' |
| MatchResults.MarkFailed | server/models/MatchResult.js:93-98 | `markFailed` sets status 'failed' and the message and changes nothing else |
| MatchResults.FindFlagged | server/models/MatchResult.js:108-109 | `findIndex` returns the first flagged candidate carrying the selected value, or none when no candidate is flagged with it |
| MatchResults.Deselected | server/models/MatchResult.js:107-114 | clearing the old flag changes only selection flags |
| MatchResults.ChangeSelectedSuggestion | server/models/MatchResult.js:101-126 | fails exactly for an index outside the list, with 'Suggestion invalide' at or past the end. Otherwise the indexed candidate is flagged and selected, and the score changes only when the new score is truthy |
| MatchResults.ChangeSelectedFlagsExactlyOne | server/models/MatchResult.js:101-126 | from a coherent selection state, re-selecting leaves exactly the chosen candidate flagged, and the state stays coherent |
| MatchResults.ChangeSelectedIdempotent | server/models/MatchResult.js:101-126 | selecting the same candidate twice is the same as selecting it once |
| MatchResults.ChangeSelectedTwice | server/models/MatchResult.js:101-126 | selecting i then j leaves exactly j flagged and selected |
| MatchResults.ChangeSelectedKeepsStrayFlag | server/models/MatchResult.js:107-118 | a flag with no selected suggestion is never cleared, so two candidates can end up flagged |
| MatchResults.ChangeSelectedKeepsSchema | server/models/MatchResult.js:101-126 | re-selection keeps the schema checks: every candidate keeps its non-empty value and its score within [0, 100] |
| MatchResults.MarkProcessedFlagsExactlyOne | server/models/MatchResult.js:77-90 | processing unflagged candidates with a valid index stores no flagged candidate and a flagged copy of the chosen one as the selection; a later re-selection of any candidate leaves exactly that one flagged |
| MatchResults.MarkProcessedKeepsSchema | server/models/MatchResult.js:77-90 | processing keeps the schema checks when the supplied candidates have non-empty values and in-range scores and the score is in range |
| MatchResults.CreatePending | server/models/MatchResult.js:35-39 | saving a new pending record fails with a validation error exactly when the value is only whitespace. Otherwise the stored value is the trimmed one, starting and ending with a non-whitespace character |
| MetaService.AudienceSize | server/services/metaService.js:71-79 | with both bounds truthy, the floor of their mean. Otherwise `audience_size` when truthy, else the lower bound when truthy, else 0 |
| MetaService.MidpointBetweenBounds | server/services/metaService.js:73-75 | with ordered bounds the estimate lies between them |
| MetaService.AudienceSizeNonNegative | server/services/metaService.js:71-79 | non-negative provider figures give a non-negative size |
| MetaService.MapItems | server/services/metaService.js:41-49 | each reply item becomes, in order, a suggestion with its name, audience size and id as the only interest |
| MetaService.Translate | server/services/metaService.js:117-134 | a dictionary word maps to its entry; any other word is kept |
| MetaService.DictionaryWords | server/services/metaService.js:117-130 | every dictionary entry is one non-empty word |
| MetaService.EnglishSimulationKeepsWords | server/services/metaService.js:115-139 | for every keyword, the simulated translation has as many words as the keyword, and re-splitting the joined words gives them back, empty first or last word included |
| MetaService.SimulatedSuggestions | server/services/metaService.js:86-107 | five variants led by the keyword; a keyword that is not plain Latin letters and spaces gets two more English variants ('… Trends' second) |
| MetaService.SearchTargetingSuggestions | server/services/metaService.js:24-64 | a missing token or a failed request falls back to simulated suggestions in development and fails otherwise; a reply without a data array gives no suggestions; otherwise the mapped items |
| MetaService.SimulatedLatinExample | server/services/metaService.js:87-106 | 'shoes' gets exactly the five base variants |
| MetaService.SimulatedFrenchExample | server/services/metaService.js:96-104 | 'réseaux sociaux' gets seven, the sixth being 'Networks social' |
| MetaService.FrenchEnglish | server/services/metaService.js:115-139 | 'réseaux sociaux' is simulated as 'Networks social' |
| AiService.FindEntry | server/services/aiService.js:120 | `find` gives the first score entry naming the value exactly, or none when no entry does |
| AiService.FindValue | server/services/aiService.js:135-137 | `findIndex` gives the first candidate with the value, or none when no candidate has it |
| AiService.MergeScores | server/services/aiService.js:119-129 | each candidate takes the score of the first entry naming it; unnamed candidates are unchanged |
| AiService.ProcessEvaluation | server/services/aiService.js:117-144 | a permutation of the merged candidates by non-increasing score (missing = 0), candidates of equal score in their merged order. The best index is the first candidate named as best match, else 0; the best score is the reply's |
| AiService.NoEntriesPermutes | server/services/aiService.js:117-144 | without score entries the result is a permutation of the input |
| AiService.UnscoredKeepOrder | server/services/aiService.js:132 | the stable sort keeps unscored candidates in the provider's order |
| AiService.ProcessedHeadIsBest | server/services/aiService.js:132 | the first processed candidate has the highest score |
| AiService.Matches | server/services/aiService.js:167-175 | counts at most one match per keyword word |
| AiService.BaseScore | server/services/aiService.js:155-181 | 95 exactly for a case-insensitive equal value and 85 for containment. Otherwise 60 + 10 per overlapping word, capped at 85, and 50 exactly when no word overlaps. Always within [50, 95] |
| AiService.BaseScoreRanks | server/services/aiService.js:155-181 | an equal value outranks a containing one, which outranks any other; among the others more overlapping words never score less, and strictly more up to three score more |
| AiService.Round | server/services/aiService.js:188 | `Math.round` is the nearest integer, halves rounding up |
| AiService.Jittered | server/services/aiService.js:184-188 | the jittered score always lies in [35, 98]; away from the clamps it stays within 5 of the base |
| AiService.SimulatedScore | server/services/aiService.js:153-190 | only the score changes, and it lies in [35, 98] |
| AiService.ScoreAll | server/services/aiService.js:153-190 | each candidate is scored with its own random draw |
| AiService.SimulatedEvaluation | server/services/aiService.js:152-200 | fails exactly on an empty list. Otherwise the scored candidates by non-increasing score, equal scores in input order, with best index 0 and the top score as best score |
| AiService.PermutationKeepsRange | server/services/aiService.js:184-193 | sorting keeps every score within [35, 98] |
| AiService.EvaluateMatches | server/services/aiService.js:25-69 | a configured client with a parseable reply gives the processed evaluation. Otherwise development simulates and any other mode fails |
| AiService.EvaluateMatchesIndexValid | server/services/aiService.js:25-69 | a successful evaluation of a non-empty list has a best index inside the list |
| AiService.ExactMatchExample | server/services/aiService.js:158-160 | 'Shoes' for the keyword 'shoes' scores 95 before jitter |
| ExcelService.ParseExcelFile | server/services/excelService.js:14-45 | fails exactly when the file is missing. Otherwise the columns are the header row (none for an empty sheet) and the row count is the rows below it |
| ExcelService.ColumnItemsSound | server/services/excelService.js:77-80 | every extracted item carries the non-blank cell of the row its 1-based number names |
| ExcelService.ColumnItemsIncreasing | server/services/excelService.js:77-80 | the row numbers strictly increase |
| ExcelService.ColumnItemsCount | server/services/excelService.js:77-80 | exactly as many items as non-blank cells |
| ExcelService.ColumnItemsComplete | server/services/excelService.js:77-80 | every non-blank cell yields an item with its row number |
| ExcelService.RowIndices | server/services/excelService.js:79 | the row numbers of the items, in order |
| ExcelService.ExtractColumnData | server/services/excelService.js:54-87 | a missing file fails. A column that is not a key of the first data row fails with 'Colonne … non trouvée'. Otherwise the non-blank cells numbered from 1 |
| ExcelService.ExtractExample | server/services/excelService.js:77-80 | blank cells are dropped, the others keep their row numbers, and duplicates stay |
| ExcelService.FirstRowGapRejects | server/services/excelService.js:72-74 | an empty first-row cell rejects the column even though later rows fill it |
| ExcelService.LookupAbsent | server/services/excelService.js:111-139 | a key is absent from a row exactly when no cell carries it; otherwise the first such cell's value is found |
| ExcelService.LookupAppend | server/services/excelService.js:111-139 | looking up a concatenated row looks in the first part, then the second |
| ExcelService.Keys | server/services/excelService.js:111-139 | the keys of a row, in order |
| ExcelService.Alternatives | server/services/excelService.js:127-129 | at most three unselected candidates, taken from the list in order |
| ExcelService.AltCells | server/services/excelService.js:131-136 | every written key names an alternative after the starting position |
| ExcelService.AltHere | server/services/excelService.js:132-135 | alternative n writes only its own two keys |
| ExcelService.AltCellsLookup | server/services/excelService.js:131-136 | alternative n carries its value, and its score exactly when scores are wanted and the score is truthy |
| ExcelService.AltCellsDistinct | server/services/excelService.js:131-136 | the alternative cells never repeat a key |
| ExcelService.AlternativeCells | server/services/excelService.js:125-137 | only alternative keys are written after the base cells |
| ExcelService.ExportRowLookup | server/services/excelService.js:111-139 | a row's key is found in the base, score and alternative parts in turn |
| ExcelService.ExportRowBase | server/services/excelService.js:112-122 | the row holds the keyword, the selected value or '', and the audience in millions or ''. It holds the score key exactly when scores are wanted and the score is truthy |
| ExcelService.ExportRowAlternative | server/services/excelService.js:125-137 | 'Alternative n' (1-3) is present exactly when alternatives are wanted and n candidates are unselected. 'Score Alt. n' also needs scores wanted and a truthy score |
| ExcelService.AltKeyLookup | server/services/excelService.js:125-137 | alternative keys are found only among the alternative cells |
| ExcelService.AlternativeValueCell | server/services/excelService.js:125-132 | the value half of the alternative property |
| ExcelService.AlternativeScoreCell | server/services/excelService.js:125-135 | the score half of the alternative property |
| ExcelService.ExportRowDistinct | server/services/excelService.js:111-139 | no key is written twice in a row |
| ExcelService.ExportResults | server/services/excelService.js:95-171 | fails exactly for a format other than xlsx or csv. Otherwise one row per result, in order |
| ExcelService.ProcessedSelectionIsAlternative | server/services/excelService.js:127-129 | after `markProcessed` the stored candidates carry no flag, so the export lists the selected candidate again among the alternatives, as alternative i + 1 for i below 3 |
| ExcelProcessing.BatchSize | server/services/excelProcessingService.js:38-39 | the batch size is 500, 1000 or 2000 |
| ExcelProcessing.BatchSizeMonotone | server/services/excelProcessingService.js:38-39 | a larger file never gets a larger batch. The size drops from 2000 to 1000 just above 10000 rows and to 500 just above 50000 |
| ExcelProcessing.WindowFacts | server/services/excelProcessingService.js:42-51 | each batch window is non-empty and ends where the next begins, or at the last row |
| ExcelProcessing.WindowsPartition | server/services/excelProcessingService.js:42-51 | the windows cover [0, rowCount) once, in ascending order, and there are none exactly when there are no rows |
| ExcelProcessing.RowInOneWindow | server/services/excelProcessingService.js:49-51 | each row lies in exactly one window, number row / size |
| ExcelService.StoredAppend | server/services/excelProcessingService.js:68-73 | turning items into (String(value), rowIndex) pairs distributes over concatenation, so batches can be converted one by one |
| ExcelProcessing.ProcessColumnData | server/services/excelProcessingService.js:18-138 | a missing file changes nothing, and a column the file lacks marks it 'error'. Otherwise the file's old results are replaced by the pending results of the collected pairs: values trimmed, blank ones skipped by the unordered `insertMany`, ids used up either way. The file ends 'completed'. Progress values stay in [0, 100] for a reader that never over-reads |
| ExcelProcessing.RunBatches | server/services/excelProcessingService.js:41-102 | the loop collects every batch's pairs in batch order and writes at most one progress value per batch |
| ExcelProcessing.RunBatch | server/services/excelProcessingService.js:55-98 | a batch whose read throws collects nothing; otherwise it collects the window's non-blank cells as text, numbered from the window start |
| ExcelProcessing.NonBlankCountBound | server/services/excelProcessingService.js:60-65 | a window never yields more values than rows |
| ExcelProcessing.WindowsPartitionPositive | server/services/excelProcessingService.js:42 | a positive batch count means a positive row count |
| ExcelProcessing.ProgressBound | server/services/excelProcessingService.js:90 | the floor of processed / rowCount × 100 lies in [0, 100] while processed ≤ rowCount |
| ExcelProcessing.AsShippedInsertsNothing | server/services/excelProcessingService.js:55-98 | when every read throws, no batch stores anything |
| ExcelProcessing.ColumnCellsSlice | server/services/excelProcessingService.js:57-62 | the cells of a window of rows are that window of the column |
| ExcelProcessing.ColumnItemsAppend | server/services/excelProcessingService.js:60-65 | extraction distributes over concatenation, with the second part numbered after the first |
| ExcelProcessing.CollectedPrefix | server/services/excelProcessingService.js:49-102 | with a faithful reader, the first n batches store what a whole-column extraction stores for the rows reached |
| ExcelProcessing.BatchPairsFaithful | server/services/excelProcessingService.js:57-65 | a faithful reader's batch stores the extraction of its window, numbered from startRow + 1 |
| ExcelProcessing.BatchedEqualsWhole | server/services/excelProcessingService.js:49-102 | with a faithful reader, the batched path stores the same pairs in the same order as `extractColumnData` over the whole column |
| ExcelProcessing.LargeHeaders | server/services/excelProcessingService.js:173-197 | the header row starts with the three base columns, followed by the score and alternative columns as the flags ask |
| ExcelProcessing.HeaderCounts | server/services/excelProcessingService.js:173-197 | the export has 3, 4, 6 or 10 headers |
| ExcelProcessing.LargeRow | server/services/excelProcessingService.js:224-261 | one cell per header |
| ExcelProcessing.LargeRowAgreesWithKeyed | server/services/excelProcessingService.js:224-261 | under every header the positional row holds what the keyed row of `exportResults` holds for that key, or '' where that row lacks the key |
| ExcelProcessing.CellAgreesWithKeyed | server/services/excelProcessingService.js:227-255 | the per-key half of that agreement |
| ExcelProcessing.HeaderShape | server/services/excelProcessingService.js:179-196 | score headers appear only with scores, alternative headers only with alternatives, numbered 1-3 |
| ExcelProcessing.ExportLargeResults | server/services/excelProcessingService.js:148-299 | fails exactly for an unknown format. Otherwise the header row, then one row per result in input order, each as wide as the header |
| AiRoutes.Evaluate | server/routes/aiRoutes.js:13-39 | exactly a missing or empty keyword, or a missing or empty suggestion array, is a 400. Otherwise 200 with the evaluation, or 500 when it fails |
| AiRoutes.EvaluateBestIndexValid | server/routes/aiRoutes.js:13-39 | a successful evaluation names a best index inside the candidate list |
| AiRoutes.ProcessResult | server/routes/aiRoutes.js:46-104 | an unknown id is a 404; a processed result or one without candidates is a 400. Otherwise the evaluation's candidates, best index and score go through `markProcessed`. Every rejection stores nothing |
| AiRoutes.ProcessResultOnce | server/routes/aiRoutes.js:60-88 | after a successful processing the record is 'processed' with a flagged selection, and asking again is a 400 that changes nothing |
| AiRoutes.ProcessResultStores | server/routes/aiRoutes.js:83-88 | a success stores a 'processed' record in place, with as many candidates as before and its best candidate selected |
| AiRoutes.RejectProcessed | server/routes/aiRoutes.js:60-66 | a processed record is refused with a 400 and nothing changes |
| AiRoutes.FindAfterUpdate | server/routes/aiRoutes.js:84-88 | saving a record under its own id keeps it the one found for that id |
| AiRoutes.ChangeSuggestion | server/routes/aiRoutes.js:111-161 | a missing or negative index is a 400 and an unknown id a 404. It succeeds exactly for an index inside the candidate list, through `changeSelectedSuggestion`; rejections store nothing |
| AiRoutes.ChangeSuggestionRepeat | server/routes/aiRoutes.js:111-161 | afterwards exactly the chosen candidate is flagged, and repeating the request changes nothing |
| AiRoutes.Matching | server/routes/aiRoutes.js:209-243 | exactly the results that pass the file, status, score and query filters, sorted by ascending row number |
| AiRoutes.ListResults | server/routes/aiRoutes.js:192-270 | a missing file id is a 400, and a score bound `parseInt` cannot read is a 500 (the NaN bound fails the query cast). Otherwise the matching results are paginated, page 1 and 50 per page by default |
| AiRoutes.ListResultsSound | server/routes/aiRoutes.js:192-270 | a listed page holds only the file's matching results, by ascending row number, and its total counts all of them |
| AiRoutes.PageOfSorted | server/routes/aiRoutes.js:237-240 | a page of sorted matches is sorted and drawn from them |
| AiRoutes.SliceOfSorted | server/routes/aiRoutes.js:239-240 | a slice of sorted matches is sorted and drawn from them |
| AiRoutes.ScoreRangeInclusive | server/routes/aiRoutes.js:216-226 | with decimal bounds a and b, a result is kept exactly when its score lies in [a, b] |
| AiRoutes.StatusAllIsNoFilter | server/routes/aiRoutes.js:212-214 | the status 'all' filters the same as no status |
| AiRoutes.UnparsableBoundFails | server/routes/aiRoutes.js:216-237 | a bound such as 'abc' makes the listing fail with a 500 |
| AiRoutes.DeleteResult | server/routes/aiRoutes.js:277-297 | an unknown id is a 404. Otherwise exactly that record is removed and the rest stay in order |
| AiRoutes.BulkDelete | server/routes/aiRoutes.js:304-329 | no ids, or an empty list, is a 400. Otherwise exactly the listed records are removed and the reply counts them |
| AiRoutes.DeletedCount | server/routes/aiRoutes.js:320-324 | the reported count is the number of records whose id was listed |
| AiRoutes.BulkDeleteFinds | server/routes/aiRoutes.js:304-329 | afterwards no listed id is found, and every other id is found exactly as before |
| FileRoutes.UploadFile | server/routes/fileRoutes.js:30-95 | no file is a 400. A file the filter rejects, or one that cannot be read, is a 500. So is one whose name or original name is only whitespace, because the trimmed name fails `required` on `save()`, and nothing is stored. Otherwise a new 'uploaded' record with the trimmed names, the sheet's columns, one entry per header cell with an empty cell kept as `null`, its row count, and a 201 |
| FileRoutes.PaddedNameTrimmed | server/models/File.js:9-13 | an original name ' budget.xlsx ' is stored as 'budget.xlsx' |
| FileRoutes.BlankNameRejected | server/routes/fileRoutes.js:68-94 | an original name of two spaces passes the upload filter but the save fails: a 500, and nothing is stored |
| FileRoutes.StoredColumns | server/services/excelService.js:29-35 | one stored entry per header cell, `null` exactly for an empty cell, and the names among them are exactly the texts of the non-empty cells |
| FileRoutes.HeaderHoleStoredAsNull | server/services/excelService.js:29-35 | an empty header cell between two names keeps its place as `null` |
| FileRoutes.UploadFilterExamples | server/routes/fileRoutes.js:30-48 | an xlsx file of exactly 10 MB passes; one byte more, or a CSV, does not |
| FileRoutes.UploadListedFirst | server/routes/fileRoutes.js:55-119 | a successful upload heads the first page of the listing, unfiltered or filtered by 'uploaded', whatever the limit |
| FileRoutes.UploadThenSelect | server/routes/fileRoutes.js:65-224 | every non-empty header cell the spreadsheet service reads becomes a column the uploaded file can have selected |
| FileRoutes.ListFiles | server/routes/fileRoutes.js:102-148 | page 1 and 10 per page by default, and the total counts the files of the requested status. A negative skip is rejected |
| FileRoutes.ListFilesFirstPage | server/routes/fileRoutes.js:116-119 | the first page holds the newest matching files, newest first |
| FileRoutes.StatusFiltered | server/routes/fileRoutes.js:110-113 | a missing or empty status keeps every file; otherwise only files with that stored status |
| FileRoutes.Reverse | server/routes/fileRoutes.js:117 | creation order reversed |
| FileRoutes.SelectColumn | server/routes/fileRoutes.js:191-224 | a missing name is a 400, an unknown file a 404, and a column the file lacks a 400, all changing nothing. It succeeds exactly otherwise: the column is recorded and the file goes to 'processing' whatever its status |
| FileRoutes.ExtractInBackground | server/routes/fileRoutes.js:229-256 | on a failed extraction the file is marked 'error' with the message. Otherwise the pending results of the non-blank values are appended, trimmed, and the file is 'completed' when no value is blank, else 'error' with the validation message |
| FileRoutes.AllSavedIffKept | server/routes/fileRoutes.js:235-242 | every pair is stored exactly when no value is blank |
| FileRoutes.ReselectionDuplicates | server/routes/fileRoutes.js:229-256 | selecting the same column twice appends the pending results twice, the second time with fresh ids, as many as the first time |
| FileRoutes.DeleteFile | server/routes/fileRoutes.js:277-306 | an unknown file is a 404. Otherwise exactly that file's results and the file record are removed |
| FileRoutes.DeleteLeavesOthers | server/routes/fileRoutes.js:294-297 | no other file or another file's results change |
| FileRoutes.NoQueryGivesDefaults | server/routes/fileRoutes.js:316-320 | an empty query gives the export's own defaults |
| FileRoutes.ExportQueryRoundTrip | server/routes/fileRoutes.js:316-320 | the query written for any options with a non-empty format is read back as those options |
| FileRoutes.ExportFile | server/routes/fileRoutes.js:313-355 | an unknown file is a 404. Otherwise the file's results by ascending row number go to `exportResults`, whose format error is a 500 |
| FileRoutes.ExportFileOrder | server/routes/fileRoutes.js:333-336 | the rows are the file's results, each once, in ascending row order |
| TsResultRoutes.MetaSuggestions | server/src/routes/resultRoutes.ts:154-187 | at most the first three interests of the reply, in order. A failed request gives one fallback suggestion for the value, with size 1000000 and score 70 |
| TsResultRoutes.MetaSuggestionsEmpty | server/src/routes/resultRoutes.ts:154-187 | only an empty reply gives no suggestion |
| TsResultRoutes.AiScore | server/src/routes/resultRoutes.ts:198-219 | a failure scores 70. A parsed score lies in [0, 100]; it is NaN exactly when a non-empty answer does not parse |
| TsResultRoutes.AiScoreClamps | server/src/routes/resultRoutes.ts:213-214 | a numeric answer is clamped into [0, 100] and kept when inside; an empty answer scores 70 |
| TsResultRoutes.BestOf | server/src/routes/resultRoutes.ts:60-62 | `reduce` picks a suggestion of maximal score, the earliest when several tie |
| TsResultRoutes.BestOfUnique | server/src/routes/resultRoutes.ts:60-62 | the first suggestion of maximal score is the one picked |
| TsResultRoutes.IndexOf | server/src/routes/resultRoutes.ts:40 | the first header position holding the column as a text cell (strict equality, so a number cell never matches); none exactly when no text cell equals it |
| TsResultRoutes.ColumnValues | server/src/routes/resultRoutes.ts:46 | the distinct cells of the column below the header, each once, in order of first occurrence; the number 1 and the text '1' are different values, and an empty cell counts as `undefined` |
| TsResultRoutes.ResultFor | server/src/routes/resultRoutes.ts:60-72 | a processed result for the value whose selection is a suggestion of maximal score, with that score as match score. No suggestion is flagged. It passes the schema's `required` checks exactly when the column, the keyword and every suggestion's name are non-empty |
| TsResultRoutes.AnalyzeAll | server/src/routes/resultRoutes.ts:51-79 | the id counter advances at least one per saved result |
| TsResultRoutes.AnalyzeAllCount | server/src/routes/resultRoutes.ts:51-79 | one saved result per value that is defined, has a suggestion, and whose record passes `required`: non-empty column, keyword text and suggestion names. The others are skipped |
| TsResultRoutes.AnalyzeAllFrom | server/src/routes/resultRoutes.ts:64-72 | every saved result carries one of the values, the file and column, 'processed', and its selection's score, and passes the schema's `required` checks |
| TsResultRoutes.AnalyzeAllDistinct | server/src/routes/resultRoutes.ts:46-79 | distinct text values give results with distinct keywords |
| TsResultRoutes.TypedDuplicatesShareKeyword | server/src/routes/resultRoutes.ts:46-72 | the cells 1 and '1' are two values and give two results, both keyed '1', unless the column is empty and nothing is saved |
| TsResultRoutes.AnalyzeAllStep | server/src/routes/resultRoutes.ts:51-75 | an analysable value is saved before the rest |
| TsResultRoutes.AnalyzeAllSkip | server/src/routes/resultRoutes.ts:76-78 | a value whose processing throws is skipped |
| TsResultRoutes.Analyze | server/src/routes/resultRoutes.ts:20-92 | an unknown file is a 404, and an unreadable or empty sheet a 500. Past those, a 400 exactly when no text cell of the header equals the column. Otherwise the loop's results are added with a 201 and counted; rejections store nothing |
| TsResultRoutes.NumericHeaderRejected | server/src/routes/resultRoutes.ts:40-43 | a header cell holding the number 2023 does not match the column '2023', and the route answers 400 |
| TsResultRoutes.AnalyzeStores | server/src/routes/resultRoutes.ts:20-92 | the new results follow the old ones, one per analysable distinct value (defined, with a suggestion, and passing `required`), keyed by its text in order of first occurrence; with only text values the keywords are distinct |
| TsResultRoutes.ProviderDownStillSaves | server/src/routes/resultRoutes.ts:175-186 | with the provider down, every defined value with non-empty text is still saved through the fallback named after it; under an empty column nothing is |
| TsResultRoutes.EmptyColumnSavesNothing | server/src/models/Result.ts:19 | under an empty column every save fails `required`, so nothing is saved and no id is used |
| TsResultRoutes.EmptyTextSkipped | server/src/models/Result.ts:20 | a column whose only value is the empty string gets a 201 with nothing saved, because `originalValue` is required |
| TsResultRoutes.UnnamedInterestSkipped | server/src/models/Result.ts:4 | an interest with an empty name fails the suggestion's required `value`, so its keyword is skipped |
| TsResultRoutes.ListResults | server/src/routes/resultRoutes.ts:95-113 | exactly the file's results, restricted to the named column, in stored order |
| TsResultRoutes.AnalyzeThenList | server/src/routes/resultRoutes.ts:20-113 | after an analysis the column's listing is the earlier listing followed by the new results, in the order saved |
| TsResultRoutes.FindResult | server/src/routes/resultRoutes.ts:121 | the first result with the id; none exactly when no result has it |
| TsResultRoutes.FindCandidate | server/src/routes/resultRoutes.ts:132 | the first suggestion with the id; none exactly when no suggestion has it |
| TsResultRoutes.FlagOnly | server/src/routes/resultRoutes.ts:127-137 | every flag is cleared and exactly the chosen suggestion is flagged; nothing else changes |
| TsResultRoutes.Reselect | server/src/routes/resultRoutes.ts:116-151 | an unknown result is a 404 and, for a known one, exactly an unknown suggestion id is a 400, storing nothing. Otherwise only that suggestion is flagged and selected, and the match score takes its score |
| TsResultRoutes.ReselectIdempotent | server/src/routes/resultRoutes.ts:116-151 | re-selecting the same suggestion again stores nothing new |
| TsExportRoutes.ParseBody | server/src/routes/exportRoutes.ts:14-18 | the format defaults to 'xlsx'; scores are included when the field is missing or truthy, and all suggestions only when the field is present and truthy |
| TsExportRoutes.FlagsByTruthiness | server/src/routes/exportRoutes.ts:40-44 | the flags are tested by truthiness: the string 'false' asks for scores, null turns them off, and 1 asks for all suggestions |
| TsExportRoutes.ParseBodyRoundTrip | server/src/routes/exportRoutes.ts:14-18 | the body written for any options is read back as those options, and a missing field reads as its default |
| TsExportRoutes.DefaultBody | server/src/routes/exportRoutes.ts:14-18 | an empty body gives xlsx with scores and without the other suggestions |
| TsExportRoutes.Lookup | server/src/routes/exportRoutes.ts:33-53 | a key is absent exactly when no cell carries it |
| TsExportRoutes.LookupAt | server/src/routes/exportRoutes.ts:33-53 | a cell whose key no earlier cell carries is what a lookup finds |
| TsExportRoutes.SuggestionCells | server/src/routes/exportRoutes.ts:44-50 | three cells per suggestion |
| TsExportRoutes.ExportRow | server/src/routes/exportRoutes.ts:33-53 | a result without a selection throws. Otherwise the row has 3 cells, plus 1 with scores, plus 3 per suggestion with all suggestions |
| TsExportRoutes.ExportRowBase | server/src/routes/exportRoutes.ts:34-42 | the keyword, selected value and audience are always in the row, and the score exactly when scores are asked for |
| TsExportRoutes.ExportRowSuggestion | server/src/routes/exportRoutes.ts:44-50 | with all suggestions, suggestion n contributes its value, score and audience; without, none of its keys is present |
| TsExportRoutes.SuggestionFound | server/src/routes/exportRoutes.ts:45-49 | each cell of suggestion n is what a lookup of its key finds |
| TsExportRoutes.CellAt | server/src/routes/exportRoutes.ts:45-49 | cell k of suggestion i sits at position 3i + k |
| TsExportRoutes.FoundAmongSuggestions | server/src/routes/exportRoutes.ts:44-50 | a suggestion cell of a row is what a lookup of its key finds |
| TsExportRoutes.DistinctCellKeys | server/src/routes/exportRoutes.ts:45-49 | two different suggestion cells have different keys |
| TsExportRoutes.ExportRows | server/src/routes/exportRoutes.ts:33-53 | fails exactly when some result has no selection. Otherwise one row per result, in order |
| TsExportRoutes.Export | server/src/routes/exportRoutes.ts:11-90 | an unknown file, or a file without results, is a 404. A 500 exactly when a result has no selection or the writer does not know the format. Otherwise one row per result of the file, in stored order |
| TsExportRoutes.FormatOnlyDecidesWriting | server/src/routes/exportRoutes.ts:55-89 | the format changes only whether the file can be written: an unknown one is a 500, a known one gives the same rows as xlsx |
| TsExportRoutes.ExportRowKeysDistinct | server/src/routes/exportRoutes.ts:33-53 | no key repeats within a row |
| Http.QueryIntRoundTrip | server/routes/aiRoutes.js:195-196 | a client that writes a non-zero number into the page or limit query gets that number; writing 0 gets the default |
| Http.Paginate | server/routes/aiRoutes.js:195-266 | a negative skip fails with a 500. Otherwise the page is the slice after `skip`, at most `limit` long, with the total count and `ceil(total / limit)` pages |
| Http.PagesUpToPrefix | server/routes/aiRoutes.js:237-240 | pages 1 to n hold exactly the first n × limit items |
| Http.PagesCoverAll | server/routes/aiRoutes.js:237-262 | pages 1 to totalPages list every item exactly once, in order |
| Numbers.ParseInt | server/routes/aiRoutes.js:217-222 | `parseInt` without a radix reads base 16 after a `0x` or `0X` prefix and base 10 otherwise, and is NaN exactly when no digit of that base follows the optional whitespace and sign |
| Numbers.ParseIntString | server/routes/aiRoutes.js:217-222 | `parseInt` reads back the decimal text of any integer |
| Numbers.HexExample | server/routes/aiRoutes.js:217-222 | '0x10' reads as 16 |
| Numbers.BareHexPrefix | server/routes/aiRoutes.js:217-222 | '0x' alone is NaN |
| Store.ResultsOf | server/routes/fileRoutes.js:333 | `find({ file })` keeps exactly the file's results, in stored order |
| Store.DropFile | server/routes/fileRoutes.js:294 | `deleteMany({ file })` keeps exactly the other files' results, in order |
| Store.DropIds | server/routes/aiRoutes.js:320 | `deleteMany({ _id: { $in: ids } })` keeps exactly the unlisted results, in order |
| Store.FindResult | server/routes/aiRoutes.js:51 | `findById`: the first stored result with the id; none exactly when no result has it |
| Seqs.FindWhere | server/src/routes/resultRoutes.ts:132 | `find`: the first element that passes the test; none exactly when no element does |
| Store.Pending | server/routes/fileRoutes.js:235-242 | the records saved for (value, rowIndex) pairs: a pair's record is stored exactly when its value is not blank, as a pending record of the file with the trimmed value, in pair order |
| Store.PendingSaves | server/routes/fileRoutes.js:235-242 | each pair's record is stored exactly when its `save()` succeeds, and then it is what `save()` returns |
| Store.PendingCount | server/routes/fileRoutes.js:235-242 | as many records are stored as there are non-blank values |
| Store.PendingAllKept | server/routes/fileRoutes.js:235-242 | with no blank value every pair's record is stored, in order |
| Store.BlankSkippedExample | server/models/MatchResult.js:35-39 | a blank value is not stored, uses up its id, and the next value is stored trimmed |
| Sorting.SortDesc | server/services/aiService.js:132 | the sorted list is a permutation in non-increasing key order, and elements of equal key keep their order |
| Sorting.SortDescEqualKeys | server/services/aiService.js:132 | with all keys equal the stable sort changes nothing |
| Sorting.SortAsc | server/routes/fileRoutes.js:333 | the sorted list is a permutation in non-decreasing key order, and elements of equal key keep their order |
| Visualization.CountBetween | client/src/services/visualizationService.ts:79 | a range never counts more scores than there are |
| Visualization.CountBetweenSplit | client/src/services/visualizationService.ts:69-79 | adjacent half-open ranges count exactly what their union counts |
| Visualization.CountBetweenAll | client/src/services/visualizationService.ts:69-79 | a range that holds every score counts them all |
| Visualization.BucketsAsWrittenCover | client/src/services/visualizationService.ts:69-87 | the five buckets as written count exactly the scores in [0, 100) |
| Visualization.HundredInNoBucket | client/src/services/visualizationService.ts:74-79 | a single score of 100 lands in no bucket, so every percentage is 0 |
| Visualization.BucketsClosedCover | client/src/services/visualizationService.ts:69-87 | with the last range closed, every score in [0, 100] lies in exactly one bucket, and the last counts [80, 100] |
| Visualization.PercentageScaled | client/src/services/visualizationService.ts:80 | a percentage times the total is the count times 100 |
| Visualization.PercentagesSum | client/src/services/visualizationService.ts:78-87 | counts that add up to the total give percentages that add up to 100 |
| Visualization.SummaryWith | client/src/services/visualizationService.ts:33-96 | no scores give the all-zero summary with no buckets. Otherwise the mean as average, the median of the ascending sort, min and max as scores bounding all others, and five buckets counting [0, 20) to [60, 80) and the last range, each with its percentage |
| Visualization.SummaryOf | client/src/services/visualizationService.ts:33-96 | the dashboard's summary as written: the summary of the scores with the last bucket [80, 100) |
| Visualization.SummaryMissesHundred | client/src/services/visualizationService.ts:74-87 | as written, a single score of 100 gives bucket percentages that add up to 0 |
| Visualization.SummaryClosed | client/src/services/visualizationService.ts:33-96 | the corrected summary, whose last bucket is [80, 100] |
| Visualization.SummaryClosedComplete | client/src/services/visualizationService.ts:69-87 | with the last bucket closed, the percentages of scores in [0, 100] add up to 100 |
| Visualization.SumBounds | client/src/services/visualizationService.ts:49 | the sum of n values lies between n × their lower bound and n × their upper bound |
| Visualization.SortedExtremes | client/src/services/visualizationService.ts:53-63 | the ends of the ascending sort are scores that bound all the others, and the median lies between them |
| Visualization.MedianBetween | client/src/services/visualizationService.ts:57-63 | the median of a sorted list lies between its ends |
| Visualization.MeanBetween | client/src/services/visualizationService.ts:49-50 | a mean of values within [lo, hi] lies within [lo, hi], and times n gives back the sum |
| Visualization.ScoreSummaryBounds | client/src/services/visualizationService.ts:47-63 | min and max are scores that bound all scores; median and average lie between them |
| Visualization.AverageBetween | client/src/services/visualizationService.ts:49-50 | the average lies within any bounds of the scores and times their number is their sum |
| Visualization.OddMedianIsScore | client/src/services/visualizationService.ts:58-63 | for an odd number of scores the median is one of them |
| Visualization.MinOf | client/src/services/visualizationService.ts:121 | `Math.min` is a member of the list that bounds it from below |
| Visualization.MaxOf | client/src/services/visualizationService.ts:122 | `Math.max` is a member of the list that bounds it from above |
| Visualization.SummarizeAudience | client/src/services/visualizationService.ts:101-141 | no result with an audience gives zeros. Otherwise the total is the sum, the average the mean, and min and max are sizes bounding all sizes. The rows are a permutation of one row per kept result, by non-increasing audience |
| Visualization.AudienceAverage | client/src/services/visualizationService.ts:117-122 | the average audience lies between the smallest and the largest |
| Visualization.AudienceRowsNonZero | client/src/services/visualizationService.ts:102-129 | every per-keyword row has a non-zero audience from a processed result |
| Visualization.Correlation | client/src/services/visualizationService.ts:235-248 | one point per processed result with a truthy audience |
| Visualization.CorrelationMatchesAudience | client/src/services/visualizationService.ts:235-248 | the correlation points are the audience summary's rows, unsorted |
| Visualization.KeywordComparisons | client/src/services/visualizationService.ts:146-163 | one entry per processed result with a selection, a permutation of them by non-increasing score |
| Visualization.KeywordComparisonsSound | client/src/services/visualizationService.ts:147-157 | each comparison comes from a processed result with a selection |
| Visualization.KeywordComparisonsComplete | client/src/services/visualizationService.ts:147-157 | each processed result with a selection has its comparison |
| Visualization.Frequencies | client/src/services/visualizationService.ts:186-193 | one entry per distinct word |
| Visualization.Candidates | client/src/services/visualizationService.ts:192-194 | only words seen at least twice, each with its number of occurrences |
| Visualization.Ranked | client/src/services/visualizationService.ts:195 | the candidates, permuted into non-increasing frequency |
| Visualization.Top | client/src/services/visualizationService.ts:196 | the first 50 entries, or all when fewer |
| Visualization.CloudOrdered | client/src/services/visualizationService.ts:192-196 | the cloud lists the most frequent words first |
| Visualization.CloudSound | client/src/services/visualizationService.ts:168-196 | every cloud entry is a word seen at least twice, with its exact count |
| Visualization.FrequenciesDistinct | client/src/services/visualizationService.ts:186-193 | the frequency entries never repeat |
| Visualization.RankedDistinct | client/src/services/visualizationService.ts:192-195 | the ranked entries never repeat |
| Visualization.CloudDistinct | client/src/services/visualizationService.ts:186-196 | no word appears twice in the cloud |
| Visualization.RankedComplete | client/src/services/visualizationService.ts:186-195 | every word seen at least twice is ranked with its count |
| Visualization.CloudDominates | client/src/services/visualizationService.ts:195-196 | an entry cut from the cloud is seen no more often than any entry in it |
| Visualization.CloudComplete | client/src/services/visualizationService.ts:168-198 | a word seen at least twice is in the cloud, unless the cloud is full with 50 words seen at least as often |
| Visualization.WordCloudWordShape | client/src/services/visualizationService.ts:175-179 | every cloud word is longer than two characters, with no whitespace and no upper-case letter |
| Visualization.AllWordsShape | client/src/services/visualizationService.ts:172-183 | every collected word has that shape |
| Visualization.WordsOfShape | client/src/services/visualizationService.ts:176-179 | every word of one suggestion has that shape |
| Visualization.ProgressData | client/src/services/visualizationService.ts:204-230 | empty exactly for no results. Otherwise pending, processed and failed with their counts and shares, then each other status seen once with a NaN count and share |
| Visualization.KnownCountsCover | client/src/services/visualizationService.ts:212-220 | with only known statuses, the three counts add up to the results |
| Visualization.ProgressCountsSum | client/src/services/visualizationService.ts:204-230 | with only known statuses there are exactly three entries, and their counts add up to the number of results |
| ResultsPage.Keep | client/src/pages/ResultsPage.tsx:118-145 | the callback throws exactly when the query is non-empty, misses the keyword, and there is no selection |
| ResultsPage.KeepMeansShown | client/src/pages/ResultsPage.tsx:118-145 | where it does not throw, the callback keeps a result exactly when it is to be shown |
| ResultsPage.FilterLoaded | client/src/pages/ResultsPage.tsx:118-145 | fails exactly when some result makes the callback throw; otherwise no longer than its input |
| ResultsPage.FilteredResults | client/src/pages/ResultsPage.tsx:118-120 | nothing before the results load |
| ResultsPage.FilterLoadedExact | client/src/pages/ResultsPage.tsx:118-145 | the filter keeps exactly the results to be shown, in their order |
| ResultsPage.InitialKeepsAll | client/src/pages/ResultsPage.tsx:91-145 | the initial filters show every loaded result |
| ResultsPage.BoundsInclusive | client/src/pages/ResultsPage.tsx:128-136 | both score bounds are inclusive, and a bound of 0 is applied rather than ignored |
| ResultsPage.StatusAllIgnored | client/src/pages/ResultsPage.tsx:138-141 | without a status, or with 'all', a result's status does not matter |
| ResultsPage.StatusSelects | client/src/pages/ResultsPage.tsx:138-141 | with any other status, only results with that status are shown |
| ResultsTable.BandRanges | client/src/components/results/ResultsTable.tsx:14-24 | the score bands cut the integers into [90, ∞), [70, 90), [50, 70) and below 50, and every score lies in exactly one |
| ResultsTable.BandMonotone | client/src/components/results/ResultsTable.tsx:14-24 | a higher score never gets a worse band |
| ResultsTable.CellBand | client/src/components/results/ResultsTable.tsx:14-24 | a null score gets the band of 0; an undefined one fails every comparison and is poor |
| ResultsTable.StatusBadge | client/src/components/results/ResultsTable.tsx:169-185 | any status other than the three known ones shows its own text with the info class |
| ResultsTable.BadgeReadsBack | client/src/components/results/ResultsTable.tsx:169-185 | the three known statuses get distinct classes that name them back; every other status gets none |
| Text.LowerHasNoUpper | server/services/aiService.js:158 | `toLowerCase` leaves no upper-case letter behind |
| Text.LowerIdempotent | server/services/aiService.js:158-168 | lowering twice is lowering once |
| Text.SplitJoin | server/services/metaService.js:133-137 | joining non-empty words with single spaces and splitting gives the words back |
| Text.SplitJoinEnds | server/services/metaService.js:133-137 | the same holds when only the first and last word may be empty |
| Text.SplitCollapse | server/services/metaService.js:133 | the pieces of `split(/\s+/)` joined with single spaces give the string with each whitespace run collapsed to one space |
| Text.JoinInjective | server/services/metaService.js:133-137 | space-joining whitespace-free pieces is injective, so with `SplitCollapse` the pieces are determined |
| Text.SplitInnerNonEmpty | server/services/metaService.js:133 | only the first and the last piece of a split can be empty |
| Text.Trim | server/models/MatchResult.js:38 | `trim()` removes exactly the leading and trailing whitespace: the result is a slice of the string with only whitespace around it, empty exactly for a blank string, otherwise starting and ending with a non-whitespace character |
| Text.TrimIdempotent | server/models/MatchResult.js:38 | trimming twice is trimming once |
| Text.CapitalizeSameLower | server/services/metaService.js:138 | capitalising changes no letter but the first's case, so it lowers to the same string |
| Text.CapitalizeKeepsWordCount | server/services/metaService.js:137-138 | capitalizing never changes the number of words |
| Visualization.Generate | client/src/services/visualizationService.ts:19-28 | all charts are drawn from the same results: one correlation point per audience row, and no progress chart exactly when there are no results |

## Left out

- Persistence, the network and the file system: the spreadsheet library, `fs` and downloads. MongoDB and Mongoose are replaced by sequences. The calls to the Meta Graph API and OpenAI, with their prompts and JSON parsing, are replaced by reply values.
- Randomness and clocks: every `Math.random` draw is a parameter, and so is every timestamp. The draws are the score jitter and the audience sizes of the simulated suggestions.
- `calculateInterestScore` in server/src/routes/resultRoutes.ts: a logarithmic random score. Each suggestion's score is an input.
- The score `analyze` computes from `getAIMatchScore` in server/src/routes/resultRoutes.ts: the score is computed and never used, so only `TsResultRoutes.AiScore` models it.
- Floating point. Averages, medians and percentages are exact reals, so rounding of the doubles is not modelled; for example, (29 / 100) × 100 gives 28.999… in doubles. The audience cell of an export is kept as the size it shows in millions (`Millions`). Its `toFixed` text is not modelled.
- Regular expressions in the results query (server/routes/aiRoutes.js:228-234): the query is read as a literal, case-insensitive substring, so metacharacters are not interpreted.
- MongoDB details:
  - the tie order of `sort` among equal keys is taken to be stable;
  - every id is taken to be well formed, so the `CastError` of a malformed ObjectId is not modelled.
- Object key order: `Object.entries` lists integer-like keys first in ascending order, whereas `Visualization.Frequencies` and the status counts keep insertion order for every key. Keys inherited from `Object.prototype`, such as `constructor`, are not modelled.
- `Math.min(...sizes)` and `Math.max(...sizes)` throw a RangeError on arrays beyond the engine's argument limit; that limit is not modelled.
- `readExcelBatch` is called by excelProcessingService.js but not defined in server/services/excelService.js. The reader is therefore a parameter, and `ExcelProcessing.AsShippedInsertsNothing` states what happens when every read throws.
- The `progress` writes of `processColumnData` target a field that server/models/File.js does not declare, so Mongoose strict mode drops them. The model returns the attempted values instead of storing them.
- Scheduling: the `setTimeout` background dispatch and event-loop yields. The background extraction of server/routes/fileRoutes.js runs as the step right after the response.
- ExtractInBackground: the saves of `Promise.all` run concurrently in the source; the model performs them in item order, so ids follow the items and the first failing save decides the error message.
- Unicode beyond Latin-1: `IsSpace` follows the whitespace of `\s`, but `LowerChar` and `UpperChar` map only ASCII and Latin-1 letters.
- Lower: keeps the length of the string, whereas `toLowerCase` can lengthen it ('İ' lowers to two characters); only ASCII and Latin-1 capitals are lowered.
- CapitalizeSameLower: holds for the Latin-1 model of `toUpperCase`; in JavaScript 'ß' upper-cases to 'SS' and 'ÿ' to 'Ÿ', outside Latin-1.
- WordCloudWordShape: `word.length > 2` (client/src/services/visualizationService.ts:178) counts UTF-16 code units, while the model counts characters, so a word of astral characters can differ.
- Export: which formats the spreadsheet writer recognises is the parameter `writable`; the library's list of book types is not part of this model.
- AnalyzeAllDistinct: distinct keywords are promised only for text cells; for cells of other types see `TsResultRoutes.TypedDuplicatesShareKeyword`.
- The numeric `required` paths of server/src/models/Result.ts (`audience.size` at line 6, `score` at line 9, `matchScore` at line 26): a provider item always carries a numeric size and score, so an interest without `audience_size`, and a NaN score, are not modelled.
- A `column` in the analysis request body that is not a string (resultRoutes.ts:40) is not modelled; the column is always text.
- A `format` in the export request body that is not a string (exportRoutes.ts:15) is not modelled; the format is always text, and an explicit `null` is not distinguished from a missing field.
- The remaining application is not part of this model:
  - authentication (server/middleware/auth.js, the auth routes);
  - server/routes/metaRoutes.js and server/src/config/apiConfig.ts;
  - server/index.js and server/src/index.ts (only their error-handler status rule, `err.statusCode || 500`, is used);
  - GET `/:id` in server/routes/fileRoutes.js, a plain look-up, and GET `/health` in server/routes/aiRoutes.js;
  - the React pages, forms and mock data.

## Findings

| source | as written | input that shows it | evidently intended | confidence | as-written member | corrected member |
|---|---|---|---|---|---|---|
| client/src/services/visualizationService.ts:69-87 | the five buckets are half-open, the last being [80, 100), so a score of 100 is counted in none and the percentages do not add up to 100 | a single processed result with `matchScore` 100 | the last bucket closed, [80, 100], so that every score in [0, 100] is counted once | not executed | Visualization.SummaryMissesHundred | Visualization.SummaryClosedComplete |

The dashboard summary is modelled as written (`Visualization.SummaryOf`, used
by `Visualization.Generate`); `Visualization.SummaryClosed` is the corrected
summary, and `Visualization.HundredInNoBucket` and
`Visualization.BucketsClosedCover` state the same at the level of the buckets.
The following are modelled as written, each exhibited by its own lemma and not
corrected, because the intended behaviour is unclear:
- a filter callback on the results page that throws for a result without a
  selection (`ResultsPage.Keep`);
- `getAIMatchScore` yielding NaN for a non-numeric reply (`TsResultRoutes.AiScore`);
- a stray flag that re-selection never clears (`MatchResults.ChangeSelectedKeepsStrayFlag`);
- duplicate pending results when a column is selected twice (`FileRoutes.ReselectionDuplicates`);
- a column rejected because its first data cell is empty (`ExcelService.FirstRowGapRejects`).

=== FILE: ai_routes.dfy ===
/** The AI routes of the JavaScript server (server/routes/aiRoutes.js): the
    evaluation endpoint, processing one stored result, re-selecting a
    candidate, the filtered and paged result listing, and deletion. */
module AiRoutes {
  import opened Wrappers
  import Text
  import Numbers
  import Seqs
  import Sorting
  import MatchResults
  import AiService
  import Store
  import Http

  type MatchResult = MatchResults.MatchResult
  type Suggestion = MatchResults.Suggestion

  /** A query-string value is given when it is present and not empty. */
  predicate Given(q: Option<string>) {
    q.Some? && q.value != ""
  }

  // ---------------------------------------------------------------------
  // Evaluate
  // ---------------------------------------------------------------------

  /** `POST /evaluate`: a missing or empty keyword, or no non-empty
      suggestion array, is a 400; a failing evaluation is a 500. */
  function Evaluate(config: AiService.AiConfig, reply: AiService.AiReply, keyword: Option<string>,
                    suggestions: Option<seq<Suggestion>>, jitters: seq<real>): (out: Http.Reply<AiService.Evaluated>)
    requires suggestions.Some? ==> |jitters| == |suggestions.value|
    ensures out == Http.Rejected(Http.BadRequest) <==> !Given(keyword) || suggestions.None? || suggestions.value == []
    ensures out.Ok? ==>
      && out.code == 200
      && AiService.EvaluateMatches(config, reply, keyword.value, suggestions.value, jitters) == Success(out.data)
    ensures Given(keyword) && suggestions.Some? && suggestions.value != [] && out.Rejected? ==>
      && out.code == Http.ServerError
      && AiService.EvaluateMatches(config, reply, keyword.value, suggestions.value, jitters).Failure?
  {
    if !Given(keyword) || suggestions.None? || suggestions.value == [] then Http.Rejected(Http.BadRequest)
    else match AiService.EvaluateMatches(config, reply, keyword.value, suggestions.value, jitters)
      case Failure(_) => Http.Rejected(Http.ServerError)
      case Success(e) => Http.Ok(200, e)
  }

  /** Past the guard, the evaluation names a valid best candidate. */
  lemma EvaluateBestIndexValid(config: AiService.AiConfig, reply: AiService.AiReply, keyword: Option<string>,
                               suggestions: Option<seq<Suggestion>>, jitters: seq<real>)
    requires suggestions.Some? ==> |jitters| == |suggestions.value|
    requires Evaluate(config, reply, keyword, suggestions, jitters).Ok?
    ensures var e := Evaluate(config, reply, keyword, suggestions, jitters).data;
      e.bestMatchIndex < |e.suggestions| == |suggestions.value|
  {
    AiService.EvaluateMatchesIndexValid(config, reply, keyword.value, suggestions.value, jitters);
  }

  // ---------------------------------------------------------------------
  // Process one result
  // ---------------------------------------------------------------------

  /** `POST /process-result/:id`: an unknown id is a 404, a processed result
      or one without candidates a 400; otherwise the candidates are
      evaluated against the keyword and `markProcessed` stores the outcome.
      A failing evaluation, an invalid best index or a score outside the
      schema bounds is a 500 and stores nothing. */
  function ProcessResult(db: Store.Db, id: nat, config: AiService.AiConfig, reply: AiService.AiReply,
                         jitters: seq<real>, now: int): (out: (Store.Db, Http.Reply<MatchResult>))
    requires var k := Store.FindResult(db.results, id);
      k.Some? ==> |jitters| == |db.results[k.value].suggestions|
    ensures Store.FindResult(db.results, id).None? ==> out == (db, Http.Rejected(Http.NotFound))
    ensures var k := Store.FindResult(db.results, id);
      k.Some? && db.results[k.value].status == MatchResults.Processed ==> out == (db, Http.Rejected(Http.BadRequest))
    ensures var k := Store.FindResult(db.results, id);
      k.Some? && db.results[k.value].suggestions == [] ==> out == (db, Http.Rejected(Http.BadRequest))
    ensures out.1.Rejected? ==> out.0 == db
    ensures out.1.Ok? ==>
      var k := Store.FindResult(db.results, id).value;
      var r := db.results[k];
      && r.status != MatchResults.Processed && r.suggestions != []
      && out.1.code == 200
      && out.0 == db.(results := db.results[k := out.1.data])
      && var e := AiService.EvaluateMatches(config, reply, r.originalValue, r.suggestions, jitters);
      && e.Success?
      && MatchResults.MarkProcessed(r, e.value.suggestions, Some(e.value.bestMatchIndex as int),
                                    e.value.bestMatchScore, now) == Success(out.1.data)
      && MatchResults.SchemaValid(out.1.data)
  {
    match Store.FindResult(db.results, id)
    case None => (db, Http.Rejected(Http.NotFound))
    case Some(k) =>
      var r := db.results[k];
      if r.status == MatchResults.Processed then (db, Http.Rejected(Http.BadRequest))
      else if r.suggestions == [] then (db, Http.Rejected(Http.BadRequest))
      else match AiService.EvaluateMatches(config, reply, r.originalValue, r.suggestions, jitters)
        case Failure(_) => (db, Http.Rejected(Http.ServerError))
        case Success(e) =>
          match MatchResults.MarkProcessed(r, e.suggestions, Some(e.bestMatchIndex as int), e.bestMatchScore, now)
          case Failure(_) => (db, Http.Rejected(Http.ServerError))
          case Success(r') =>
            match MatchResults.Save(r')
            case Failure(_) => (db, Http.Rejected(Http.ServerError))
            case Success(saved) => (db.(results := db.results[k := saved]), Http.Ok(200, saved))
  }

  /** A processed result is processed once: the stored record is 'processed',
      its best candidate is the selection, and asking again is a 400 that
      changes nothing. */
  lemma ProcessResultOnce(db: Store.Db, id: nat, config: AiService.AiConfig, reply: AiService.AiReply,
                          jitters: seq<real>, now: int, now2: int)
    requires var k := Store.FindResult(db.results, id);
      k.Some? ==> |jitters| == |db.results[k.value].suggestions|
    requires ProcessResult(db, id, config, reply, jitters, now).1.Ok?
    ensures var (db', reply') := ProcessResult(db, id, config, reply, jitters, now);
      var k := Store.FindResult(db.results, id).value;
      && reply'.data.status == MatchResults.Processed
      && reply'.data.selected.Some? && reply'.data.selected.value.isSelected
      && Store.FindResult(db'.results, id) == Some(k)
      && |db'.results[k].suggestions| == |jitters|
      && ProcessResult(db', id, config, reply, jitters, now2) == (db', Http.Rejected(Http.BadRequest))
  {
    var k := Store.FindResult(db.results, id).value;
    var (db', reply') := ProcessResult(db, id, config, reply, jitters, now);
    ProcessResultStores(db, id, config, reply, jitters, now);
    FindAfterUpdate(db.results, k, id, reply'.data);
    RejectProcessed(db', id, k, config, reply, jitters, now2);
  }

  /** What a successful processing stores: a 'processed' record with as many
      candidates as before and its best candidate selected. */
  lemma ProcessResultStores(db: Store.Db, id: nat, config: AiService.AiConfig, reply: AiService.AiReply,
                            jitters: seq<real>, now: int)
    requires var k := Store.FindResult(db.results, id);
      k.Some? ==> |jitters| == |db.results[k.value].suggestions|
    requires ProcessResult(db, id, config, reply, jitters, now).1.Ok?
    ensures var k := Store.FindResult(db.results, id).value;
      var (db', reply') := ProcessResult(db, id, config, reply, jitters, now);
      && k < |db'.results| && db'.results[k] == reply'.data && reply'.data.id == id
      && reply'.data.status == MatchResults.Processed
      && |reply'.data.suggestions| == |db.results[k].suggestions|
      && reply'.data.selected.Some? && reply'.data.selected.value.isSelected
  {
    var k := Store.FindResult(db.results, id).value;
    var r := db.results[k];
    AiService.EvaluateMatchesIndexValid(config, reply, r.originalValue, r.suggestions, jitters);
  }

  /** A record already processed is refused and nothing changes. */
  lemma RejectProcessed(db: Store.Db, id: nat, k: nat, config: AiService.AiConfig, reply: AiService.AiReply,
                        jitters: seq<real>, now: int)
    requires Store.FindResult(db.results, id) == Some(k)
    requires db.results[k].status == MatchResults.Processed
    requires |jitters| == |db.results[k].suggestions|
    ensures ProcessResult(db, id, config, reply, jitters, now) == (db, Http.Rejected(Http.BadRequest))
  {
  }

  /** Replacing the record found for an id by one with the same id keeps it
      the one found. */
  lemma FindAfterUpdate(results: seq<MatchResult>, k: nat, id: nat, r: MatchResult)
    requires Store.FindResult(results, id) == Some(k) && r.id == id
    ensures Store.FindResult(results[k := r], id) == Some(k)
  {
    assert results[k := r][k].id == id;
  }

  // ---------------------------------------------------------------------
  // Change the selection
  // ---------------------------------------------------------------------

  /** `PUT /result/:id/suggestion`: an index that is not an integer of at
      least 0 is a 400, an unknown id a 404, an index past the candidates a
      400; in those cases nothing is stored. Otherwise the selection moves to
      that candidate through `changeSelectedSuggestion`. */
  function ChangeSuggestion(db: Store.Db, id: nat, index: Option<int>): (out: (Store.Db, Http.Reply<MatchResult>))
    ensures index.None? || index.value < 0 ==> out == (db, Http.Rejected(Http.BadRequest))
    ensures index.Some? && index.value >= 0 && Store.FindResult(db.results, id).None? ==>
      out == (db, Http.Rejected(Http.NotFound))
    ensures out.1.Rejected? ==> out.0 == db
    ensures out.1.Ok? <==>
      && index.Some? && Store.FindResult(db.results, id).Some?
      && 0 <= index.value < |db.results[Store.FindResult(db.results, id).value].suggestions|
    ensures out.1.Ok? ==>
      var k := Store.FindResult(db.results, id).value;
      && out.1.code == 200
      && MatchResults.ChangeSelectedSuggestion(db.results[k], index.value) == Success(out.1.data)
      && out.0 == db.(results := db.results[k := out.1.data])
  {
    if index.None? || index.value < 0 then (db, Http.Rejected(Http.BadRequest))
    else match Store.FindResult(db.results, id)
      case None => (db, Http.Rejected(Http.NotFound))
      case Some(k) =>
        var r := db.results[k];
        if index.value >= |r.suggestions| then (db, Http.Rejected(Http.BadRequest))
        else
          var r' := MatchResults.ChangeSelectedSuggestion(r, index.value).value;
          (db.(results := db.results[k := r']), Http.Ok(200, r'))
  }

  /** From a coherent record, the stored record afterwards has exactly the
      chosen candidate flagged, and sending the same request again changes
      nothing. */
  lemma ChangeSuggestionRepeat(db: Store.Db, id: nat, i: int)
    requires ChangeSuggestion(db, id, Some(i)).1.Ok?
    requires MatchResults.SelectionCoherent(db.results[Store.FindResult(db.results, id).value])
    ensures var db' := ChangeSuggestion(db, id, Some(i)).0;
      var k := Store.FindResult(db.results, id).value;
      && MatchResults.ExactlyFlagged(db'.results[k].suggestions, i)
      && ChangeSuggestion(db', id, Some(i)).0 == db'
  {
    var k := Store.FindResult(db.results, id).value;
    var r := db.results[k];
    MatchResults.ChangeSelectedFlagsExactlyOne(r, i);
    MatchResults.ChangeSelectedIdempotent(r, i);
    var r' := MatchResults.ChangeSelectedSuggestion(r, i).value;
    FindAfterUpdate(db.results, k, id, r');
  }

  // ---------------------------------------------------------------------
  // Listing
  // ---------------------------------------------------------------------

  /** The query string of `GET /results`; `fileId` is None when it is missing
      or empty. */
  datatype ResultQuery = ResultQuery(
    page: Option<string>,
    limit: Option<string>,
    fileId: Option<nat>,
    status: Option<string>,
    minScore: Option<string>,
    maxScore: Option<string>,
    query: Option<string>)

  /** `{ $gte: bound }` on `matchScore`: a null score never matches. */
  predicate AtLeast(score: Option<int>, bound: Option<int>) {
    score.Some? && bound.Some? && score.value >= bound.value
  }

  predicate AtMost(score: Option<int>, bound: Option<int>) {
    score.Some? && bound.Some? && score.value <= bound.value
  }

  /** The case-insensitive search on the keyword or on the selected value
      (a literal query, without regular-expression operators). */
  predicate Mentions(r: MatchResult, query: string) {
    || Text.Contains(Text.Lower(r.originalValue), Text.Lower(query))
    || (r.selected.Some? && Text.Contains(Text.Lower(r.selected.value.value), Text.Lower(query)))
  }

  /** Whether a given score bound is NaN (`parseInt` reads no digit): Mongoose
      cannot cast NaN to a number, so the query fails with a CastError. */
  predicate BadBound(q: ResultQuery) {
    || (Given(q.minScore) && Numbers.ParseInt(q.minScore.value).None?)
    || (Given(q.maxScore) && Numbers.ParseInt(q.maxScore.value).None?)
  }

  /** The filter document the route builds, as a test on one record. */
  predicate Keep(r: MatchResult, fileId: nat, q: ResultQuery) {
    && r.file == fileId
    && (Given(q.status) && q.status.value != "all" ==> MatchResults.StatusName(r.status) == q.status.value)
    && (Given(q.minScore) ==> AtLeast(r.matchScore, Numbers.ParseInt(q.minScore.value)))
    && (Given(q.maxScore) ==> AtMost(r.matchScore, Numbers.ParseInt(q.maxScore.value)))
    && (Given(q.query) ==> Mentions(r, q.query.value))
  }

  function RowIndexKey(r: MatchResult): int {
    r.rowIndex
  }

  /** Every matching result, by ascending row number. */
  function Matching(results: seq<MatchResult>, fileId: nat, q: ResultQuery): (ms: seq<MatchResult>)
    ensures forall r :: r in ms <==> r in results && Keep(r, fileId, q)
    ensures |ms| == Seqs.CountIf(results, (r: MatchResult) => Keep(r, fileId, q))
    ensures Sorting.SortedAsc(ms, RowIndexKey)
  {
    var kept := Seqs.Filter(results, (r: MatchResult) => Keep(r, fileId, q));
    var ms := Sorting.SortAsc(kept, RowIndexKey);
    assert forall r :: r in ms <==> r in kept by {
      forall r ensures r in ms <==> r in kept {
        assert r in multiset(ms) <==> r in multiset(kept);
      }
    }
    ms
  }

  /** `GET /results`: without a file id a 400; a score bound that is NaN makes
      the query fail, which the error handler answers with a 500; otherwise
      the matching results by ascending row number, page 1 and 50 per page by
      default. */
  function ListResults(results: seq<MatchResult>, q: ResultQuery): (out: Http.Reply<Http.Page<MatchResult>>)
    ensures q.fileId.None? ==> out == Http.Rejected(Http.BadRequest)
    ensures q.fileId.Some? && BadBound(q) ==> out == Http.Rejected(Http.ServerError)
    ensures q.fileId.Some? && !BadBound(q) ==>
      var page := Http.QueryInt(q.page, 1);
      var limit := Http.QueryInt(q.limit, 50);
      match Http.Paginate(Matching(results, q.fileId.value, q), page, limit)
      case Failure(code) => out == Http.Rejected(code)
      case Success(pg) => out == Http.Ok(200, pg)
  {
    if q.fileId.None? then Http.Rejected(Http.BadRequest)
    else if BadBound(q) then Http.Rejected(Http.ServerError)
    else
      match Http.Paginate(Matching(results, q.fileId.value, q), Http.QueryInt(q.page, 1), Http.QueryInt(q.limit, 50))
      case Failure(code) => Http.Rejected(code)
      case Success(pg) => Http.Ok(200, pg)
  }

  /** A listed page holds only matching results of the file, by ascending row
      number, and counts all of them. */
  lemma ListResultsSound(results: seq<MatchResult>, q: ResultQuery)
    requires ListResults(results, q).Ok?
    ensures var pg := ListResults(results, q).data;
      && pg.totalItems == Seqs.CountIf(results, (r: MatchResult) => Keep(r, q.fileId.value, q))
      && (forall k :: 0 <= k < |pg.items| ==>
            pg.items[k] in results && Keep(pg.items[k], q.fileId.value, q) && pg.items[k].file == q.fileId.value)
      && Sorting.SortedAsc(pg.items, RowIndexKey)
  {
    var ms := Matching(results, q.fileId.value, q);
    var page := Http.QueryInt(q.page, 1);
    var limit := Http.QueryInt(q.limit, 50);
    var pg := ListResults(results, q).data;
    assert Http.Paginate(ms, page, limit) == Success(pg);
    PageOfSorted(ms, page, limit);
  }

  /** A page of the sorted matches is sorted and drawn from them. */
  lemma PageOfSorted(ms: seq<MatchResult>, page: int, limit: int)
    requires limit != 0 && Http.Paginate(ms, page, limit).Success?
    requires Sorting.SortedAsc(ms, RowIndexKey)
    ensures var items := Http.Paginate(ms, page, limit).value.items;
      && (forall k :: 0 <= k < |items| ==> items[k] in ms)
      && Sorting.SortedAsc(items, RowIndexKey)
  {
    var skip := (page - 1) * limit;
    if skip < |ms| {
      var to := if skip + Http.Take(limit) < |ms| then skip + Http.Take(limit) else |ms|;
      SliceOfSorted(ms, skip, to);
    }
  }

  /** A slice of the sorted matches is sorted and drawn from them. */
  lemma SliceOfSorted(ms: seq<MatchResult>, from: nat, to: nat)
    requires from <= to <= |ms| && Sorting.SortedAsc(ms, RowIndexKey)
    ensures forall k :: 0 <= k < to - from ==> ms[from..to][k] in ms
    ensures Sorting.SortedAsc(ms[from..to], RowIndexKey)
  {
    forall k | 0 <= k < to - from
      ensures ms[from..to][k] in ms
    {
      assert ms[from..to][k] == ms[from + k];
    }
  }

  /** The two score bounds form one inclusive range: with decimal bounds a and
      b a result is kept exactly when it has a score in [a, b], including a
      bound of 0. */
  lemma ScoreRangeInclusive(r: MatchResult, fileId: nat, q: ResultQuery, a: int, b: int)
    requires r.file == fileId
    requires q.status.None? && q.query.None?
    requires q.minScore == Some(Numbers.IntString(a)) && q.maxScore == Some(Numbers.IntString(b))
    ensures Keep(r, fileId, q) <==> r.matchScore.Some? && a <= r.matchScore.value <= b
  {
    Numbers.ParseIntString(a);
    Numbers.ParseIntString(b);
  }

  /** The status 'all' is the same as no status. */
  lemma StatusAllIsNoFilter(r: MatchResult, fileId: nat, q: ResultQuery)
    ensures Keep(r, fileId, q.(status := Some("all"))) == Keep(r, fileId, q.(status := None))
  {
  }

  /** A bound `parseInt` cannot read fails the whole listing with a 500,
      whatever is stored. */
  lemma UnparsableBoundFails(results: seq<MatchResult>, q: ResultQuery)
    requires q.fileId.Some? && q.minScore == Some("abc")
    ensures ListResults(results, q) == Http.Rejected(Http.ServerError)
  {
    assert Numbers.ParseInt("abc") == None;
  }

  // ---------------------------------------------------------------------
  // Delete
  // ---------------------------------------------------------------------

  /** `DELETE /results/:id`: an unknown id is a 404; otherwise that record is
      removed and the others stay in order. */
  function DeleteResult(db: Store.Db, id: nat): (out: (Store.Db, Http.Reply<bool>))
    ensures Store.FindResult(db.results, id).None? ==> out == (db, Http.Rejected(Http.NotFound))
    ensures Store.FindResult(db.results, id).Some? ==>
      var k := Store.FindResult(db.results, id).value;
      && out.1 == Http.Ok(200, true)
      && out.0 == db.(results := db.results[..k] + db.results[k + 1..])
      && |out.0.results| == |db.results| - 1
      && multiset(out.0.results) + multiset{db.results[k]} == multiset(db.results)
  {
    match Store.FindResult(db.results, id)
    case None => (db, Http.Rejected(Http.NotFound))
    case Some(k) =>
      assert db.results == db.results[..k] + [db.results[k]] + db.results[k + 1..];
      (db.(results := db.results[..k] + db.results[k + 1..]), Http.Ok(200, true))
  }

  /** `DELETE /results`: no ids, or an empty list, is a 400; otherwise every
      result whose id is listed is removed and the reply counts them. */
  function BulkDelete(db: Store.Db, ids: Option<seq<nat>>): (out: (Store.Db, Http.Reply<nat>))
    ensures ids.None? || ids.value == [] ==> out == (db, Http.Rejected(Http.BadRequest))
    ensures ids.Some? && ids.value != [] ==>
      && out.1.Ok? && out.1.code == 200
      && out.1.data == Seqs.CountIf(db.results, (r: MatchResult) => r.id in ids.value)
      && (forall r :: r in out.0.results <==> r in db.results && r.id !in ids.value)
      && out.0.files == db.files && out.0.nextId == db.nextId
  {
    if ids.None? || ids.value == [] then (db, Http.Rejected(Http.BadRequest))
    else
      var kept := Store.DropIds(db.results, ids.value);
      var n := |db.results| - |kept|;
      assert n == Seqs.CountIf(db.results, (r: MatchResult) => r.id in ids.value) by {
        DeletedCount(db.results, ids.value);
      }
      assert forall r :: r in kept <==> r in db.results && r.id !in ids.value;
      (db.(results := kept), Http.Ok(200, n))
  }

  /** What `deleteMany` reports: the number of records whose id was listed. */
  lemma DeletedCount(results: seq<MatchResult>, ids: seq<nat>)
    ensures |results| - |Store.DropIds(results, ids)| == Seqs.CountIf(results, (r: MatchResult) => r.id in ids)
  {
    var listed := (r: MatchResult) => r.id in ids;
    var unlisted := (r: MatchResult) => r.id !in ids;
    Seqs.CountIfComplement(results, listed, unlisted);
    assert |Store.DropIds(results, ids)| == Seqs.CountIf(results, unlisted);
  }

  /** After a bulk delete no listed id is found, and every other id is found
      as before. */
  lemma BulkDeleteFinds(db: Store.Db, ids: seq<nat>, id: nat)
    requires ids != []
    ensures var db' := BulkDelete(db, Some(ids)).0;
      && (id in ids ==> Store.FindResult(db'.results, id).None?)
      && (id !in ids ==> (Store.FindResult(db'.results, id).Some? <==> Store.FindResult(db.results, id).Some?))
  {
    var db' := BulkDelete(db, Some(ids)).0;
    if id !in ids {
      var k := Store.FindResult(db.results, id);
      if k.Some? {
        assert db.results[k.value] in db'.results;
      }
      var k' := Store.FindResult(db'.results, id);
      if k'.Some? {
        assert db'.results[k'.value] in db.results;
      }
    }
  }
}

=== FILE: ai_service.dfy ===
/** The relevance-scoring service of the JavaScript server
    (server/services/aiService.js): joining the language model's scores back
    onto the candidates, ordering them and resolving the best match; the
    deterministic heuristic with random jitter used as the development
    fallback; and the fallback logic of `evaluateMatches`. The model's reply
    and the jitter are inputs. */
module AiService {
  import opened Wrappers
  import opened Text
  import Seqs
  import Sorting
  import MatchResults

  type Suggestion = MatchResults.Suggestion

  /** One entry of the reply's `scores` array. */
  datatype ScoreEntry = ScoreEntry(suggestion: string, score: Option<int>)

  /** The reply's `bestMatch`. */
  datatype BestMatch = BestMatch(suggestion: string, score: Option<int>)

  datatype Evaluation = Evaluation(scores: seq<ScoreEntry>, bestMatch: BestMatch)

  /** What the service hands to `markProcessed`. */
  datatype Evaluated = Evaluated(suggestions: seq<Suggestion>, bestMatchIndex: nat, bestMatchScore: Option<int>)

  /** The language model's reply, or a failure anywhere on the way (request,
      missing content, unparsable JSON). */
  datatype AiReply = Parsed(evaluation: Evaluation) | AiFailed

  datatype AiConfig = AiConfig(client: bool, development: bool)

  datatype AiError =
    | NotConfigured     // 'API OpenAI non configurée'
    | ReplyFailed       // the request or the parse failed
    | TypeError         // `scoredSuggestions[0].score` on an empty list

  /** `s.score || 0`. */
  function ScoreKey(s: Suggestion): int {
    if s.score.Some? then s.score.value else 0
  }

  /** Index of the first score entry whose text is exactly `value` (`find`). */
  function FindEntry(entries: seq<ScoreEntry>, value: string): (k: Option<nat>)
    ensures k.Some? ==> k.value < |entries| && entries[k.value].suggestion == value
    ensures k.Some? ==> forall j :: 0 <= j < k.value ==> entries[j].suggestion != value
    ensures k.None? ==> forall j :: 0 <= j < |entries| ==> entries[j].suggestion != value
  {
    if |entries| == 0 then None
    else if entries[0].suggestion == value then Some(0)
    else
      var rest := FindEntry(entries[1..], value);
      if rest.Some? then Some(rest.value + 1) else None
  }

  /** Index of the first candidate whose value is exactly `value` (`findIndex`). */
  function FindValue(xs: seq<Suggestion>, value: string): (k: Option<nat>)
    ensures k.Some? ==> k.value < |xs| && xs[k.value].value == value
    ensures k.Some? ==> forall j :: 0 <= j < k.value ==> xs[j].value != value
    ensures k.None? ==> forall j :: 0 <= j < |xs| ==> xs[j].value != value
  {
    if |xs| == 0 then None
    else if xs[0].value == value then Some(0)
    else
      var rest := FindValue(xs[1..], value);
      if rest.Some? then Some(rest.value + 1) else None
  }

  /** Each candidate takes the score of the first entry naming it exactly;
      a candidate no entry names is kept as it is. */
  function MergeScores(entries: seq<ScoreEntry>, originals: seq<Suggestion>): (r: seq<Suggestion>)
    ensures |r| == |originals|
    ensures forall k :: 0 <= k < |originals| && FindEntry(entries, originals[k].value).None? ==>
      r[k] == originals[k]
    ensures forall k :: 0 <= k < |originals| && FindEntry(entries, originals[k].value).Some? ==>
      r[k] == originals[k].(score := entries[FindEntry(entries, originals[k].value).value].score)
  {
    if |originals| == 0 then []
    else [MergeOne(entries, originals[0])] + MergeScores(entries, originals[1..])
  }

  function MergeOne(entries: seq<ScoreEntry>, s: Suggestion): Suggestion {
    match FindEntry(entries, s.value)
    case None => s
    case Some(j) => s.(score := entries[j].score)
  }

  /** `_processEvaluation`: the merged candidates in non-increasing score order
      (a missing score counts as 0, ties keep their order), the position of the
      first candidate named as best match or 0, and the best match's score. */
  function ProcessEvaluation(e: Evaluation, originals: seq<Suggestion>): (r: Evaluated)
    ensures |r.suggestions| == |originals|
    ensures multiset(r.suggestions) == multiset(MergeScores(e.scores, originals))
    ensures Sorting.SortedDesc(r.suggestions, ScoreKey)
    ensures Sorting.SameGroups(r.suggestions, MergeScores(e.scores, originals), ScoreKey)
    ensures |originals| > 0 ==> r.bestMatchIndex < |originals|
    ensures r.bestMatchIndex < |r.suggestions| && r.suggestions[r.bestMatchIndex].value == e.bestMatch.suggestion ==>
      forall j :: 0 <= j < r.bestMatchIndex ==> r.suggestions[j].value != e.bestMatch.suggestion
    ensures (exists j :: 0 <= j < |r.suggestions| && r.suggestions[j].value == e.bestMatch.suggestion) ==>
      r.suggestions[r.bestMatchIndex].value == e.bestMatch.suggestion
    ensures (forall j :: 0 <= j < |r.suggestions| ==> r.suggestions[j].value != e.bestMatch.suggestion) ==>
      r.bestMatchIndex == 0
    ensures r.bestMatchScore == e.bestMatch.score
  {
    var sorted := Sorting.SortDesc(MergeScores(e.scores, originals), ScoreKey);
    var best := FindValue(sorted, e.bestMatch.suggestion);
    Evaluated(sorted, if best.Some? then best.value else 0, e.bestMatch.score)
  }

  /** A reply without score entries reorders nothing but the candidates: the
      result is a permutation of the input. */
  lemma NoEntriesPermutes(best: BestMatch, originals: seq<Suggestion>)
    ensures multiset(ProcessEvaluation(Evaluation([], best), originals).suggestions) == multiset(originals)
  {
    var m := MergeScores([], originals);
    assert forall k :: 0 <= k < |originals| ==> m[k] == originals[k];
    assert m == originals;
  }

  /** Stability: unscored candidates, as the search returns them, keep the
      provider's order when the reply scores none of them. */
  lemma UnscoredKeepOrder(best: BestMatch, originals: seq<Suggestion>)
    requires forall k :: 0 <= k < |originals| ==> originals[k].score.None?
    ensures ProcessEvaluation(Evaluation([], best), originals).suggestions == originals
  {
    var m := MergeScores([], originals);
    assert forall k :: 0 <= k < |originals| ==> m[k] == originals[k];
    assert m == originals;
    Sorting.SortDescEqualKeys(originals, ScoreKey);
  }

  /** The first candidate of the ordered result has the highest score of all. */
  lemma ProcessedHeadIsBest(e: Evaluation, originals: seq<Suggestion>)
    requires |originals| > 0
    ensures var r := ProcessEvaluation(e, originals).suggestions;
      forall k :: 0 <= k < |r| ==> ScoreKey(r[k]) <= ScoreKey(r[0])
  {
  }

  /** A keyword word overlaps a candidate's words when one contains the other. */
  predicate Overlaps(word: string, words: seq<string>) {
    exists j | 0 <= j < |words| :: Contains(words[j], word) || Contains(word, words[j])
  }

  /** The number of the keyword's words that overlap some word of the candidate. */
  function Matches(keyword: string, value: string): (n: nat)
    ensures n <= |Split(Lower(keyword))|
  {
    var sw := Split(Lower(value));
    Seqs.CountIf(Split(Lower(keyword)), w => Overlaps(w, sw))
  }

  /** The heuristic score before jitter: 95 for a case-insensitive exact match,
      85 when the candidate contains the keyword, 60 + 10 per overlapping word
      (at most 85) when some word overlaps, else 50. */
  function BaseScore(keyword: string, value: string): (score: int)
    ensures 50 <= score <= 95
    ensures score == 95 <==> Lower(value) == Lower(keyword)
    ensures Lower(value) != Lower(keyword) && Contains(Lower(value), Lower(keyword)) ==> score == 85
    ensures !Contains(Lower(value), Lower(keyword)) ==> score <= 85 && (score == 50 <==> Matches(keyword, value) == 0)
    ensures !Contains(Lower(value), Lower(keyword)) && Matches(keyword, value) > 0 ==>
      score == 60 + Min(25, 10 * Matches(keyword, value))
  {
    var v, k := Lower(value), Lower(keyword);
    if v == k then ContainsSelf(v); 95
    else if Contains(v, k) then 85
    else
      var m := Matches(keyword, value);
      if m > 0 then 60 + Min(25, m * 10) else 50
  }

  /** The heuristic ranks candidates: an exact match above a containing one,
      a containing one at least as high as any other, and among the others
      more overlapping words never score lower. */
  lemma BaseScoreRanks(keyword: string, exact: string, containing: string, a: string, b: string)
    requires Lower(exact) == Lower(keyword)
    requires Lower(containing) != Lower(keyword) && Contains(Lower(containing), Lower(keyword))
    requires !Contains(Lower(a), Lower(keyword)) && !Contains(Lower(b), Lower(keyword))
    ensures BaseScore(keyword, exact) > BaseScore(keyword, containing) >= BaseScore(keyword, a)
    ensures Matches(keyword, a) <= Matches(keyword, b) ==> BaseScore(keyword, a) <= BaseScore(keyword, b)
    ensures Matches(keyword, a) < Matches(keyword, b) <= 3 ==> BaseScore(keyword, a) < BaseScore(keyword, b)
  {
    var se, sc := BaseScore(keyword, exact), BaseScore(keyword, containing);
    var sa, sb := BaseScore(keyword, a), BaseScore(keyword, b);
    assert se == 95 && sc == 85 && sa <= 85;
    OverlapOrder(Matches(keyword, a), Matches(keyword, b), sa, sb);
  }

  /** Scores given by the overlap rule follow the number of overlapping words. */
  lemma OverlapOrder(ma: nat, mb: nat, sa: int, sb: int)
    requires ma == 0 ==> sa == 50
    requires ma > 0 ==> sa == 60 + Min(25, 10 * ma)
    requires mb == 0 ==> sb == 50
    requires mb > 0 ==> sb == 60 + Min(25, 10 * mb)
    ensures ma <= mb ==> sa <= sb
    ensures ma < mb <= 3 ==> sa < sb
  {
  }

  function Min(a: int, b: int): int {
    if a <= b then a else b
  }

  function Max(a: int, b: int): int {
    if a >= b then a else b
  }

  /** `Math.round`: the nearest integer, halves rounded up. */
  function Round(x: real): (n: int)
    ensures n as real - 0.5 <= x < n as real + 0.5
  {
    (x + 0.5).Floor
  }

  /** `Math.round(Math.min(98, Math.max(35, base + jitter)))`: always in
      [35, 98], and within 5 of the base when the jitter is in [-5, 5) and the
      base is far enough from the bounds. */
  function Jittered(base: int, jitter: real): (score: int)
    ensures 35 <= score <= 98
    ensures -5.0 <= jitter < 5.0 && 40 <= base <= 93 ==> base - 5 <= score <= base + 5
  {
    var x := base as real + jitter;
    var clamped := if x > 98.0 then 98.0 else if x < 35.0 then 35.0 else x;
    Round(clamped)
  }

  /** The simulated score of one candidate. */
  function SimulatedScore(keyword: string, s: Suggestion, jitter: real): (r: Suggestion)
    ensures r == s.(score := r.score)
    ensures r.score.Some? && 35 <= r.score.value <= 98
  {
    s.(score := Some(Jittered(BaseScore(keyword, s.value), jitter)))
  }

  function ScoreAll(keyword: string, suggestions: seq<Suggestion>, jitters: seq<real>): (r: seq<Suggestion>)
    requires |jitters| == |suggestions|
    ensures |r| == |suggestions|
    ensures forall k :: 0 <= k < |r| ==> r[k] == SimulatedScore(keyword, suggestions[k], jitters[k])
  {
    if |suggestions| == 0 then []
    else [SimulatedScore(keyword, suggestions[0], jitters[0])] + ScoreAll(keyword, suggestions[1..], jitters[1..])
  }

  /** `_getSimulatedEvaluation` with the random draws as `jitters`: every
      candidate scored by the heuristic, ordered by non-increasing score, best
      index 0 and best score the first (highest) score. An empty candidate list
      makes `scoredSuggestions[0].score` throw. */
  function SimulatedEvaluation(keyword: string, suggestions: seq<Suggestion>, jitters: seq<real>)
    : (out: Result<Evaluated, AiError>)
    requires |jitters| == |suggestions|
    ensures out.Failure? <==> |suggestions| == 0
    ensures out.Failure? ==> out.error == TypeError
    ensures out.Success? ==>
      var r := out.value;
      && |r.suggestions| == |suggestions|
      && multiset(r.suggestions) == multiset(ScoreAll(keyword, suggestions, jitters))
      && Sorting.SortedDesc(r.suggestions, ScoreKey)
      && Sorting.SameGroups(r.suggestions, ScoreAll(keyword, suggestions, jitters), ScoreKey)
      && r.bestMatchIndex == 0
      && r.bestMatchScore == r.suggestions[0].score
      && (forall k :: 0 <= k < |r.suggestions| ==>
            r.suggestions[k].score.Some? && 35 <= r.suggestions[k].score.value <= r.bestMatchScore.value <= 98)
  {
    if |suggestions| == 0 then Failure(TypeError)
    else Success(RankScored(ScoreAll(keyword, suggestions, jitters)))
  }

  /** The scored candidates ordered by non-increasing score, the first named
      best with its score. */
  function RankScored(scored: seq<Suggestion>): (r: Evaluated)
    requires |scored| > 0
    requires forall k :: 0 <= k < |scored| ==> scored[k].score.Some? && 35 <= scored[k].score.value <= 98
    ensures |r.suggestions| == |scored|
    ensures multiset(r.suggestions) == multiset(scored)
    ensures Sorting.SortedDesc(r.suggestions, ScoreKey)
    ensures Sorting.SameGroups(r.suggestions, scored, ScoreKey)
    ensures r.bestMatchIndex == 0
    ensures r.bestMatchScore == r.suggestions[0].score
    ensures forall k :: 0 <= k < |r.suggestions| ==>
      r.suggestions[k].score.Some? && 35 <= r.suggestions[k].score.value <= r.bestMatchScore.value <= 98
  {
    var sorted := Sorting.SortDesc(scored, ScoreKey);
    SortedScoresBounded(scored, sorted);
    Evaluated(sorted, 0, sorted[0].score)
  }

  /** Sorted simulated scores all lie in [35, 98] below the first one. */
  lemma SortedScoresBounded(scored: seq<Suggestion>, sorted: seq<Suggestion>)
    requires |sorted| > 0 && multiset(sorted) == multiset(scored)
    requires Sorting.SortedDesc(sorted, ScoreKey)
    requires forall k :: 0 <= k < |scored| ==> scored[k].score.Some? && 35 <= scored[k].score.value <= 98
    ensures forall k :: 0 <= k < |sorted| ==>
      sorted[k].score.Some? && 35 <= sorted[k].score.value <= sorted[0].score.value <= 98
  {
    PermutationKeepsRange(scored, sorted);
    assert forall k :: 0 <= k < |sorted| ==> ScoreKey(sorted[k]) == sorted[k].score.value;
  }

  lemma PermutationKeepsRange(scored: seq<Suggestion>, sorted: seq<Suggestion>)
    requires multiset(sorted) == multiset(scored)
    requires forall k :: 0 <= k < |scored| ==> scored[k].score.Some? && 35 <= scored[k].score.value <= 98
    ensures forall k :: 0 <= k < |sorted| ==> sorted[k].score.Some? && 35 <= sorted[k].score.value <= 98
  {
    forall k | 0 <= k < |sorted|
      ensures sorted[k].score.Some? && 35 <= sorted[k].score.value <= 98
    {
      assert sorted[k] in multiset(scored);
      var j :| 0 <= j < |scored| && scored[j] == sorted[k];
    }
  }

  /** `evaluateMatches`: with a configured client and a parsed reply, the
      processed evaluation; otherwise the simulated evaluation in development
      mode, and a failure in any other mode. */
  function EvaluateMatches(config: AiConfig, reply: AiReply, keyword: string,
                           suggestions: seq<Suggestion>, jitters: seq<real>): (out: Result<Evaluated, AiError>)
    requires |jitters| == |suggestions|
    ensures config.client && reply.Parsed? ==> out == Success(ProcessEvaluation(reply.evaluation, suggestions))
    ensures !(config.client && reply.Parsed?) && config.development ==>
      out == SimulatedEvaluation(keyword, suggestions, jitters)
    ensures !(config.client && reply.Parsed?) && !config.development ==> out.Failure?
    ensures !config.client && !config.development ==> out == Failure(NotConfigured)
  {
    if config.client && reply.Parsed? then Success(ProcessEvaluation(reply.evaluation, suggestions))
    else if config.development then SimulatedEvaluation(keyword, suggestions, jitters)
    else if !config.client then Failure(NotConfigured)
    else Failure(ReplyFailed)
  }

  /** An evaluation that succeeds always carries a valid best index for
      `markProcessed`. */
  lemma EvaluateMatchesIndexValid(config: AiConfig, reply: AiReply, keyword: string,
                                  suggestions: seq<Suggestion>, jitters: seq<real>)
    requires |jitters| == |suggestions| && |suggestions| > 0
    requires EvaluateMatches(config, reply, keyword, suggestions, jitters).Success?
    ensures var r := EvaluateMatches(config, reply, keyword, suggestions, jitters).value;
      |r.suggestions| == |suggestions| && r.bestMatchIndex < |r.suggestions|
  {
  }

  /** A case-insensitive exact match scores 95 before jitter. */
  lemma ExactMatchExample()
    ensures BaseScore("shoes", "Shoes") == 95
  {
    assert Lower("Shoes") == "shoes" by {
      assert LowerChar('S') == 's';
    }
    assert Lower("shoes") == "shoes" by {
      var k := "shoes";
      assert forall i :: 0 <= i < |k| ==> !IsUpper(k[i]);
    }
  }
}

=== FILE: client_types.dfy ===
/** The client's view of a match result (client/src/types/index.ts), as the
    browser receives it from the server: fields the declared type calls
    mandatory can still be missing or null in the JSON, so they are modelled
    as they can arrive. */
module ClientTypes {
  import opened Wrappers

  /** A JavaScript number field that may be null or undefined. */
  datatype JsNumber = Null | Undefined | Num(n: int)

  /** `x || 0`: null, undefined and 0 all become 0. */
  function OrZero(x: JsNumber): (v: int)
    ensures x.Num? ==> v == x.n
    ensures !x.Num? ==> v == 0
  {
    if x.Num? then x.n else 0
  }

  /** A Meta suggestion: its name and audience size. A missing audience or
      size reads as 0, which every use treats like a falsy size. */
  datatype MetaSuggestion = MetaSuggestion(id: string, value: string, size: int)

  /** A match result; `status` is the raw string the server sent. */
  datatype MatchResult = MatchResult(
    id: string,
    originalValue: string,
    suggestions: seq<MetaSuggestion>,
    selected: Option<MetaSuggestion>,
    matchScore: JsNumber,
    status: string)
}

=== FILE: excel_processing.dfy ===
/** The batch path of the JavaScript server
    (server/services/excelProcessingService.js): `processColumnData`, which
    reads a file's rows window by window and stores one pending result per
    non-blank cell of the selected column, and the header/row layout of
    `exportLargeResults`. The batch reader is a parameter: the service calls
    `excelService.readExcelBatch`, which the spreadsheet service does not
    define, so as shipped every read throws; `AsShippedInsertsNothing` states
    what that does. */
module ExcelProcessing {
  import opened Wrappers
  import opened Sheets
  import Numbers
  import MatchResults
  import Files
  import Store
  import ExcelService

  // ---------------------------------------------------------------------
  // Windows
  // ---------------------------------------------------------------------

  /** `BATCH_SIZE`: smaller batches for larger files. */
  function BatchSize(rowCount: int): (size: nat)
    ensures size == 500 || size == 1000 || size == 2000
  {
    if rowCount > 50000 then 500 else if rowCount > 10000 then 1000 else 2000
  }

  /** A larger file never gets a larger batch, and the three sizes change at
      the two thresholds. */
  lemma BatchSizeMonotone(a: int, b: int)
    requires a <= b
    ensures BatchSize(b) <= BatchSize(a)
    ensures BatchSize(50000) == 1000 && BatchSize(50001) == 500
    ensures BatchSize(10000) == 2000 && BatchSize(10001) == 1000
  {
  }

  /** `Math.ceil(rowCount / BATCH_SIZE)`. */
  function TotalBatches(rowCount: int, size: nat): int
    requires size > 0
  {
    Numbers.CeilDiv(rowCount, size)
  }

  /** `startRow` of batch `b`. */
  function WindowStart(b: nat, size: nat): nat {
    b * size
  }

  /** `endRow` of batch `b`: `Math.min((b + 1) * size, rowCount)`. */
  function WindowEnd(b: nat, size: nat, rowCount: int): int {
    if (b + 1) * size < rowCount then (b + 1) * size else rowCount
  }

  /** Facts about one window: it starts before the last row, it is not empty,
      it ends where the next one starts or at the last row. */
  lemma WindowFacts(rowCount: int, size: nat, b: nat)
    requires size > 0 && b < TotalBatches(rowCount, size)
    ensures WindowStart(b, size) < WindowEnd(b, size, rowCount) <= rowCount
    ensures WindowEnd(b, size, rowCount) <= WindowStart(b + 1, size)
    ensures b + 1 < TotalBatches(rowCount, size) ==> WindowEnd(b, size, rowCount) == WindowStart(b + 1, size)
    ensures b + 1 == TotalBatches(rowCount, size) ==> WindowEnd(b, size, rowCount) == rowCount
  {
    var total := TotalBatches(rowCount, size);
    Numbers.MulLe(b, total - 1, size);
    if b + 1 < total {
      Numbers.MulLe(b + 1, total - 1, size);
    } else {
      assert (b + 1) * size == total * size;
    }
  }

  /** The windows of the batches are non-empty, adjacent, start at row 0 and
      end at the last row: they cover [0, rowCount) once, in ascending order. */
  lemma WindowsPartition(rowCount: nat, size: nat)
    requires size > 0
    ensures var total := TotalBatches(rowCount, size);
      && total >= 0
      && (rowCount == 0 <==> total == 0)
      && (forall b: nat :: b < total ==> WindowStart(b, size) < WindowEnd(b, size, rowCount) <= rowCount)
      && (forall b: nat :: b + 1 < total ==> WindowEnd(b, size, rowCount) == WindowStart(b + 1, size))
      && (total > 0 ==> WindowEnd(total - 1, size, rowCount) == rowCount)
  {
    var total := TotalBatches(rowCount, size);
    if total < 0 {
      Numbers.MulLe(total, -1, size);
    }
    forall b: nat | b < total
      ensures WindowStart(b, size) < WindowEnd(b, size, rowCount) <= rowCount
      ensures b + 1 < total ==> WindowEnd(b, size, rowCount) == WindowStart(b + 1, size)
    {
      WindowFacts(rowCount, size, b);
    }
    if total > 0 {
      WindowFacts(rowCount, size, total - 1);
    }
  }

  /** Each row lies in exactly one window, the one numbered `row / size`. */
  lemma RowInOneWindow(rowCount: nat, size: nat, row: nat, b: nat)
    requires size > 0 && row < rowCount && b < TotalBatches(rowCount, size)
    ensures WindowStart(b, size) <= row < WindowEnd(b, size, rowCount) <==> b == row / size
  {
    var q := row / size;
    assert q * size <= row < (q + 1) * size;
    WindowFacts(rowCount, size, b);
    if b < q {
      Numbers.MulLe(b + 1, q, size);
    } else if b > q {
      Numbers.MulLe(q + 1, b, size);
    } else {
      assert WindowStart(b, size) == q * size;
      assert row < WindowEnd(b, size, rowCount) by {
        assert WindowEnd(b, size, rowCount) == (q + 1) * size || WindowEnd(b, size, rowCount) == rowCount;
      }
    }
  }

  // ---------------------------------------------------------------------
  // processColumnData
  // ---------------------------------------------------------------------

  /** `readExcelBatch(path, startRow, endRow)`: the data rows of a window, or
      `None` when the call throws. */
  type Reader = (string, nat, int) -> Option<seq<Record>>

  /** A reader that never returns more rows than the window holds. */
  ghost predicate Honest(read: Reader, path: string) {
    forall s: nat, e: int :: read(path, s, e).Some? ==> |read(path, s, e).value| <= e - s
  }

  /** A reader that returns exactly the window's rows of `records`. */
  ghost predicate Faithful(read: Reader, path: string, records: seq<Record>) {
    forall s: nat, e: int :: s <= e <= |records| ==> read(path, s, e) == Some(records[s..e])
  }

  /** The (value, rowIndex) pairs one batch stores: nothing when the read
      throws, else one per non-blank cell, numbered `startRow + index + 1`. */
  function BatchPairs(read: Reader, path: string, column: string, rowCount: int, size: nat, b: nat)
    : seq<(string, int)>
  {
    match read(path, WindowStart(b, size), WindowEnd(b, size, rowCount))
    case None => []
    case Some(rows) =>
      ExcelService.Stored(ExcelService.ColumnItems(ExcelService.ColumnCells(rows, column), WindowStart(b, size)))
  }

  /** The pairs stored by batches 0 to n - 1, in batch order. */
  function Collected(read: Reader, path: string, column: string, rowCount: int, size: nat, n: nat)
    : seq<(string, int)>
  {
    if n == 0 then [] else Collected(read, path, column, rowCount, size, n - 1) + BatchPairs(read, path, column, rowCount, size, n - 1)
  }

  datatype ProcessError = FileMissing(id: nat) | ColumnMissing(column: string)

  /** The error message stored on the file. */
  function ProcessMessage(e: ProcessError): string {
    match e
    case FileMissing(id) => "Fichier avec ID " + Numbers.NatString(id) + " non trouvé."
    case ColumnMissing(c) => "Colonne \"" + c + "\" non trouvée dans le fichier."
  }

  /** Whether batch `b` of `total` writes its progress: every fifth batch and
      the last one. */
  predicate Reports(b: nat, total: int) {
    b % 5 == 0 || b == total - 1
  }

  /** `processColumnData(fileId, columnName)`, with the start and completion
      times as parameters. Returns the new collections, the outcome, and the
      progress percentages the method writes, in order. A missing file
      changes nothing; an unknown column marks the file 'error' and keeps
      its results; otherwise the file's old results are deleted, every batch
      stores its pairs (a batch whose read throws stores nothing and is
      skipped; `insertMany` with `ordered: false` skips the record of a value
      that is blank once trimmed), and the file ends 'completed'. */
  method ProcessColumnData(db: Store.Db, fileId: nat, column: string, read: Reader, started: int, finished: int)
    returns (db': Store.Db, outcome: Result<bool, ProcessError>, progress: seq<int>)
    ensures fileId !in db.files ==> outcome == Failure(FileMissing(fileId)) && db' == db && progress == []
    ensures fileId in db.files && Some(column) !in db.files[fileId].columns ==>
      && outcome == Failure(ColumnMissing(column))
      && db'.files == db.files[fileId := Files.MarkError(db.files[fileId], ProcessMessage(ColumnMissing(column)))]
      && db'.results == db.results && db'.nextId == db.nextId
      && progress == []
    ensures fileId in db.files && Some(column) in db.files[fileId].columns ==>
      var f := db.files[fileId];
      var pairs := Collected(read, f.path, column, f.rowCount, BatchSize(f.rowCount), Batches(f.rowCount));
      && outcome == Success(true)
      && db'.files == db.files[fileId := Files.CompleteProcessing(Files.StartProcessing(f, started), finished)]
      && db'.results == Store.DropFile(db.results, fileId) + Store.Pending(fileId, db.nextId, pairs)
      && db'.nextId == db.nextId + |pairs|
    ensures fileId in db.files && Honest(read, db.files[fileId].path) ==>
      forall k :: 0 <= k < |progress| ==> 0 <= progress[k] <= 100
  {
    if fileId !in db.files {
      return db, Failure(FileMissing(fileId)), [];
    }
    var f := db.files[fileId];
    if Some(column) !in f.columns {
      var e := ColumnMissing(column);
      return db.(files := db.files[fileId := Files.MarkError(f, ProcessMessage(e))]), Failure(e), [];
    }
    var running := Files.StartProcessing(f, started);
    var kept := Store.DropFile(db.results, fileId);
    var pairs;
    pairs, progress := RunBatches(read, f.path, column, f.rowCount);
    var done := Files.CompleteProcessing(running, finished);
    db' := Store.Db(db.files[fileId := done], kept + Store.Pending(fileId, db.nextId, pairs), db.nextId + |pairs|);
    outcome := Success(true);
  }

  /** The loop over the batches: the pairs every batch stores, in order, and
      the progress written after every fifth batch and the last one, when its
      read succeeded. */
  method RunBatches(read: Reader, path: string, column: string, rowCount: int)
    returns (pairs: seq<(string, int)>, progress: seq<int>)
    ensures pairs == Collected(read, path, column, rowCount, BatchSize(rowCount), Batches(rowCount))
    ensures |progress| <= Batches(rowCount)
    ensures Honest(read, path) ==> forall k :: 0 <= k < |progress| ==> 0 <= progress[k] <= 100
  {
    var size := BatchSize(rowCount);
    var total := TotalBatches(rowCount, size);
    pairs := [];
    progress := [];
    var b: nat := 0;
    while b < total
      invariant b <= Batches(rowCount) && |progress| <= b
      invariant pairs == Collected(read, path, column, rowCount, size, b)
      invariant Honest(read, path) ==> |pairs| <= WindowStart(b, size) && (b > 0 ==> |pairs| <= rowCount)
      invariant Honest(read, path) ==> forall k :: 0 <= k < |progress| ==> 0 <= progress[k] <= 100
    {
      var values, ok := RunBatch(read, path, column, rowCount, size, b);
      WindowFacts(rowCount, size, b);
      pairs := pairs + values;
      if ok && Reports(b, total) {
        assert Honest(read, path) ==> 0 <= Numbers.FloorDiv(|pairs| * 100, rowCount) <= 100 by {
          if Honest(read, path) {
            ProgressBound(|pairs|, rowCount);
          }
        }
        progress := progress + [Numbers.FloorDiv(|pairs| * 100, rowCount)];
      }
      b := b + 1;
    }
  }

  /** The number of batches the loop runs. */
  function Batches(rowCount: int): nat {
    var total := TotalBatches(rowCount, BatchSize(rowCount));
    if total > 0 then total else 0
  }

  /** One batch: read the window and keep the non-blank cells of the column,
      numbered from the window's start; `ok` is false when the read throws. */
  method RunBatch(read: Reader, path: string, column: string, rowCount: int, size: nat, b: nat)
    returns (values: seq<(string, int)>, ok: bool)
    requires size > 0 && b < TotalBatches(rowCount, size)
    ensures values == BatchPairs(read, path, column, rowCount, size, b)
    ensures ok <==> read(path, WindowStart(b, size), WindowEnd(b, size, rowCount)).Some?
    ensures !ok ==> values == []
    ensures Honest(read, path) ==> |values| <= WindowEnd(b, size, rowCount) - WindowStart(b, size)
  {
    var start, end := WindowStart(b, size), WindowEnd(b, size, rowCount);
    var batch := read(path, start, end);
    if batch.None? {
      WindowFacts(rowCount, size, b);
      return [], false;
    }
    var cells := ExcelService.ColumnCells(batch.value, column);
    ExcelService.ColumnItemsCount(cells, start);
    NonBlankCountBound(cells);
    values := ExcelService.Stored(ExcelService.ColumnItems(cells, start));
    ok := true;
  }

  lemma NonBlankCountBound(cells: seq<Option<Cell>>)
    ensures ExcelService.NonBlankCount(cells) <= |cells|
  {
  }

  /** A positive number of batches means a positive row count. */
  lemma WindowsPartitionPositive(rowCount: int, size: nat)
    requires size > 0 && TotalBatches(rowCount, size) > 0
    ensures rowCount > 0
  {
  }

  /** `Math.floor(processed / rowCount * 100)` stays within [0, 100] while no
      more rows were stored than the sheet holds. */
  lemma ProgressBound(processed: nat, rowCount: int)
    requires 0 < rowCount && processed <= rowCount
    ensures 0 <= Numbers.FloorDiv(processed * 100, rowCount) <= 100
  {
    var q := Numbers.FloorDiv(processed * 100, rowCount);
    Numbers.MulLe(processed, rowCount, 100);
    assert q * rowCount <= processed * 100 <= 100 * rowCount;
    assert 0 <= processed * 100 < (q + 1) * rowCount;
    DivideBack(q, 100, rowCount);
  }

  /** Cancelling a positive factor: `q * n <= c * n` and `0 < (q + 1) * n`
      give `0 <= q <= c`. */
  lemma DivideBack(q: int, c: int, n: int)
    requires n > 0 && q * n <= c * n && 0 < (q + 1) * n
    ensures 0 <= q <= c
  {
    if q > c {
      Numbers.MulLe(c + 1, q, n);
    }
    if q < 0 {
      Numbers.MulLe(q + 1, 0, n);
    }
  }

  /** As shipped every read throws: the file's old results are deleted,
      nothing is stored, and the file still ends 'completed'. */
  lemma {:induction false} AsShippedInsertsNothing(path: string, column: string, rowCount: int, size: nat, n: nat)
    ensures Collected((p: string, s: nat, e: int) => None, path, column, rowCount, size, n) == []
  {
    if n > 0 {
      AsShippedInsertsNothing(path, column, rowCount, size, n - 1);
    }
  }

  /** The cells of a window of records are that window of the column. */
  lemma ColumnCellsSlice(records: seq<Record>, column: string, s: nat, e: nat)
    requires s <= e <= |records|
    ensures ExcelService.ColumnCells(records[s..e], column) == ExcelService.ColumnCells(records, column)[s..e]
  {
  }

  /** Extraction distributes over concatenation, the second part numbered
      after the first. */
  lemma {:induction false} ColumnItemsAppend(a: seq<Option<Cell>>, b: seq<Option<Cell>>, offset: int)
    ensures ExcelService.ColumnItems(a + b, offset) ==
      ExcelService.ColumnItems(a, offset) + ExcelService.ColumnItems(b, offset + |a|)
    decreases |a|
  {
    if |a| == 0 {
      assert a + b == b;
    } else {
      assert (a + b)[1..] == a[1..] + b;
      assert (a + b)[0] == a[0];
      ColumnItemsAppend(a[1..], b, offset + 1);
    }
  }

  /** Where the batches have reached after `n` of them. */
  function Reached(n: nat, size: nat, rowCount: nat): nat {
    if n * size < rowCount then n * size else rowCount
  }

  /** With a reader that returns each window's rows, the first `n` batches
      store exactly what a whole-sheet extraction stores for the rows they
      have reached. */
  lemma {:induction false} CollectedPrefix(read: Reader, path: string, records: seq<Record>, column: string, size: nat, n: nat)
    requires size > 0 && Faithful(read, path, records)
    requires n <= TotalBatches(|records|, size)
    ensures Collected(read, path, column, |records|, size, n) ==
      ExcelService.Stored(ExcelService.ColumnItems(ExcelService.ColumnCells(records, column)[..Reached(n, size, |records|)], 0))
  {
    var cells := ExcelService.ColumnCells(records, column);
    if n == 0 {
      assert cells[..0] == [];
    } else {
      var m := n - 1;
      CollectedPrefix(read, path, records, column, size, m);
      ReachedWindow(|records|, size, m);
      var s, e := Reached(m, size, |records|), Reached(n, size, |records|);
      BatchPairsFaithful(read, path, records, column, size, m);
      ColumnItemsSplit(cells, s, e);
      CollectedStep(read, path, column, |records|, size, m);
    }
  }

  lemma CollectedStep(read: Reader, path: string, column: string, rowCount: int, size: nat, m: nat)
    ensures Collected(read, path, column, rowCount, size, m + 1) ==
      Collected(read, path, column, rowCount, size, m) + BatchPairs(read, path, column, rowCount, size, m)
  {
  }

  /** Batch `m` reads from where the earlier batches reached to where the
      next ones start. */
  lemma ReachedWindow(rowCount: nat, size: nat, m: nat)
    requires size > 0 && m < TotalBatches(rowCount, size)
    ensures WindowStart(m, size) == Reached(m, size, rowCount) <= Reached(m + 1, size, rowCount) == WindowEnd(m, size, rowCount) <= rowCount
  {
    WindowFacts(rowCount, size, m);
  }

  /** A faithful reader's batch stores the extraction of its window. */
  lemma BatchPairsFaithful(read: Reader, path: string, records: seq<Record>, column: string, size: nat, m: nat)
    requires size > 0 && Faithful(read, path, records)
    requires m < TotalBatches(|records|, size)
    ensures var s, e := WindowStart(m, size), WindowEnd(m, size, |records|);
      BatchPairs(read, path, column, |records|, size, m) ==
        ExcelService.Stored(ExcelService.ColumnItems(ExcelService.ColumnCells(records, column)[s..e], s))
  {
    WindowFacts(|records|, size, m);
    var s, e := WindowStart(m, size), WindowEnd(m, size, |records|);
    assert read(path, s, e) == Some(records[s..e]);
    ColumnCellsSlice(records, column, s, e);
  }

  /** Extracting a prefix and then the next window is extracting the longer prefix. */
  lemma ColumnItemsSplit(cells: seq<Option<Cell>>, s: nat, e: nat)
    requires s <= e <= |cells|
    ensures ExcelService.Stored(ExcelService.ColumnItems(cells[..s], 0)) + ExcelService.Stored(ExcelService.ColumnItems(cells[s..e], s))
      == ExcelService.Stored(ExcelService.ColumnItems(cells[..e], 0))
  {
    var a, b, w := cells[..s], cells[s..e], cells[..e];
    assert w == a + b;
    ColumnItemsAppend(a, b, 0);
    var x, y := ExcelService.ColumnItems(a, 0), ExcelService.ColumnItems(b, s);
    assert ExcelService.ColumnItems(w, 0) == x + y;
    ExcelService.StoredAppend(x, y);
  }

  /** The batched path stores the same (value, rowIndex) pairs, in the same
      order, as extracting the whole column at once. */
  lemma BatchedEqualsWhole(read: Reader, path: string, records: seq<Record>, column: string)
    requires Faithful(read, path, records)
    ensures var size := BatchSize(|records|);
      var total := TotalBatches(|records|, size);
      Collected(read, path, column, |records|, size, total) ==
        ExcelService.Stored(ExcelService.ColumnItems(ExcelService.ColumnCells(records, column), 0))
  {
    var size := BatchSize(|records|);
    var total := TotalBatches(|records|, size);
    WindowsPartition(|records|, size);
    CollectedPrefix(read, path, records, column, size, total);
    var cells := ExcelService.ColumnCells(records, column);
    assert Reached(total, size, |records|) == |records|;
    assert cells[..|records|] == cells;
  }

  // ---------------------------------------------------------------------
  // exportLargeResults
  // ---------------------------------------------------------------------

  /** The header row of the batched export. */
  function LargeHeaders(includeScores: bool, includeAllSuggestions: bool): (hs: seq<ExcelService.Column>)
    ensures |hs| == 3 + (if includeScores then 1 else 0) + (if includeAllSuggestions then 3 else 0)
      + (if includeScores && includeAllSuggestions then 3 else 0)
    ensures hs[..3] == [ExcelService.Keyword, ExcelService.SelectedValue, ExcelService.Audience]
  {
    [ExcelService.Keyword, ExcelService.SelectedValue, ExcelService.Audience]
      + (if includeScores then [ExcelService.MatchScore] else [])
      + (if includeAllSuggestions then
           [ExcelService.Alternative(1), ExcelService.Alternative(2), ExcelService.Alternative(3)]
           + (if includeScores then [ExcelService.AltScore(1), ExcelService.AltScore(2), ExcelService.AltScore(3)] else [])
         else [])
  }

  /** The header count is 3, 4, 6 or 10. */
  lemma HeaderCounts()
    ensures |LargeHeaders(false, false)| == 3 && |LargeHeaders(true, false)| == 4
    ensures |LargeHeaders(false, true)| == 6 && |LargeHeaders(true, true)| == 10
  {
  }

  /** Alternative `i` (from 0) padded with '' past the end. */
  function AltValue(alts: seq<MatchResults.Suggestion>, i: nat): ExcelService.Value {
    if i < |alts| then ExcelService.Str(alts[i].value) else ExcelService.Str("")
  }

  /** Its score, or '' when absent or falsy. */
  function AltScoreValue(alts: seq<MatchResults.Suggestion>, i: nat): ExcelService.Value {
    if i < |alts| && MatchResults.Truthy(alts[i].score) then ExcelService.Number(alts[i].score.value)
    else ExcelService.Str("")
  }

  /** What the positional row holds under header `key`. */
  function CellFor(r: MatchResults.MatchResult, key: ExcelService.Column): ExcelService.Value {
    var alts := ExcelService.Alternatives(r.suggestions);
    match key
    case Keyword => ExcelService.Str(r.originalValue)
    case SelectedValue => ExcelService.Str(if r.selected.Some? then r.selected.value.value else "")
    case Audience => if r.selected.Some? then ExcelService.Millions(r.selected.value.size) else ExcelService.Str("")
    case MatchScore =>
      if MatchResults.Truthy(r.matchScore) then ExcelService.Number(r.matchScore.value) else ExcelService.Str("")
    case Alternative(n) => if n >= 1 then AltValue(alts, n - 1) else ExcelService.Str("")
    case AltScore(n) => if n >= 1 then AltScoreValue(alts, n - 1) else ExcelService.Str("")
  }

  /** One row of the batched export: under each header, the cell pushed for
      it (`row[colIndex] || ''`), so the row has one cell per header. */
  function LargeRow(r: MatchResults.MatchResult, includeScores: bool, includeAllSuggestions: bool)
    : (row: seq<ExcelService.Value>)
    ensures |row| == |LargeHeaders(includeScores, includeAllSuggestions)|
  {
    var hs := LargeHeaders(includeScores, includeAllSuggestions);
    seq(|hs|, j requires 0 <= j < |hs| => CellFor(r, hs[j]))
  }

  /** Under every header the positional row holds what the keyed export of
      `exportResults` holds for that key, with '' where that row has no key. */
  lemma LargeRowAgreesWithKeyed(r: MatchResults.MatchResult, opts: ExcelService.ExportOptions, j: nat)
    requires j < |LargeHeaders(opts.includeScores, opts.includeAllSuggestions)|
    ensures var key := LargeHeaders(opts.includeScores, opts.includeAllSuggestions)[j];
      var cell := ExcelService.Lookup(ExcelService.ExportRow(r, opts), key);
      LargeRow(r, opts.includeScores, opts.includeAllSuggestions)[j] ==
        if cell.Some? then cell.value else ExcelService.Str("")
  {
    var key := LargeHeaders(opts.includeScores, opts.includeAllSuggestions)[j];
    HeaderShape(opts.includeScores, opts.includeAllSuggestions, j);
    CellAgreesWithKeyed(r, opts, key);
  }

  lemma CellAgreesWithKeyed(r: MatchResults.MatchResult, opts: ExcelService.ExportOptions, key: ExcelService.Column)
    requires key == ExcelService.MatchScore ==> opts.includeScores
    requires (key.Alternative? || key.AltScore?) ==> opts.includeAllSuggestions && 1 <= key.n <= 3
    requires key.AltScore? ==> opts.includeScores
    ensures var cell := ExcelService.Lookup(ExcelService.ExportRow(r, opts), key);
      CellFor(r, key) == if cell.Some? then cell.value else ExcelService.Str("")
  {
    match key
    case Alternative(n) => AltValueAgrees(r, opts, n);
    case AltScore(n) => AltScoreAgrees(r, opts, n);
    case _ => BaseCellAgrees(r, opts, key);
  }

  /** The agreement for the three base columns and the score column. */
  lemma BaseCellAgrees(r: MatchResults.MatchResult, opts: ExcelService.ExportOptions, key: ExcelService.Column)
    requires key.Keyword? || key.SelectedValue? || key.Audience? || (key.MatchScore? && opts.includeScores)
    ensures var cell := ExcelService.Lookup(ExcelService.ExportRow(r, opts), key);
      CellFor(r, key) == if cell.Some? then cell.value else ExcelService.Str("")
  {
    ExcelService.ExportRowBase(r, opts);
  }

  /** The agreement for the value of alternative `n`. */
  lemma AltValueAgrees(r: MatchResults.MatchResult, opts: ExcelService.ExportOptions, n: nat)
    requires opts.includeAllSuggestions && 1 <= n <= 3
    ensures var cell := ExcelService.Lookup(ExcelService.ExportRow(r, opts), ExcelService.Alternative(n));
      CellFor(r, ExcelService.Alternative(n)) == if cell.Some? then cell.value else ExcelService.Str("")
  {
    var alts := ExcelService.Alternatives(r.suggestions);
    assert CellFor(r, ExcelService.Alternative(n)) == AltValue(alts, n - 1);
    ExcelService.AlternativeValueCell(r, opts, n);
  }

  /** The agreement for the score of alternative `n`. */
  lemma AltScoreAgrees(r: MatchResults.MatchResult, opts: ExcelService.ExportOptions, n: nat)
    requires opts.includeAllSuggestions && opts.includeScores && 1 <= n <= 3
    ensures var cell := ExcelService.Lookup(ExcelService.ExportRow(r, opts), ExcelService.AltScore(n));
      CellFor(r, ExcelService.AltScore(n)) == if cell.Some? then cell.value else ExcelService.Str("")
  {
    var alts := ExcelService.Alternatives(r.suggestions);
    assert CellFor(r, ExcelService.AltScore(n)) == AltScoreValue(alts, n - 1);
    ExcelService.AlternativeScoreCell(r, opts, n);
  }

  /** Which headers appear under which flags. */
  lemma HeaderShape(includeScores: bool, includeAllSuggestions: bool, j: nat)
    requires j < |LargeHeaders(includeScores, includeAllSuggestions)|
    ensures var key := LargeHeaders(includeScores, includeAllSuggestions)[j];
      && (key == ExcelService.MatchScore ==> includeScores)
      && ((key.Alternative? || key.AltScore?) ==> includeAllSuggestions && 1 <= key.n <= 3)
      && (key.AltScore? ==> includeScores)
  {
  }

  /** `exportLargeResults(results, options)`: the header row, then one row per
      result in input order, built in slices of 5000; an unknown format throws
      after the rows are built. */
  method ExportLargeResults(results: seq<MatchResults.MatchResult>, opts: ExcelService.ExportOptions)
    returns (out: Result<(seq<ExcelService.Column>, seq<seq<ExcelService.Value>>), ExcelService.ExcelError>)
    ensures out.Failure? <==> opts.format != "xlsx" && opts.format != "csv"
    ensures out.Failure? ==> out.error == ExcelService.UnsupportedFormat(opts.format)
    ensures out.Success? ==>
      && out.value.0 == LargeHeaders(opts.includeScores, opts.includeAllSuggestions)
      && |out.value.1| == |results|
      && forall k :: 0 <= k < |results| ==>
           out.value.1[k] == LargeRow(results[k], opts.includeScores, opts.includeAllSuggestions)
           && |out.value.1[k]| == |out.value.0|
  {
    var headers := LargeHeaders(opts.includeScores, opts.includeAllSuggestions);
    var batchSize := 5000;
    var total := Numbers.CeilDiv(|results|, batchSize);
    var rows: seq<seq<ExcelService.Value>> := [];
    var b := 0;
    while b < total
      invariant 0 <= b <= total || total == 0
      invariant |rows| == if b * batchSize < |results| then b * batchSize else |results|
      invariant forall k :: 0 <= k < |rows| ==>
        rows[k] == LargeRow(results[k], opts.includeScores, opts.includeAllSuggestions)
    {
      var startIdx := b * batchSize;
      var endIdx := if (b + 1) * batchSize < |results| then (b + 1) * batchSize else |results|;
      assert startIdx < |results| by {
        assert b * batchSize <= (total - 1) * batchSize;
      }
      var i := startIdx;
      while i < endIdx
        invariant startIdx <= i <= endIdx
        invariant |rows| == i
        invariant forall k :: 0 <= k < |rows| ==>
          rows[k] == LargeRow(results[k], opts.includeScores, opts.includeAllSuggestions)
      {
        rows := rows + [LargeRow(results[i], opts.includeScores, opts.includeAllSuggestions)];
        i := i + 1;
      }
      b := b + 1;
    }
    assert |rows| == |results| by {
      if total > 0 {
        assert b == total;
      }
    }
    if opts.format == "xlsx" || opts.format == "csv" {
      out := Success((headers, rows));
    } else {
      out := Failure(ExcelService.UnsupportedFormat(opts.format));
    }
  }
}

=== FILE: excel_service.dfy ===
/** The spreadsheet service of the JavaScript server
    (server/services/excelService.js): the column/row-count summary of an
    uploaded workbook, the extraction of one column's non-empty cells with
    their 1-based row numbers, and the keyed rows of a results export. The
    spreadsheet library and the file system are replaced by `Sheets.Disk`. */
module ExcelService {
  import opened Wrappers
  import opened Sheets
  import Seqs
  import MatchResults

  datatype ExcelError =
    | FileNotFound(path: string)
    | ColumnNotFound(column: string)
    | UnsupportedFormat(format: string)

  /** The message of the error each failure throws. */
  function Message(e: ExcelError): string {
    match e
    case FileNotFound(path) => "Fichier non trouvé: " + path
    case ColumnNotFound(column) => "Colonne \"" + column + "\" non trouvée dans le fichier"
    case UnsupportedFormat(format) => "Format d'exportation non pris en charge: " + format
  }

  /** What `parseExcelFile` reports about a workbook's first sheet: the
      header row's cells as the library typed them, and the row count. */
  datatype SheetInfo = SheetInfo(columns: seq<Cell>, rowCount: int)

  /** `parseExcelFile(path)`: the header row (or none) and the number of rows
      below it; a path that does not exist throws. */
  function ParseExcelFile(disk: Disk, path: string): (out: Result<SheetInfo, ExcelError>)
    ensures out.Failure? <==> path !in disk
    ensures out.Failure? ==> out.error == FileNotFound(path)
    ensures out.Success? ==>
      var grid := disk[path].grid;
      && out.value.rowCount >= 0
      && (|grid| == 0 ==> out.value.columns == [] && out.value.rowCount == 0)
      && (|grid| > 0 ==> out.value.columns == grid[0] && out.value.rowCount + 1 == |grid|)
  {
    if path !in disk then Failure(FileNotFound(path))
    else
      var grid := disk[path].grid;
      Success(SheetInfo(if |grid| > 0 then grid[0] else [], if |grid| > 0 then |grid| - 1 else 0))
  }

  /** One extracted cell: its value and its 1-based data-row number. */
  datatype Item = Item(value: Cell, rowIndex: int)

  /** Each item as the (value, rowIndex) pair a result is created from, the
      value as text (`String(item.value)`). */
  function Stored(items: seq<Item>): (ps: seq<(string, int)>)
    ensures |ps| == |items|
    ensures forall k :: 0 <= k < |items| ==> ps[k] == (CellString(items[k].value), items[k].rowIndex)
  {
    seq(|items|, k requires 0 <= k < |items| => (CellString(items[k].value), items[k].rowIndex))
  }

  /** Storing a concatenation stores each part in turn. */
  lemma StoredAppend(x: seq<Item>, y: seq<Item>)
    ensures Stored(x + y) == Stored(x) + Stored(y)
  {
    var l, r := Stored(x + y), Stored(x) + Stored(y);
    forall k | 0 <= k < |l| ensures l[k] == r[k] {
      if k < |x| {
        assert (x + y)[k] == x[k];
      } else {
        assert (x + y)[k] == y[k - |x|];
      }
    }
  }

  /** The cells of `column`, one per data row (`row[column]`). */
  function ColumnCells(records: seq<Record>, column: string): (cells: seq<Option<Cell>>)
    ensures |cells| == |records|
    ensures forall i :: 0 <= i < |records| ==> cells[i] == Field(records[i], column)
  {
    seq(|records|, i requires 0 <= i < |records| => Field(records[i], column))
  }

  /** Number of non-blank cells. */
  function NonBlankCount(cells: seq<Option<Cell>>): nat {
    if |cells| == 0 then 0
    else (if IsBlank(cells[0]) then 0 else 1) + NonBlankCount(cells[1..])
  }

  /** The non-blank cells, numbered `offset + position + 1`. */
  function ColumnItems(cells: seq<Option<Cell>>, offset: int): seq<Item>
    decreases |cells|
  {
    if |cells| == 0 then []
    else
      var rest := ColumnItems(cells[1..], offset + 1);
      if IsBlank(cells[0]) then rest else [Item(cells[0].value, offset + 1)] + rest
  }

  /** Each item's number names the position whose non-blank cell it carries. */
  predicate Sound(items: seq<Item>, cells: seq<Option<Cell>>, offset: int) {
    forall k :: 0 <= k < |items| ==>
      && 0 <= items[k].rowIndex - offset - 1 < |cells|
      && cells[items[k].rowIndex - offset - 1] == Some(items[k].value)
      && !IsBlank(Some(items[k].value))
  }

  lemma {:induction false} ColumnItemsSound(cells: seq<Option<Cell>>, offset: int)
    ensures Sound(ColumnItems(cells, offset), cells, offset)
    decreases |cells|
  {
    if |cells| > 0 {
      ColumnItemsSound(cells[1..], offset + 1);
      var rest := ColumnItems(cells[1..], offset + 1);
      var r := ColumnItems(cells, offset);
      var shift := if IsBlank(cells[0]) then 0 else 1;
      if shift == 1 {
        assert r == [Item(cells[0].value, offset + 1)] + rest;
      } else {
        assert r == rest;
      }
      forall k | shift <= k < |r|
        ensures 0 <= r[k].rowIndex - offset - 1 < |cells|
        ensures cells[r[k].rowIndex - offset - 1] == Some(r[k].value)
      {
        assert r[k] == rest[k - shift];
        var i := rest[k - shift].rowIndex - offset - 2;
        assert cells[1..][i] == cells[i + 1];
      }
    }
  }

  predicate Increasing(items: seq<Item>) {
    forall k, l :: 0 <= k < l < |items| ==> items[k].rowIndex < items[l].rowIndex
  }

  /** Row numbers strictly increase. */
  lemma {:induction false} ColumnItemsIncreasing(cells: seq<Option<Cell>>, offset: int)
    ensures Increasing(ColumnItems(cells, offset))
    decreases |cells|
  {
    if |cells| > 0 {
      ColumnItemsIncreasing(cells[1..], offset + 1);
      var rest := ColumnItems(cells[1..], offset + 1);
      var r := ColumnItems(cells, offset);
      var c := cells[0];
      ColumnItemsSound(cells[1..], offset + 1);
      assert forall k :: 0 <= k < |rest| ==> rest[k].rowIndex >= offset + 2;
      if IsBlank(c) {
        assert r == rest;
      } else {
        assert r == [Item(c.value, offset + 1)] + rest;
        forall k, l | 0 <= k < l < |r|
          ensures r[k].rowIndex < r[l].rowIndex
        {
          assert r[l] == rest[l - 1];
          if k > 0 {
            assert r[k] == rest[k - 1];
          }
        }
      }
    }
  }

  /** There are exactly as many items as non-blank cells. */
  lemma {:induction false} ColumnItemsCount(cells: seq<Option<Cell>>, offset: int)
    ensures |ColumnItems(cells, offset)| == NonBlankCount(cells)
    decreases |cells|
  {
    if |cells| > 0 {
      ColumnItemsCount(cells[1..], offset + 1);
    }
  }

  /** The row numbers of the items, in order. */
  function RowIndices(items: seq<Item>): (ns: seq<int>)
    ensures |ns| == |items|
    ensures forall k :: 0 <= k < |items| ==> ns[k] == items[k].rowIndex
  {
    if |items| == 0 then [] else [items[0].rowIndex] + RowIndices(items[1..])
  }

  /** Every non-blank cell yields an item carrying its row number. */
  lemma {:induction false} ColumnItemsComplete(cells: seq<Option<Cell>>, offset: int)
    ensures forall i :: 0 <= i < |cells| && !IsBlank(cells[i]) ==>
      offset + i + 1 in RowIndices(ColumnItems(cells, offset))
    decreases |cells|
  {
    if |cells| > 0 {
      ColumnItemsComplete(cells[1..], offset + 1);
      var rest := ColumnItems(cells[1..], offset + 1);
      var r := ColumnItems(cells, offset);
      var c := cells[0];
      if IsBlank(c) {
        assert r == rest;
      } else {
        assert r == [Item(c.value, offset + 1)] + rest;
        assert r[1..] == rest;
        assert RowIndices(r) == [offset + 1] + RowIndices(rest);
      }
      assert forall x :: x in RowIndices(rest) ==> x in RowIndices(r);
      forall i | 1 <= i < |cells| && !IsBlank(cells[i])
        ensures offset + i + 1 in RowIndices(r)
      {
        assert cells[1..][i - 1] == cells[i];
        assert offset + 1 + (i - 1) + 1 in RowIndices(rest);
      }
    }
  }

  /** `extractColumnData(path, column)`: the non-blank cells of `column`,
      numbered from 1. A missing file throws, and so does a column that is not
      a key of the FIRST data row, which is the case whenever that row's cell
      in the column is empty. */
  function ExtractColumnData(disk: Disk, path: string, column: string): (out: Result<seq<Item>, ExcelError>)
    ensures path !in disk ==> out == Failure(FileNotFound(path))
    ensures path in disk ==>
      var records := disk[path].records;
      && (out.Failure? <==> |records| > 0 && column !in records[0])
      && (out.Failure? ==> out.error == ColumnNotFound(column))
      && (out.Success? ==> out.value == ColumnItems(ColumnCells(records, column), 0))
  {
    if path !in disk then Failure(FileNotFound(path))
    else
      var records := disk[path].records;
      if |records| > 0 && column !in records[0] then Failure(ColumnNotFound(column))
      else Success(ColumnItems(ColumnCells(records, column), 0))
  }

  /** The five-row example: blank cells are dropped, the others keep their
      row numbers, and repeated values are kept. */
  lemma ExtractExample()
    ensures var cells := [Some(Text("shoes")), Some(Text("")), Some(Text("hats")),
                          Some(Text("boots")), Some(Text("boots"))];
      ColumnItems(cells, 0) ==
        [Item(Text("shoes"), 1), Item(Text("hats"), 3), Item(Text("boots"), 4), Item(Text("boots"), 5)]
  {
    var c4 := [Some(Text("boots"))];
    var c3 := [Some(Text("boots"))] + c4;
    var c2 := [Some(Text("hats"))] + c3;
    var c1 := [Some(Text(""))] + c2;
    var c0 := [Some(Text("shoes"))] + c1;
    assert c0[1..] == c1 && c1[1..] == c2 && c2[1..] == c3 && c3[1..] == c4 && c4[1..] == [];
    assert ColumnItems(c4, 4) == [Item(Text("boots"), 5)];
    assert ColumnItems(c3, 3) == [Item(Text("boots"), 4), Item(Text("boots"), 5)];
    assert ColumnItems(c2, 2) == [Item(Text("hats"), 3), Item(Text("boots"), 4), Item(Text("boots"), 5)];
    assert ColumnItems(c1, 1) == ColumnItems(c2, 2);
    assert c0 == [Some(Text("shoes")), Some(Text("")), Some(Text("hats")), Some(Text("boots")), Some(Text("boots"))];
  }

  /** A sheet whose first data row leaves the column empty is rejected even
      though later rows fill it. */
  lemma FirstRowGapRejects()
    ensures var disk := map["f.xlsx" := Workbook([[Text("kw")]], [map[], map["kw" := Text("hats")]])];
      ExtractColumnData(disk, "f.xlsx", "kw") == Failure(ColumnNotFound("kw"))
  {
  }

  /** The columns of an export, in the order their keys are first written. */
  datatype Column =
    | Keyword            // 'Mot-clé Original'
    | SelectedValue      // 'Suggestion Meta'
    | Audience           // 'Audience (millions)'
    | MatchScore         // 'Score de correspondance'
    | Alternative(n: nat)  // 'Alternative n'
    | AltScore(n: nat)     // 'Score Alt. n'

  /** A cell of an export: text, a number, or an audience size shown in
      millions with two decimals. */
  datatype Value = Str(s: string) | Number(n: int) | Millions(size: int)

  /** An export row as an object: keys in insertion order. */
  type KeyedRow = seq<(Column, Value)>

  /** `row[column]`. */
  function Lookup(row: KeyedRow, c: Column): Option<Value> {
    if |row| == 0 then None
    else if row[0].0 == c then Some(row[0].1)
    else Lookup(row[1..], c)
  }

  /** A key that no cell carries is absent; a key that some cell carries is
      found, with the value of the first such cell. */
  lemma {:induction false} LookupAbsent(row: KeyedRow, c: Column)
    ensures Lookup(row, c).None? <==> forall j :: 0 <= j < |row| ==> row[j].0 != c
    ensures Lookup(row, c).Some? ==> exists j :: 0 <= j < |row| && row[j] == (c, Lookup(row, c).value)
  {
    if |row| > 0 {
      LookupAbsent(row[1..], c);
      if row[0].0 != c {
        forall j | 0 <= j < |row[1..]| ensures row[1..][j] == row[j + 1] { }
        if Lookup(row, c).Some? {
          var j :| 0 <= j < |row[1..]| && row[1..][j] == (c, Lookup(row, c).value);
          assert row[j + 1] == (c, Lookup(row, c).value);
        }
      }
    }
  }

  lemma {:induction false} LookupAppend(a: KeyedRow, b: KeyedRow, c: Column)
    ensures Lookup(a + b, c) == if Lookup(a, c).Some? then Lookup(a, c) else Lookup(b, c)
  {
    if |a| > 0 {
      assert (a + b)[1..] == a[1..] + b;
      LookupAppend(a[1..], b, c);
    } else {
      assert a + b == b;
    }
  }

  /** The keys of a row, in order. */
  function Keys(row: KeyedRow): (ks: seq<Column>)
    ensures |ks| == |row|
    ensures forall j :: 0 <= j < |row| ==> ks[j] == row[j].0
  {
    if |row| == 0 then [] else [row[0].0] + Keys(row[1..])
  }

  predicate Unselected(s: MatchResults.Suggestion) {
    !s.isSelected
  }

  /** The first three candidates that are not selected, in their order. */
  function Alternatives(list: seq<MatchResults.Suggestion>): (alts: seq<MatchResults.Suggestion>)
    ensures |alts| <= 3
    ensures forall i :: 0 <= i < |alts| ==> !alts[i].isSelected && alts[i] in list
    ensures Seqs.Subseq(alts, list)
  {
    var unselected := Seqs.Filter(list, Unselected);
    Seqs.FilterIsSubseq(list, Unselected);
    PrefixSubseq(unselected, list, if |unselected| < 3 then |unselected| else 3);
    unselected[..if |unselected| < 3 then |unselected| else 3]
  }

  /** `markProcessed` stores the candidate list unflagged, so the export's
      alternatives repeat the selected candidate: among the first three it is
      alternative `i + 1`. */
  lemma ProcessedSelectionIsAlternative(r: MatchResults.MatchResult, suggestions: seq<MatchResults.Suggestion>,
                                        i: nat, score: Option<int>, now: int)
    requires i < |suggestions| && i < 3
    requires forall k :: 0 <= k < |suggestions| ==> !suggestions[k].isSelected
    ensures var out := MatchResults.MarkProcessed(r, suggestions, Some(i), score, now);
      && out.Success?
      && var alts := Alternatives(out.value.suggestions);
      && i < |alts| && alts[i] == suggestions[i]
      && MatchResults.SameCandidate(alts[i], out.value.selected.value)
  {
    var out := MatchResults.MarkProcessed(r, suggestions, Some(i), score, now);
    assert out.value.suggestions == suggestions;
    Seqs.FilterAll(suggestions, Unselected);
  }

  lemma {:induction false} PrefixSubseq<T>(a: seq<T>, b: seq<T>, n: nat)
    requires Seqs.Subseq(a, b) && n <= |a|
    ensures Seqs.Subseq(a[..n], b)
    decreases |b|
  {
    if n > 0 && |b| > 0 {
      if a[0] == b[0] && Seqs.Subseq(a[1..], b[1..]) {
        PrefixSubseq(a[1..], b[1..], n - 1);
        assert a[..n][1..] == a[1..][..n - 1];
      } else {
        PrefixSubseq(a, b[1..], n);
      }
    }
  }

  /** `Alternative i` and, when scores are wanted and the score is truthy,
      `Score Alt. i`, for the alternatives from position `from` on; every key
      names an alternative after `from`. */
  function AltCells(alts: seq<MatchResults.Suggestion>, from: nat, includeScores: bool): (row: KeyedRow)
    requires from <= |alts|
    ensures forall j :: 0 <= j < |row| ==>
      (row[j].0.Alternative? || row[j].0.AltScore?) && from < row[j].0.n <= |alts|
    decreases |alts| - from
  {
    if from == |alts| then []
    else AltHere(alts[from], from + 1, includeScores) + AltCells(alts, from + 1, includeScores)
  }

  /** The cells of alternative number `n`. */
  function AltHere(a: MatchResults.Suggestion, n: nat, includeScores: bool): (row: KeyedRow)
    ensures forall j :: 0 <= j < |row| ==> row[j].0 == Alternative(n) || row[j].0 == AltScore(n)
  {
    [(Alternative(n), Str(a.value))] +
      (if includeScores && MatchResults.Truthy(a.score) then [(AltScore(n), Number(a.score.value))] else [])
  }

  /** Alternative `n` is written with its value, and its score exactly when
      scores are wanted and the score is truthy. */
  lemma {:induction false} AltCellsLookup(alts: seq<MatchResults.Suggestion>, from: nat, includeScores: bool, n: nat)
    requires from < n <= |alts|
    ensures Lookup(AltCells(alts, from, includeScores), Alternative(n)) == Some(Str(alts[n - 1].value))
    ensures Lookup(AltCells(alts, from, includeScores), AltScore(n)) ==
      if includeScores && MatchResults.Truthy(alts[n - 1].score) then Some(Number(alts[n - 1].score.value)) else None
    decreases |alts| - from
  {
    var here := AltHere(alts[from], from + 1, includeScores);
    var rest := AltCells(alts, from + 1, includeScores);
    assert AltCells(alts, from, includeScores) == here + rest;
    LookupAppend(here, rest, Alternative(n));
    LookupAppend(here, rest, AltScore(n));
    if n > from + 1 {
      AltHereOther(alts[from], from + 1, includeScores, n);
      AltCellsLookup(alts, from + 1, includeScores, n);
    } else {
      AltHereSame(alts[from], n, includeScores);
      AltCellsAbove(alts, from + 1, includeScores, AltScore(n));
    }
  }

  lemma AltHereSame(a: MatchResults.Suggestion, n: nat, includeScores: bool)
    ensures Lookup(AltHere(a, n, includeScores), Alternative(n)) == Some(Str(a.value))
    ensures Lookup(AltHere(a, n, includeScores), AltScore(n)) ==
      if includeScores && MatchResults.Truthy(a.score) then Some(Number(a.score.value)) else None
  {
    var row := AltHere(a, n, includeScores);
    if includeScores && MatchResults.Truthy(a.score) {
      assert row[1..] == [(AltScore(n), Number(a.score.value))];
    } else {
      assert row[1..] == [];
    }
  }

  lemma AltHereOther(a: MatchResults.Suggestion, m: nat, includeScores: bool, n: nat)
    requires n != m
    ensures Lookup(AltHere(a, m, includeScores), Alternative(n)) == None
    ensures Lookup(AltHere(a, m, includeScores), AltScore(n)) == None
  {
    var row := AltHere(a, m, includeScores);
    LookupAbsent(row, Alternative(n));
    LookupAbsent(row, AltScore(n));
  }

  /** A key that names no alternative after `from` is absent from the cells. */
  lemma AltCellsAbove(alts: seq<MatchResults.Suggestion>, from: nat, includeScores: bool, c: Column)
    requires from <= |alts|
    requires !((c.Alternative? || c.AltScore?) && from < c.n)
    ensures Lookup(AltCells(alts, from, includeScores), c) == None
  {
    LookupAbsent(AltCells(alts, from, includeScores), c);
  }

  /** Two rows without repeated keys and with no key in common concatenate
      to a row without repeated keys. */
  lemma DistinctAppend(a: KeyedRow, b: KeyedRow)
    requires Seqs.NoDuplicates(Keys(a)) && Seqs.NoDuplicates(Keys(b))
    requires forall i, j :: 0 <= i < |a| && 0 <= j < |b| ==> a[i].0 != b[j].0
    ensures Seqs.NoDuplicates(Keys(a + b))
  {
    var row := a + b;
    var ks := Keys(row);
    var ka, kb := Keys(a), Keys(b);
    forall i, j | 0 <= i < j < |ks|
      ensures ks[i] != ks[j]
    {
      assert ks[i] == row[i].0 && ks[j] == row[j].0;
      if j < |a| {
        assert row[i] == a[i] && row[j] == a[j];
        assert ka[i] == a[i].0 && ka[j] == a[j].0;
      } else if i < |a| {
        assert row[i] == a[i] && row[j] == b[j - |a|];
      } else {
        assert row[i] == b[i - |a|] && row[j] == b[j - |a|];
        assert kb[i - |a|] == b[i - |a|].0 && kb[j - |a|] == b[j - |a|].0;
      }
    }
  }

  /** The alternative cells never repeat a key. */
  lemma {:induction false} AltCellsDistinct(alts: seq<MatchResults.Suggestion>, from: nat, includeScores: bool)
    requires from <= |alts|
    ensures Seqs.NoDuplicates(Keys(AltCells(alts, from, includeScores)))
    decreases |alts| - from
  {
    if from < |alts| {
      AltCellsDistinct(alts, from + 1, includeScores);
      var here := AltHere(alts[from], from + 1, includeScores);
      var rest := AltCells(alts, from + 1, includeScores);
      assert AltCells(alts, from, includeScores) == here + rest;
      assert Seqs.NoDuplicates(Keys(here)) by {
        var kh := Keys(here);
        if |here| == 2 {
          assert kh[0] == Alternative(from + 1) && kh[1] == AltScore(from + 1);
        }
      }
      forall i, j | 0 <= i < |here| && 0 <= j < |rest|
        ensures here[i].0 != rest[j].0
      {
        assert here[i].0.n == from + 1 < rest[j].0.n;
      }
      DistinctAppend(here, rest);
    }
  }

  datatype ExportOptions = ExportOptions(format: string, includeScores: bool, includeAllSuggestions: bool)

  /** The options' defaults: xlsx, scores included, alternatives left out. */
  const DefaultOptions := ExportOptions("xlsx", true, false)

  function BaseCells(r: MatchResults.MatchResult): KeyedRow {
    [(Keyword, Str(r.originalValue)),
     (SelectedValue, Str(if r.selected.Some? then r.selected.value.value else "")),
     (Audience, if r.selected.Some? then Millions(r.selected.value.size) else Str(""))]
  }

  function ScoreCells(r: MatchResults.MatchResult, opts: ExportOptions): KeyedRow {
    if opts.includeScores && MatchResults.Truthy(r.matchScore) then [(MatchScore, Number(r.matchScore.value))] else []
  }

  function AlternativeCells(r: MatchResults.MatchResult, opts: ExportOptions): (row: KeyedRow)
    ensures forall j :: 0 <= j < |row| ==> row[j].0.Alternative? || row[j].0.AltScore?
  {
    if opts.includeAllSuggestions then AltCells(Alternatives(r.suggestions), 0, opts.includeScores) else []
  }

  /** The keyed row `exportResults` builds for one result. */
  function ExportRow(r: MatchResults.MatchResult, opts: ExportOptions): KeyedRow {
    BaseCells(r) + ScoreCells(r, opts) + AlternativeCells(r, opts)
  }

  /** Looking a key up in an export row looks in its three parts in turn. */
  lemma ExportRowLookup(r: MatchResults.MatchResult, opts: ExportOptions, c: Column)
    ensures Lookup(ExportRow(r, opts), c) ==
      if Lookup(BaseCells(r), c).Some? then Lookup(BaseCells(r), c)
      else if Lookup(ScoreCells(r, opts), c).Some? then Lookup(ScoreCells(r, opts), c)
      else Lookup(AlternativeCells(r, opts), c)
  {
    LookupAppend(BaseCells(r) + ScoreCells(r, opts), AlternativeCells(r, opts), c);
    LookupAppend(BaseCells(r), ScoreCells(r, opts), c);
  }

  /** An exported row holds the keyword, the selected value or '', and the
      audience or ''; the score key exactly when scores are wanted and the
      score is truthy. */
  lemma ExportRowBase(r: MatchResults.MatchResult, opts: ExportOptions)
    ensures Lookup(ExportRow(r, opts), Keyword) == Some(Str(r.originalValue))
    ensures Lookup(ExportRow(r, opts), SelectedValue) ==
      Some(Str(if r.selected.Some? then r.selected.value.value else ""))
    ensures Lookup(ExportRow(r, opts), Audience) ==
      Some(if r.selected.Some? then Millions(r.selected.value.size) else Str(""))
    ensures Lookup(ExportRow(r, opts), MatchScore) ==
      if opts.includeScores && MatchResults.Truthy(r.matchScore) then Some(Number(r.matchScore.value)) else None
  {
    var base := BaseCells(r);
    var b1 := base[1..];
    var b2 := b1[1..];
    assert b2[1..] == [];
    assert Lookup(base, Audience) == Lookup(b1, Audience) == Lookup(b2, Audience) == Some(b2[0].1);
    assert Lookup(base, MatchScore) == Lookup(b1, MatchScore) == Lookup(b2, MatchScore) == Lookup(b2[1..], MatchScore) == None;
    ExportRowLookup(r, opts, Keyword);
    ExportRowLookup(r, opts, SelectedValue);
    ExportRowLookup(r, opts, Audience);
    ExportRowLookup(r, opts, MatchScore);
    var score := ScoreCells(r, opts);
    LookupAbsent(AlternativeCells(r, opts), MatchScore);
    if opts.includeScores && MatchResults.Truthy(r.matchScore) {
      assert Lookup(score, MatchScore) == Some(Number(r.matchScore.value));
    } else {
      assert score == [];
    }
  }

  /** Alternative `n` (1 to 3) is present exactly when alternatives are wanted
      and at least `n` candidates are unselected; its score key only when
      scores are wanted too and that score is truthy. */
  lemma ExportRowAlternative(r: MatchResults.MatchResult, opts: ExportOptions, n: nat)
    requires 1 <= n <= 3
    ensures var alts := Alternatives(r.suggestions);
      Lookup(ExportRow(r, opts), Alternative(n)) ==
        if opts.includeAllSuggestions && n <= |alts| then Some(Str(alts[n - 1].value)) else None
    ensures var alts := Alternatives(r.suggestions);
      Lookup(ExportRow(r, opts), AltScore(n)) ==
        if opts.includeAllSuggestions && opts.includeScores && n <= |alts| && MatchResults.Truthy(alts[n - 1].score)
        then Some(Number(alts[n - 1].score.value)) else None
  {
    AlternativeValueCell(r, opts, n);
    AlternativeScoreCell(r, opts, n);
  }

  /** An alternative's keys are found only among the alternative cells. */
  lemma AltKeyLookup(r: MatchResults.MatchResult, opts: ExportOptions, c: Column)
    requires c.Alternative? || c.AltScore?
    ensures Lookup(ExportRow(r, opts), c) == Lookup(AlternativeCells(r, opts), c)
  {
    ExportRowLookup(r, opts, c);
    LookupAbsent(BaseCells(r), c);
    LookupAbsent(ScoreCells(r, opts), c);
  }

  lemma AlternativeValueCell(r: MatchResults.MatchResult, opts: ExportOptions, n: nat)
    requires 1 <= n <= 3
    ensures var alts := Alternatives(r.suggestions);
      Lookup(ExportRow(r, opts), Alternative(n)) ==
        if opts.includeAllSuggestions && n <= |alts| then Some(Str(alts[n - 1].value)) else None
  {
    var alts := Alternatives(r.suggestions);
    AltKeyLookup(r, opts, Alternative(n));
    if opts.includeAllSuggestions && n <= |alts| {
      AltCellsLookup(alts, 0, opts.includeScores, n);
    } else {
      LookupAbsent(AlternativeCells(r, opts), Alternative(n));
    }
  }

  lemma AlternativeScoreCell(r: MatchResults.MatchResult, opts: ExportOptions, n: nat)
    requires 1 <= n <= 3
    ensures var alts := Alternatives(r.suggestions);
      Lookup(ExportRow(r, opts), AltScore(n)) ==
        if opts.includeAllSuggestions && opts.includeScores && n <= |alts| && MatchResults.Truthy(alts[n - 1].score)
        then Some(Number(alts[n - 1].score.value)) else None
  {
    var alts := Alternatives(r.suggestions);
    AltKeyLookup(r, opts, AltScore(n));
    if opts.includeAllSuggestions && n <= |alts| {
      AltCellsLookup(alts, 0, opts.includeScores, n);
    } else {
      LookupAbsent(AlternativeCells(r, opts), AltScore(n));
    }
  }

  /** No key is written twice in an exported row. */
  lemma ExportRowDistinct(r: MatchResults.MatchResult, opts: ExportOptions)
    ensures Seqs.NoDuplicates(Keys(ExportRow(r, opts)))
  {
    var head, cells := BaseCells(r) + ScoreCells(r, opts), AlternativeCells(r, opts);
    HeadCellsDistinct(r, opts, head);
    AlternativeCellsDistinct(r, opts);
    forall i, j | 0 <= i < |head| && 0 <= j < |cells|
      ensures head[i].0 != cells[j].0
    {
      assert !head[i].0.Alternative? && !head[i].0.AltScore?;
    }
    DistinctAppend(head, cells);
  }

  /** The fixed cells before the alternatives: four distinct keys, none of
      them an alternative's. */
  lemma HeadCellsDistinct(r: MatchResults.MatchResult, opts: ExportOptions, head: KeyedRow)
    requires head == BaseCells(r) + ScoreCells(r, opts)
    ensures Seqs.NoDuplicates(Keys(head))
    ensures forall i :: 0 <= i < |head| ==> !head[i].0.Alternative? && !head[i].0.AltScore?
  {
    var hk := Keys(head);
    assert hk[0] == Keyword && hk[1] == SelectedValue && hk[2] == Audience;
    assert |hk| == 4 ==> hk[3] == MatchScore;
  }

  lemma AlternativeCellsDistinct(r: MatchResults.MatchResult, opts: ExportOptions)
    ensures Seqs.NoDuplicates(Keys(AlternativeCells(r, opts)))
  {
    if opts.includeAllSuggestions {
      AltCellsDistinct(Alternatives(r.suggestions), 0, opts.includeScores);
    }
  }

  /** `exportResults(results, options)`: one keyed row per result, in order;
      an unknown format throws after the rows are built. */
  function ExportResults(results: seq<MatchResults.MatchResult>, opts: ExportOptions)
    : (out: Result<seq<KeyedRow>, ExcelError>)
    ensures out.Failure? <==> opts.format != "xlsx" && opts.format != "csv"
    ensures out.Failure? ==> out.error == UnsupportedFormat(opts.format)
    ensures out.Success? ==>
      |out.value| == |results| && forall k :: 0 <= k < |results| ==> out.value[k] == ExportRow(results[k], opts)
  {
    var rows := seq(|results|, k requires 0 <= k < |results| => ExportRow(results[k], opts));
    if opts.format == "xlsx" || opts.format == "csv" then Success(rows)
    else Failure(UnsupportedFormat(opts.format))
  }
}

=== FILE: file_model.dfy ===
/** The uploaded-file record of the JavaScript server (server/models/File.js):
    its status enumeration, the defaults a new record takes, and the three
    status transitions. None of the transitions inspects the current status. */
module Files {
  import opened Wrappers
  import Text

  datatype FileStatus = Uploaded | Processing | Completed | Error

  /** The status as stored (`enum: ['uploaded', 'processing', 'completed', 'error']`). */
  function FileStatusName(s: FileStatus): (name: string)
    ensures name in {"uploaded", "processing", "completed", "error"}
  {
    match s
    case Uploaded => "uploaded"
    case Processing => "processing"
    case Completed => "completed"
    case Error => "error"
  }

  /** The stored name determines the status: the enumeration is injective. */
  lemma FileStatusNameInjective(a: FileStatus, b: FileStatus)
    requires FileStatusName(a) == FileStatusName(b)
    ensures a == b
  {
  }

  datatype FileRecord = FileRecord(
    id: nat,
    name: string,
    originalName: string,
    path: string,
    size: int,
    columns: seq<Option<string>>,
    rowCount: int,
    selectedColumn: Option<string>,
    status: FileStatus,
    errorMessage: Option<string>,
    startedAt: Option<int>,
    completedAt: Option<int>)

  /** A record created with only its required fields: the `trim` setters of
      `name` and `originalName` strip their surrounding whitespace, and the
      schema defaults fill the rest (no columns, zero rows, no selected
      column, status 'uploaded'). */
  function NewFile(id: nat, name: string, originalName: string, path: string, size: int): (f: FileRecord)
    ensures f.id == id && f.path == path && f.size == size
    ensures f.name == Text.Trim(name) && f.originalName == Text.Trim(originalName)
    ensures |f.name| > 0 ==> !Text.IsSpace(f.name[0]) && !Text.IsSpace(f.name[|f.name| - 1])
    ensures |f.originalName| > 0 ==>
      !Text.IsSpace(f.originalName[0]) && !Text.IsSpace(f.originalName[|f.originalName| - 1])
    ensures f.columns == [] && f.rowCount == 0 && f.selectedColumn == None
    ensures f.status == Uploaded && f.errorMessage == None
    ensures f.startedAt == None && f.completedAt == None
  {
    FileRecord(id, Text.Trim(name), Text.Trim(originalName), path, size, [], 0, None, Uploaded, None, None, None)
  }

  /** The schema's `required` checks on the string fields: `required` rejects
      the empty string, so a name that trims to nothing fails `save()`. */
  predicate SchemaValid(f: FileRecord) {
    f.name != "" && f.originalName != "" && f.path != ""
  }

  /** A name of only whitespace trims to the empty string, so the record
      built from it fails the `required` check. */
  lemma BlankNameInvalid(id: nat, name: string, originalName: string, path: string, size: int)
    requires forall k :: 0 <= k < |originalName| ==> Text.IsSpace(originalName[k])
    ensures !SchemaValid(NewFile(id, name, originalName, path, size))
  {
  }

  /** Everything but the status and the three fields the transitions write. */
  predicate SameContent(a: FileRecord, b: FileRecord) {
    && a.id == b.id && a.name == b.name && a.originalName == b.originalName
    && a.path == b.path && a.size == b.size && a.columns == b.columns
    && a.rowCount == b.rowCount && a.selectedColumn == b.selectedColumn
  }

  /** `startProcessing()`: status 'processing' and the start time; nothing else changes. */
  function StartProcessing(f: FileRecord, now: int): (f': FileRecord)
    ensures f'.status == Processing && f'.startedAt == Some(now)
    ensures SameContent(f, f') && f'.errorMessage == f.errorMessage && f'.completedAt == f.completedAt
  {
    f.(status := Processing, startedAt := Some(now))
  }

  /** `completeProcessing()`: status 'completed' and the completion time; nothing else changes. */
  function CompleteProcessing(f: FileRecord, now: int): (f': FileRecord)
    ensures f'.status == Completed && f'.completedAt == Some(now)
    ensures SameContent(f, f') && f'.errorMessage == f.errorMessage && f'.startedAt == f.startedAt
  {
    f.(status := Completed, completedAt := Some(now))
  }

  /** `markError(message)`: status 'error' and the message; nothing else changes. */
  function MarkError(f: FileRecord, message: string): (f': FileRecord)
    ensures f'.status == Error && f'.errorMessage == Some(message)
    ensures SameContent(f, f') && f'.startedAt == f.startedAt && f'.completedAt == f.completedAt
  {
    f.(status := Error, errorMessage := Some(message))
  }

  /** No transition is guarded by the current status: from every status each of
      the three methods reaches its target, even 'completed' back to 'processing'
      and 'error' to 'completed'. */
  lemma TransitionsUnguarded(f: FileRecord, now: int, message: string)
    ensures StartProcessing(f, now).status == Processing
    ensures CompleteProcessing(f, now).status == Completed
    ensures MarkError(f, message).status == Error
    ensures StartProcessing(CompleteProcessing(f, now), now).status == Processing
    ensures CompleteProcessing(MarkError(f, message), now).status == Completed
  {
  }

  /** A failed run followed by a successful one keeps the old error message:
      neither `startProcessing` nor `completeProcessing` clears it. */
  lemma StaleErrorMessage(f: FileRecord, message: string, t1: int, t2: int)
    ensures var g := CompleteProcessing(StartProcessing(MarkError(f, message), t1), t2);
      g.status == Completed && g.errorMessage == Some(message)
  {
  }
}

=== FILE: file_routes.dfy ===
/** The file routes of the JavaScript server (server/routes/fileRoutes.js):
    the upload filter and upload, the paged listing, the column selection
    with its background extraction, the delete cascade and the export
    options. */
module FileRoutes {
  import opened Wrappers
  import Seqs
  import Sorting
  import Sheets
  import Files
  import MatchResults
  import Store
  import ExcelService
  import Http
  import Text

  // ---------------------------------------------------------------------
  // Upload
  // ---------------------------------------------------------------------

  /** The three spreadsheet MIME types the upload filter accepts. */
  const AllowedTypes: seq<string> := [
    "application/vnd.ms-excel",
    "application/vnd.openxmlformats-officedocument.spreadsheetml.sheet",
    "application/vnd.ms-excel.sheet.macroEnabled.12"
  ]

  /** The upload size limit: 10 MB. */
  const MaxUploadSize := 10 * 1024 * 1024

  /** A file as the upload middleware stored it. */
  datatype Upload = Upload(filename: string, originalName: string, path: string, size: int, mimetype: string)

  /** Whether the middleware lets the file through: an allowed type and at most
      the size limit. */
  predicate Accepted(u: Upload) {
    u.mimetype in AllowedTypes && u.size <= MaxUploadSize
  }

  /** Whether some non-empty header cell has the text `name`. */
  predicate Names(header: seq<Sheets.Cell>, name: string) {
    exists k :: 0 <= k < |header| && header[k] != Sheets.Null && Sheets.CellString(header[k]) == name
  }

  /** The header cells as the `[String]` schema path stores them, one entry
      per cell: each cell as text (`String(v)`), and an empty cell (a hole of
      the `header: 1` row) as a `null` placeholder, here None. */
  function StoredColumns(header: seq<Sheets.Cell>): (names: seq<Option<string>>)
    ensures |names| == |header|
    ensures forall k :: 0 <= k < |header| ==> (names[k].None? <==> header[k] == Sheets.Null)
    ensures forall name :: Some(name) in names <==> Names(header, name)
  {
    var names := seq(|header|, k requires 0 <= k < |header| =>
      if header[k] == Sheets.Null then None else Some(Sheets.CellString(header[k])));
    StoredColumnsNames(header, names);
    names
  }

  /** The names among the stored columns are exactly the texts of the
      non-empty header cells. */
  lemma StoredColumnsNames(header: seq<Sheets.Cell>, names: seq<Option<string>>)
    requires |names| == |header|
    requires forall k :: 0 <= k < |header| ==>
      names[k] == if header[k] == Sheets.Null then None else Some(Sheets.CellString(header[k]))
    ensures forall name :: Some(name) in names <==> Names(header, name)
  {
    forall name
      ensures Some(name) in names <==> Names(header, name)
    {
      if Some(name) in names {
        var k :| 0 <= k < |names| && names[k] == Some(name);
        assert header[k] != Sheets.Null && Sheets.CellString(header[k]) == name;
      }
      if Names(header, name) {
        var k :| 0 <= k < |header| && header[k] != Sheets.Null && Sheets.CellString(header[k]) == name;
        assert names[k] == Some(name);
      }
    }
  }

  /** An empty header cell between two names keeps its place as `null`. */
  lemma HeaderHoleStoredAsNull()
    ensures StoredColumns([Sheets.Text("a"), Sheets.Null, Sheets.Text("b")]) == [Some("a"), None, Some("b")]
  {
  }

  /** `POST /upload`: no file is a 400; a file the middleware rejects, or one
      the spreadsheet service cannot open, is a 500; a record whose trimmed
      name or original name is empty fails `save()` and is a 500 as well;
      otherwise a new record with status 'uploaded', the trimmed names, the
      sheet's columns (an empty header cell kept as a `null` placeholder) and
      row count, and a 201. */
  function UploadFile(db: Store.Db, disk: Sheets.Disk, u: Option<Upload>): (out: (Store.Db, Http.Reply<Files.FileRecord>))
    ensures u.None? ==> out == (db, Http.Rejected(Http.BadRequest))
    ensures u.Some? && !Accepted(u.value) ==> out == (db, Http.Rejected(Http.ServerError))
    ensures u.Some? && Accepted(u.value) && u.value.path !in disk ==> out == (db, Http.Rejected(Http.ServerError))
    ensures u.Some? && Accepted(u.value) && u.value.path in disk && !NamesRequired(u.value) ==>
      out == (db, Http.Rejected(Http.ServerError))
    ensures u.Some? && Accepted(u.value) && u.value.path in disk && NamesRequired(u.value) ==>
      var info := ExcelService.ParseExcelFile(disk, u.value.path).value;
      && out.1.Ok? && out.1.code == 201
      && var f := out.1.data;
      && f.id == db.nextId && f.status == Files.Uploaded && Files.SchemaValid(f)
      && f.name == Text.Trim(u.value.filename) && f.originalName == Text.Trim(u.value.originalName)
      && f.path == u.value.path && f.size == u.value.size
      && f.columns == StoredColumns(info.columns) && f.rowCount == info.rowCount
      && f.selectedColumn == None
      && out.0 == db.(files := db.files[f.id := f], nextId := db.nextId + 1)
  {
    if u.None? then (db, Http.Rejected(Http.BadRequest))
    else if !Accepted(u.value) then (db, Http.Rejected(Http.ServerError))
    else match ExcelService.ParseExcelFile(disk, u.value.path)
      case Failure(_) => (db, Http.Rejected(Http.ServerError))
      case Success(info) =>
        var f := Files.NewFile(db.nextId, u.value.filename, u.value.originalName, u.value.path, u.value.size)
                   .(columns := StoredColumns(info.columns), rowCount := info.rowCount);
        if !Files.SchemaValid(f) then (db, Http.Rejected(Http.ServerError))
        else (db.(files := db.files[f.id := f], nextId := db.nextId + 1), Http.Ok(201, f))
  }

  /** Whether the upload's names and path survive the schema's `trim` setters
      and `required` checks: each keeps a character that is not whitespace,
      and the path is not empty. */
  predicate NamesRequired(u: Upload) {
    && (exists k :: 0 <= k < |u.filename| && !Text.IsSpace(u.filename[k]))
    && (exists k :: 0 <= k < |u.originalName| && !Text.IsSpace(u.originalName[k]))
    && u.path != ""
  }

  /** An original name padded with spaces is stored without them. */
  lemma PaddedNameTrimmed(db: Store.Db, disk: Sheets.Disk, path: string)
    requires path in disk && path != ""
    ensures var u := Upload("f.xlsx", " budget.xlsx ", path, 10,
      "application/vnd.openxmlformats-officedocument.spreadsheetml.sheet");
      var out := UploadFile(db, disk, Some(u));
      out.1.Ok? && out.1.data.originalName == "budget.xlsx"
  {
    var u := Upload("f.xlsx", " budget.xlsx ", path, 10,
      "application/vnd.openxmlformats-officedocument.spreadsheetml.sheet");
    assert !Text.IsSpace(u.filename[0]) && !Text.IsSpace(u.originalName[1]);
    Text.TrimSpaced(u.originalName, "budget.xlsx");
  }

  /** An original name of only spaces gets through the upload middleware but
      fails the `required` check once trimmed: a 500, and nothing is stored. */
  lemma BlankNameRejected(db: Store.Db, disk: Sheets.Disk, path: string)
    requires path in disk
    ensures var u := Upload("f.xlsx", "  ", path, 10,
      "application/vnd.openxmlformats-officedocument.spreadsheetml.sheet");
      UploadFile(db, disk, Some(u)) == (db, Http.Rejected(Http.ServerError))
  {
  }

  /** A successful upload is the newest file: appended to the files in
      creation order, it heads the first page of the listing, unfiltered or
      filtered by its status 'uploaded', whatever the limit. */
  lemma UploadListedFirst(db: Store.Db, disk: Sheets.Disk, u: Option<Upload>,
                          files: seq<Files.FileRecord>, limit: Option<string>, status: Option<string>)
    requires UploadFile(db, disk, u).1.Ok?
    requires status.None? || status == Some("") || status == Some("uploaded")
    ensures var f := UploadFile(db, disk, u).1.data;
      var out := ListFiles(files + [f], None, limit, status);
      && out.Ok? && |out.data.items| > 0 && out.data.items[0] == f
  {
    var up := UploadFile(db, disk, u);
    var f := up.1.data;
    assert f.status == Files.Uploaded;
    var all := files + [f];
    UploadedKeptLast(files, f, status);
    FirstPageHeadIsNewest(all, limit, status);
  }

  /** A file with status 'uploaded' appended last is the last file the
      status filter keeps, when the filter is absent or asks for 'uploaded'. */
  lemma UploadedKeptLast(files: seq<Files.FileRecord>, f: Files.FileRecord, status: Option<string>)
    requires f.status == Files.Uploaded
    requires status.None? || status == Some("") || status == Some("uploaded")
    ensures var fs := StatusFiltered(files + [f], status); |fs| > 0 && fs[|fs| - 1] == f
  {
    if status.Some? && status.value != "" {
      var keep := (g: Files.FileRecord) => Files.FileStatusName(g.status) == status.value;
      Seqs.FilterAppend(files, [f], keep);
      assert Seqs.Filter([f], keep) == [f];
    }
  }

  /** When some file passes the filter, the first page is not empty and
      starts with the newest of them. */
  lemma FirstPageHeadIsNewest(files: seq<Files.FileRecord>, limit: Option<string>, status: Option<string>)
    requires |StatusFiltered(files, status)| > 0
    ensures var out := ListFiles(files, None, limit, status);
      var fs := StatusFiltered(files, status);
      && out.Ok? && |out.data.items| > 0 && out.data.items[0] == fs[|fs| - 1]
  {
    var l := Http.QueryInt(limit, 10);
    assert (1 - 1) * l == 0;
    var out := ListFiles(files, None, limit, status);
    assert out.Ok?;
    var all := NewestFirst(files, status);
    var pg := Http.Paginate(all, 1, l).value;
    assert pg.items == all[0..if Http.Take(l) < |all| then Http.Take(l) else |all|];
    ListFilesFirstPage(files, limit, status, 0);
  }

  /** Every non-empty header cell `parseExcelFile` reads becomes a column the
      uploaded file can have selected, under its text (`String(v)`). */
  lemma UploadThenSelect(db: Store.Db, disk: Sheets.Disk, u: Option<Upload>, k: nat, now: int)
    requires UploadFile(db, disk, u).1.Ok?
    requires var grid := disk[u.value.path].grid;
      |grid| > 0 && k < |grid[0]| && grid[0][k] != Sheets.Null && Sheets.CellString(grid[0][k]) != ""
    ensures var up := UploadFile(db, disk, u);
      var name := Sheets.CellString(disk[u.value.path].grid[0][k]);
      SelectColumn(up.0, up.1.data.id, Some(name), now).1.Ok?
  {
  }

  /** The filter only lets through the three types, and a file exactly at the
      limit passes while one byte more does not. */
  lemma UploadFilterExamples()
    ensures Accepted(Upload("a", "a.xlsx", "p", MaxUploadSize,
      "application/vnd.openxmlformats-officedocument.spreadsheetml.sheet"))
    ensures !Accepted(Upload("a", "a.xlsx", "p", MaxUploadSize + 1,
      "application/vnd.openxmlformats-officedocument.spreadsheetml.sheet"))
    ensures !Accepted(Upload("a", "a.csv", "p", 10, "text/csv"))
  {
  }

  // ---------------------------------------------------------------------
  // Listing
  // ---------------------------------------------------------------------

  /** `GET /`: the files in creation order, optionally filtered by status,
      newest first, paged with page 1 and limit 10 by default. */
  function ListFiles(files: seq<Files.FileRecord>, page: Option<string>, limit: Option<string>, status: Option<string>)
    : (out: Http.Reply<Http.Page<Files.FileRecord>>)
    ensures var p := Http.QueryInt(page, 1);
      var l := Http.QueryInt(limit, 10);
      && (out.Rejected? <==> (p - 1) * l < 0)
      && (out.Rejected? ==> out.code == Http.ServerError)
      && (out.Ok? ==>
            && out.code == 200
            && out.data.currentPage == p && out.data.itemsPerPage == l
            && out.data.totalItems == |StatusFiltered(files, status)|)
  {
    match Http.Paginate(NewestFirst(files, status), Http.QueryInt(page, 1), Http.QueryInt(limit, 10))
    case Failure(code) => Http.Rejected(code)
    case Success(pg) => Http.Ok(200, pg)
  }

  /** The filtered files, newest first. */
  function NewestFirst(files: seq<Files.FileRecord>, status: Option<string>): seq<Files.FileRecord> {
    Reverse(StatusFiltered(files, status))
  }

  /** The first page of the listing holds the newest matching files, newest
      first: the last `limit` ones in reverse order. */
  lemma ListFilesFirstPage(files: seq<Files.FileRecord>, limit: Option<string>, status: Option<string>, k: nat)
    requires var out := ListFiles(files, None, limit, status); out.Ok? && k < |out.data.items|
    ensures var fs := StatusFiltered(files, status);
      && k < |fs|
      && ListFiles(files, None, limit, status).data.items[k] == fs[|fs| - 1 - k]
  {
    var l := Http.QueryInt(limit, 10);
    var all := NewestFirst(files, status);
    var pg := Http.Paginate(all, 1, l).value;
    assert (1 - 1) * l == 0;
    assert pg.items == all[0..if Http.Take(l) < |all| then Http.Take(l) else |all|];
  }

  /** The `status` filter is applied when the query is given and non-empty. */
  function StatusFiltered(files: seq<Files.FileRecord>, status: Option<string>): (fs: seq<Files.FileRecord>)
    ensures status.None? || status == Some("") ==> fs == files
    ensures status.Some? && status.value != "" ==>
      forall f :: f in fs <==> f in files && Files.FileStatusName(f.status) == status.value
  {
    if status.None? || status.value == "" then files
    else
      Seqs.Filter(files, (f: Files.FileRecord) => Files.FileStatusName(f.status) == status.value)
  }

  function Reverse<T>(xs: seq<T>): (r: seq<T>)
    ensures |r| == |xs| && forall k :: 0 <= k < |xs| ==> r[k] == xs[|xs| - 1 - k]
  {
    if |xs| == 0 then [] else Reverse(xs[1..]) + [xs[0]]
  }

  // ---------------------------------------------------------------------
  // Column selection
  // ---------------------------------------------------------------------

  /** `PUT /:id/column`: no column name is a 400, an unknown file a 404, a
      column the file does not have a 400 with nothing changed; otherwise the
      column is recorded and the file goes to 'processing' whatever its
      status was. */
  function SelectColumn(db: Store.Db, id: nat, selected: Option<string>, now: int)
    : (out: (Store.Db, Http.Reply<Files.FileRecord>))
    ensures selected.None? || selected == Some("") ==> out == (db, Http.Rejected(Http.BadRequest))
    ensures selected.Some? && selected.value != "" && id !in db.files ==> out == (db, Http.Rejected(Http.NotFound))
    ensures selected.Some? && selected.value != "" && id in db.files && Some(selected.value) !in db.files[id].columns ==>
      out == (db, Http.Rejected(Http.BadRequest))
    ensures out.1.Ok? <==> selected.Some? && id in db.files && Some(selected.value) in db.files[id].columns && selected.value != ""
    ensures out.1.Ok? ==>
      var f := db.files[id];
      var g := out.1.data;
      && out.1.code == 200
      && g.selectedColumn == selected && g.status == Files.Processing && g.startedAt == Some(now)
      && Files.SameContent(f.(selectedColumn := selected), g)
      && g.errorMessage == f.errorMessage && g.completedAt == f.completedAt
      && out.0 == db.(files := db.files[id := g])
  {
    if selected.None? || selected.value == "" then (db, Http.Rejected(Http.BadRequest))
    else if id !in db.files then (db, Http.Rejected(Http.NotFound))
    else
      var f := db.files[id];
      if Some(selected.value) !in f.columns then (db, Http.Rejected(Http.BadRequest))
      else
        var g := Files.StartProcessing(f.(selectedColumn := selected), now);
        (db.(files := db.files[id := g]), Http.Ok(200, g))
  }

  /** The message of the validation error `save()` raises for a blank value:
      Mongoose names the model, the path and the schema's message. */
  const RequiredMessage := "MatchResult validation failed: originalValue: La valeur originale est requise"

  /** The background step run after a selection, on the record as the route
      left it. Every extracted cell's record is saved at once; the records
      that pass validation are stored. The file becomes 'completed' when
      every save succeeds, and 'error' with the message when the extraction
      throws or a blank value fails `required`. The file's earlier results
      are not removed. */
  function ExtractInBackground(db: Store.Db, disk: Sheets.Disk, file: Files.FileRecord, column: string, now: int)
    : (db': Store.Db)
    ensures match ExtractColumnPairs(disk, file.path, column)
      case Failure(e) =>
        && db'.files == db.files[file.id := Files.MarkError(file, ExcelService.Message(e))]
        && db'.results == db.results && db'.nextId == db.nextId
      case Success(pairs) =>
        && db'.files == db.files[file.id :=
             if forall k :: 0 <= k < |pairs| ==> Store.Kept(pairs[k]) then Files.CompleteProcessing(file, now)
             else Files.MarkError(file, RequiredMessage)]
        && db'.results == db.results + Store.Pending(file.id, db.nextId, pairs)
        && db'.nextId == db.nextId + |pairs|
  {
    match ExtractColumnPairs(disk, file.path, column)
    case Failure(e) =>
      db.(files := db.files[file.id := Files.MarkError(file, ExcelService.Message(e))])
    case Success(pairs) =>
      var saved := Store.Pending(file.id, db.nextId, pairs);
      var g := if |saved| == |pairs| then Files.CompleteProcessing(file, now) else Files.MarkError(file, RequiredMessage);
      AllSavedIffKept(file.id, db.nextId, pairs);
      Store.Db(db.files[file.id := g], db.results + saved, db.nextId + |pairs|)
  }

  /** Every pair's record is stored exactly when no value is blank. */
  lemma AllSavedIffKept(fileId: nat, firstId: nat, pairs: seq<(string, int)>)
    ensures |Store.Pending(fileId, firstId, pairs)| == |pairs| <==> forall k :: 0 <= k < |pairs| ==> Store.Kept(pairs[k])
  {
    var saved := Store.Pending(fileId, firstId, pairs);
    var all := Store.Created(fileId, firstId, pairs);
    if forall k :: 0 <= k < |pairs| ==> Store.Kept(pairs[k]) {
      Store.PendingAllKept(fileId, firstId, pairs);
    } else {
      var k :| 0 <= k < |pairs| && !Store.Kept(pairs[k]);
      assert all[k] in all && all[k] !in saved;
      Seqs.SubseqShorter(saved, all, all[k]);
    }
  }

  /** `extractColumnData` with each value stored as text. */
  function ExtractColumnPairs(disk: Sheets.Disk, path: string, column: string)
    : Result<seq<(string, int)>, ExcelService.ExcelError>
  {
    match ExcelService.ExtractColumnData(disk, path, column)
    case Failure(e) => Failure(e)
    case Success(items) => Success(ExcelService.Stored(items))
  }

  /** Selecting the same column twice runs the extraction twice, and the second
      run stores its pending results next to the first run's, as many as the
      first run stored, under fresh identifiers: the background step
      duplicates results. */
  lemma ReselectionDuplicates(db: Store.Db, disk: Sheets.Disk, file: Files.FileRecord, column: string,
                              pairs: seq<(string, int)>, once: Store.Db, t1: int, t2: int)
    requires ExtractColumnPairs(disk, file.path, column) == Success(pairs)
    requires once == ExtractInBackground(db, disk, file, column, t1)
    ensures once.nextId == db.nextId + |pairs|
    ensures ExtractInBackground(once, disk, file, column, t2).results
      == db.results + Store.Pending(file.id, db.nextId, pairs) + Store.Pending(file.id, once.nextId, pairs)
    ensures |Store.Pending(file.id, once.nextId, pairs)| == |Store.Pending(file.id, db.nextId, pairs)|
  {
    ExtractAppends(db, disk, file, column, pairs, t1);
    ExtractAppends(once, disk, file, column, pairs, t2);
    Store.PendingCount(file.id, db.nextId, pairs);
    Store.PendingCount(file.id, once.nextId, pairs);
  }

  /** A successful extraction appends the saved records and uses up one
      identifier per pair. */
  lemma ExtractAppends(db: Store.Db, disk: Sheets.Disk, file: Files.FileRecord, column: string,
                       pairs: seq<(string, int)>, now: int)
    requires ExtractColumnPairs(disk, file.path, column) == Success(pairs)
    ensures ExtractInBackground(db, disk, file, column, now).results == db.results + Store.Pending(file.id, db.nextId, pairs)
    ensures ExtractInBackground(db, disk, file, column, now).nextId == db.nextId + |pairs|
  {
  }

  // ---------------------------------------------------------------------
  // Delete
  // ---------------------------------------------------------------------

  /** `DELETE /:id`: an unknown file is a 404; otherwise every result of the
      file is removed, then the file record. */
  function DeleteFile(db: Store.Db, id: nat): (out: (Store.Db, Http.Reply<bool>))
    ensures id !in db.files ==> out == (db, Http.Rejected(Http.NotFound))
    ensures id in db.files ==>
      && out.1 == Http.Ok(200, true)
      && out.0.files == db.files - {id}
      && (forall r :: r in out.0.results <==> r in db.results && r.file != id)
      && Store.ResultsOf(out.0.results, id) == []
      && out.0.nextId == db.nextId
  {
    if id !in db.files then (db, Http.Rejected(Http.NotFound))
    else (Store.Db(db.files - {id}, Store.DropFile(db.results, id), db.nextId), Http.Ok(200, true))
  }

  /** A delete touches no other file and none of another file's results. */
  lemma DeleteLeavesOthers(db: Store.Db, id: nat, other: nat)
    requires id in db.files && other != id
    ensures var db' := DeleteFile(db, id).0;
      && (other in db.files <==> other in db'.files)
      && (other in db.files ==> db'.files[other] == db.files[other])
      && Store.ResultsOf(db'.results, other) == Store.ResultsOf(db.results, other)
  {
    Seqs.FilterNarrow(db.results, (r: MatchResults.MatchResult) => r.file != id,
                      (r: MatchResults.MatchResult) => r.file == other);
  }

  // ---------------------------------------------------------------------
  // Export
  // ---------------------------------------------------------------------

  /** The export options read from the query: the format defaults to xlsx,
      scores are included unless the query says exactly 'false', alternatives
      only when it says exactly 'true'. */
  function ParseExportOptions(format: Option<string>, includeScores: Option<string>, includeAll: Option<string>)
    : (opts: ExcelService.ExportOptions)
    ensures opts.format == if format.Some? && format.value != "" then format.value else "xlsx"
    ensures opts.includeScores <==> includeScores != Some("false")
    ensures opts.includeAllSuggestions <==> includeAll == Some("true")
  {
    ExcelService.ExportOptions(
      if format.Some? && format.value != "" then format.value else "xlsx",
      includeScores != Some("false"),
      includeAll == Some("true"))
  }

  /** An empty query gives the service's own defaults. */
  lemma NoQueryGivesDefaults()
    ensures ParseExportOptions(None, None, None) == ExcelService.DefaultOptions
  {
  }

  /** The query string that asks for the options `o`: the format, and each
      flag as 'true' or 'false'. */
  function ExportQuery(o: ExcelService.ExportOptions): (Option<string>, Option<string>, Option<string>) {
    (Some(o.format),
     Some(if o.includeScores then "true" else "false"),
     Some(if o.includeAllSuggestions then "true" else "false"))
  }

  /** Parsing the query written for some options gives those options back,
      for every non-empty format (an empty one reads as missing). */
  lemma ExportQueryRoundTrip(o: ExcelService.ExportOptions)
    requires o.format != ""
    ensures var q := ExportQuery(o); ParseExportOptions(q.0, q.1, q.2) == o
  {
  }

  function RowIndexKey(r: MatchResults.MatchResult): int {
    r.rowIndex
  }

  /** `GET /:id/export`: an unknown file is a 404; otherwise the file's results
      sorted by ascending row number go through `exportResults`, whose
      rejection of a format is a 500. */
  function ExportFile(db: Store.Db, id: nat, opts: ExcelService.ExportOptions)
    : (out: Http.Reply<seq<ExcelService.KeyedRow>>)
    ensures id !in db.files ==> out == Http.Rejected(Http.NotFound)
    ensures id in db.files ==>
      var sorted := Sorting.SortAsc(Store.ResultsOf(db.results, id), RowIndexKey);
      match ExcelService.ExportResults(sorted, opts)
      case Failure(_) => out == Http.Rejected(Http.ServerError)
      case Success(rows) => out == Http.Ok(200, rows)
  {
    if id !in db.files then Http.Rejected(Http.NotFound)
    else
      var sorted := Sorting.SortAsc(Store.ResultsOf(db.results, id), RowIndexKey);
      match ExcelService.ExportResults(sorted, opts)
      case Failure(_) => Http.Rejected(Http.ServerError)
      case Success(rows) => Http.Ok(200, rows)
  }

  /** The exported rows follow the file's results by ascending row number, one
      row per result, and hold each of them once. */
  lemma ExportFileOrder(db: Store.Db, id: nat, opts: ExcelService.ExportOptions)
    requires id in db.files && ExportFile(db, id, opts).Ok?
    ensures var sorted := Sorting.SortAsc(Store.ResultsOf(db.results, id), RowIndexKey);
      && |ExportFile(db, id, opts).data| == |sorted|
      && multiset(sorted) == multiset(Store.ResultsOf(db.results, id))
      && (forall i, j :: 0 <= i < j < |sorted| ==> sorted[i].rowIndex <= sorted[j].rowIndex)
      && forall k :: 0 <= k < |sorted| ==> ExportFile(db, id, opts).data[k] == ExcelService.ExportRow(sorted[k], opts)
  {
    var sorted := Sorting.SortAsc(Store.ResultsOf(db.results, id), RowIndexKey);
    assert Sorting.SortedAsc(sorted, RowIndexKey);
  }
}

=== FILE: http.dfy ===
/** What the Express routes of the JavaScript server share: a reply is a
    status code with a payload or a bare error status (an error passed to
    `next` has no status of its own, so the server's error handler answers
    500), and list routes page their results with `skip` and `limit`. */
module Http {
  import opened Wrappers
  import Numbers

  datatype Reply<T> = Ok(code: int, data: T) | Rejected(code: int)

  const BadRequest := 400
  const NotFound := 404
  const ServerError := 500

  /** `parseInt(q) || fallback`: a missing, unparsable or zero query takes the
      fallback. */
  function QueryInt(q: Option<string>, fallback: int): (n: int)
    ensures q.Some? && Numbers.ParseInt(q.value).Some? && Numbers.ParseInt(q.value).value != 0 ==>
      n == Numbers.ParseInt(q.value).value
    ensures q.None? || Numbers.ParseInt(q.value).None? || Numbers.ParseInt(q.value) == Some(0) ==> n == fallback
  {
    if q.None? then fallback
    else
      var v := Numbers.ParseInt(q.value);
      if v.Some? && v.value != 0 then v.value else fallback
  }

  /** A client that writes a non-zero number into the query gets that number
      back; writing 0 gets the fallback. */
  lemma QueryIntRoundTrip(n: int, fallback: int)
    ensures QueryInt(Some(Numbers.IntString(n)), fallback) == if n != 0 then n else fallback
  {
    Numbers.ParseIntString(n);
  }

  /** A page of a sorted query and its `pagination` block. */
  datatype Page<T> = Page(items: seq<T>, currentPage: int, totalPages: int, totalItems: nat, itemsPerPage: int)

  /** The `limit` the database applies: a negative limit is read as its
      absolute value. */
  function Take(limit: int): nat {
    if limit < 0 then -limit else limit
  }

  /** `find(...).skip((page - 1) * limit).limit(limit)` together with
      `countDocuments`: the slice after `skip`, at most `|limit|` long, and
      `totalPages = Math.ceil(total / limit)`. A negative skip is refused by
      the database, which the route turns into a 500. */
  function Paginate<T>(all: seq<T>, page: int, limit: int): (out: Result<Page<T>, int>)
    requires limit != 0
    ensures out.Failure? <==> (page - 1) * limit < 0
    ensures out.Failure? ==> out.error == ServerError
    ensures out.Success? ==>
      var skip := (page - 1) * limit;
      && out.value.totalItems == |all|
      && out.value.currentPage == page && out.value.itemsPerPage == limit
      && out.value.totalPages == Numbers.CeilDiv(|all|, limit)
      && |out.value.items| <= Take(limit)
      && (skip >= |all| ==> out.value.items == [])
      && (skip < |all| ==>
            out.value.items == all[skip..if skip + Take(limit) < |all| then skip + Take(limit) else |all|])
  {
    var skip := (page - 1) * limit;
    if skip < 0 then Failure(ServerError)
    else
      var from := if skip < |all| then skip else |all|;
      var to := if from + Take(limit) < |all| then from + Take(limit) else |all|;
      Success(Page(all[from..to], page, Numbers.CeilDiv(|all|, limit), |all|, limit))
  }

  /** The items of pages 1 to n, in order. */
  function PagesUpTo<T>(all: seq<T>, limit: int, n: nat): seq<T>
    requires limit > 0
  {
    if n == 0 then []
    else
      var rest := PagesUpTo(all, limit, n - 1);
      match Paginate(all, n, limit)
      case Success(p) => rest + p.items
      case Failure(_) => rest
  }

  /** Pages 1 to n hold the first n * limit items. */
  lemma {:induction false} PagesUpToPrefix<T>(all: seq<T>, limit: int, n: nat)
    requires limit > 0
    ensures PagesUpTo(all, limit, n) == all[..if n * limit < |all| then n * limit else |all|]
  {
    if n == 0 {
      assert all[..0] == [];
    } else {
      PagesUpToPrefix(all, limit, n - 1);
      var skip := (n - 1) * limit;
      Numbers.MulLe(0, n - 1, limit);
      var before := if skip < |all| then skip else |all|;
      var after := if n * limit < |all| then n * limit else |all|;
      assert skip + limit == n * limit;
      var p := Paginate(all, n, limit);
      assert p.Success?;
      if skip < |all| {
        assert p.value.items == all[before..after];
      } else {
        assert p.value.items == [];
        Numbers.MulLe(n - 1, n, limit);
        assert before == after;
      }
      assert all[..before] + all[before..after] == all[..after];
    }
  }

  /** With a positive limit the pages 1 to `totalPages` list every item exactly
      once, in order. */
  lemma PagesCoverAll<T>(all: seq<T>, limit: int)
    requires limit > 0
    ensures PagesUpTo(all, limit, if Numbers.CeilDiv(|all|, limit) > 0 then Numbers.CeilDiv(|all|, limit) else 0) == all
  {
    var total := Numbers.CeilDiv(|all|, limit);
    if total > 0 {
      PagesUpToPrefix(all, limit, total);
      assert all[..|all|] == all;
    } else {
      assert |all| == 0;
      PagesUpToPrefix(all, limit, 0);
    }
  }
}

=== FILE: match_result.dfy ===
/** The match-result record of the JavaScript server (server/models/MatchResult.js):
    one keyword taken from a spreadsheet row, the candidate targeting
    suggestions found for it, the selected candidate and its score, and the
    record's methods `markProcessed`, `markFailed` and
    `changeSelectedSuggestion`. Mongoose's `save()` is modelled by its
    validation of the schema bounds. */
module MatchResults {
  import opened Wrappers
  import Text

  /** One candidate: display value, audience size, opaque targeting payload
      (the provider's interest ids), relevance score and selection flag. */
  datatype Suggestion = Suggestion(
    value: string,
    size: int,
    interests: seq<string>,
    score: Option<int>,
    isSelected: bool)

  datatype Status = Pending | Processed | Failed

  /** The status as stored (`enum: ['pending', 'processed', 'failed']`). */
  function StatusName(s: Status): string {
    match s
    case Pending => "pending"
    case Processed => "processed"
    case Failed => "failed"
  }

  datatype MatchResult = MatchResult(
    id: nat,
    file: nat,
    originalValue: string,
    rowIndex: int,
    suggestions: seq<Suggestion>,
    selected: Option<Suggestion>,
    matchScore: Option<int>,
    status: Status,
    errorMessage: Option<string>,
    completedAt: Option<int>)

  datatype Error =
    | InvalidSuggestion   // 'Suggestion invalide'
    | TypeError           // a property read on `undefined`
    | ValidationError     // a schema bound rejected by save()

  /** JavaScript truthiness of a number that may be null/undefined. */
  predicate Truthy(x: Option<int>) {
    x.Some? && x.value != 0
  }

  /** A record as created for one cell: status pending, no candidates. */
  function NewPending(id: nat, file: nat, value: string, rowIndex: int): MatchResult {
    MatchResult(id, file, value, rowIndex, [], None, None, Pending, None, None)
  }

  /** `new MatchResult({ file, originalValue: value, rowIndex, status: 'pending' }).save()`:
      the `trim: true` setter strips the value's surrounding whitespace, and a
      value left empty fails `required`. */
  function CreatePending(id: nat, file: nat, value: string, rowIndex: int): (out: Result<MatchResult, Error>)
    ensures out.Success? <==> exists k :: 0 <= k < |value| && !Text.IsSpace(value[k])
    ensures out.Failure? ==> out.error == ValidationError
    ensures out.Success? ==>
      var v := out.value.originalValue;
      && out.value == NewPending(id, file, v, rowIndex)
      && |v| > 0 && !Text.IsSpace(v[0]) && !Text.IsSpace(v[|v| - 1])
      && v == Text.Trim(value)
  {
    Save(NewPending(id, file, Text.Trim(value), rowIndex))
  }

  predicate ScoreInRange(x: Option<int>) {
    x.None? || 0 <= x.value <= 100
  }

  /** The suggestion schema's checks: `value` is present (`required` rejects
      the empty string) and the score lies in [0, 100]. The audience size is
      always a number here, so its `required` holds. */
  predicate SuggestionValid(c: Suggestion) {
    c.value != "" && ScoreInRange(c.score)
  }

  /** The schema's checks: `originalValue` is present, every candidate and
      the selection pass the suggestion schema, and `matchScore` lies in
      [0, 100]. */
  predicate SchemaValid(r: MatchResult) {
    && r.originalValue != ""
    && (forall k :: 0 <= k < |r.suggestions| ==> SuggestionValid(r.suggestions[k]))
    && (r.selected.Some? ==> SuggestionValid(r.selected.value))
    && ScoreInRange(r.matchScore)
  }

  /** `save()`: stores the record unless a schema bound is violated. */
  function Save(r: MatchResult): Result<MatchResult, Error> {
    if SchemaValid(r) then Success(r) else Failure(ValidationError)
  }

  /** Two candidates agree on everything but the selection flag. */
  predicate SameCandidate(a: Suggestion, b: Suggestion) {
    a.(isSelected := false) == b.(isSelected := false)
  }

  /** Candidate `i` is the only flagged one. */
  predicate ExactlyFlagged(list: seq<Suggestion>, i: int) {
    forall k :: 0 <= k < |list| ==> (list[k].isSelected <==> k == i)
  }

  predicate AtMostOneFlagged(list: seq<Suggestion>) {
    forall a, b :: 0 <= a < |list| && 0 <= b < |list| && list[a].isSelected && list[b].isSelected ==> a == b
  }

  /** The selection state the methods maintain: at most one flagged candidate,
      and a flagged candidate carries the selected suggestion's value. */
  predicate SelectionCoherent(r: MatchResult) {
    && AtMostOneFlagged(r.suggestions)
    && forall k :: 0 <= k < |r.suggestions| && r.suggestions[k].isSelected ==>
         r.selected.Some? && r.suggestions[k].value == r.selected.value.value
  }

  /** `markProcessed(suggestions, selectedIndex, score)`. The candidate list is
      replaced: assigning it makes the database layer copy the caller's
      candidates into the record first, so the flag set afterwards on the
      caller's candidate at `selectedIndex` reaches only the selection, which
      is copied after the flag is set. With a non-empty list and a defined
      index the selection is that candidate, flagged (an index outside the
      list makes `suggestions[selectedIndex].isSelected` throw); `matchScore`
      is the supplied score when truthy, else the selection's score, else
      null. */
  function MarkProcessed(r: MatchResult, suggestions: seq<Suggestion>, selectedIndex: Option<int>,
                         score: Option<int>, now: int): (out: Result<MatchResult, Error>)
    ensures out.Failure? <==>
      |suggestions| > 0 && selectedIndex.Some? && !(0 <= selectedIndex.value < |suggestions|)
    ensures out.Failure? ==> out.error == TypeError
    ensures out.Success? ==>
      var r' := out.value;
      && r'.status == Processed
      && r'.completedAt == Some(now)
      && r'.suggestions == suggestions
      && r'.id == r.id && r'.file == r.file && r'.originalValue == r.originalValue
      && r'.rowIndex == r.rowIndex && r'.errorMessage == r.errorMessage
      && r'.matchScore == (if Truthy(score) then score
                           else if r'.selected.Some? then r'.selected.value.score else None)
    ensures out.Success? && |suggestions| > 0 && selectedIndex.Some? ==>
      var i := selectedIndex.value;
      && out.value.selected == Some(suggestions[i].(isSelected := true))
    ensures out.Success? && !(|suggestions| > 0 && selectedIndex.Some?) ==>
      out.value.selected == r.selected
  {
    if |suggestions| > 0 && selectedIndex.Some? then
      var i := selectedIndex.value;
      if !(0 <= i < |suggestions|) then Failure(TypeError)
      else
        var flagged := suggestions[i].(isSelected := true);
        Success(r.(suggestions := suggestions, selected := Some(flagged),
                   matchScore := if Truthy(score) then score else flagged.score,
                   status := Processed, completedAt := Some(now)))
    else
      Success(r.(suggestions := suggestions,
                 matchScore := if Truthy(score) then score
                               else if r.selected.Some? then r.selected.value.score else None,
                 status := Processed, completedAt := Some(now)))
  }

  /** `markFailed(message)`: status 'failed' and the message; nothing else changes. */
  function MarkFailed(r: MatchResult, message: string): (r': MatchResult)
    ensures r'.status == Failed && r'.errorMessage == Some(message)
    ensures r'.id == r.id && r'.file == r.file && r'.originalValue == r.originalValue
    ensures r'.rowIndex == r.rowIndex && r'.suggestions == r.suggestions
    ensures r'.selected == r.selected && r'.matchScore == r.matchScore
    ensures r'.completedAt == r.completedAt
  {
    r.(status := Failed, errorMessage := Some(message))
  }

  /** Index of the first flagged candidate whose value is `value` (`findIndex`). */
  function FindFlagged(list: seq<Suggestion>, value: string): (k: Option<nat>)
    ensures k.Some? ==> k.value < |list| && list[k.value].isSelected && list[k.value].value == value
    ensures k.Some? ==> forall j :: 0 <= j < k.value ==> !(list[j].isSelected && list[j].value == value)
    ensures k.None? ==> forall j :: 0 <= j < |list| ==> !(list[j].isSelected && list[j].value == value)
  {
    if |list| == 0 then None
    else if list[0].isSelected && list[0].value == value then Some(0)
    else
      var rest := FindFlagged(list[1..], value);
      if rest.Some? then Some(rest.value + 1) else None
  }

  /** The candidate list after the old selection's flag is cleared. */
  function Deselected(r: MatchResult): (list: seq<Suggestion>)
    ensures |list| == |r.suggestions|
    ensures forall k :: 0 <= k < |list| ==> SameCandidate(list[k], r.suggestions[k])
  {
    if r.selected.None? then r.suggestions
    else
      match FindFlagged(r.suggestions, r.selected.value.value)
      case None => r.suggestions
      case Some(k) => r.suggestions[k := r.suggestions[k].(isSelected := false)]
  }

  /** `changeSelectedSuggestion(index)`. An index at or past the end throws
      'Suggestion invalide' and a negative one fails on `undefined`; in both
      cases nothing is stored. Otherwise the old selection's flag is cleared,
      candidate `index` is flagged and becomes the selection, and `matchScore`
      takes its score only when that score is truthy. */
  function ChangeSelectedSuggestion(r: MatchResult, index: int): (out: Result<MatchResult, Error>)
    ensures out.Failure? <==> !(0 <= index < |r.suggestions|)
    ensures index >= |r.suggestions| ==> out == Failure(InvalidSuggestion)
    ensures out.Success? ==>
      var r' := out.value;
      && |r'.suggestions| == |r.suggestions|
      && r'.suggestions[index] == r.suggestions[index].(isSelected := true)
      && r'.selected == Some(r'.suggestions[index])
      && (forall k :: 0 <= k < |r.suggestions| ==> SameCandidate(r'.suggestions[k], r.suggestions[k]))
      && (Truthy(r.suggestions[index].score) ==> r'.matchScore == r.suggestions[index].score)
      && (!Truthy(r.suggestions[index].score) ==> r'.matchScore == r.matchScore)
      && r'.id == r.id && r'.file == r.file && r'.originalValue == r.originalValue
      && r'.rowIndex == r.rowIndex && r'.status == r.status
      && r'.errorMessage == r.errorMessage && r'.completedAt == r.completedAt
  {
    if index >= |r.suggestions| then Failure(InvalidSuggestion)
    else if index < 0 then Failure(TypeError)
    else
      var list := Deselected(r);
      var chosen := list[index].(isSelected := true);
      Success(r.(suggestions := list[index := chosen], selected := Some(chosen),
                 matchScore := if Truthy(chosen.score) then chosen.score else r.matchScore))
  }

  /** From a coherent state, re-selecting candidate `i` leaves exactly candidate
      `i` flagged, and the result is again coherent. */
  lemma ChangeSelectedFlagsExactlyOne(r: MatchResult, i: int)
    requires 0 <= i < |r.suggestions|
    requires SelectionCoherent(r)
    ensures ChangeSelectedSuggestion(r, i).Success?
    ensures ExactlyFlagged(ChangeSelectedSuggestion(r, i).value.suggestions, i)
    ensures SelectionCoherent(ChangeSelectedSuggestion(r, i).value)
  {
    var list := Deselected(r);
    assert forall k :: 0 <= k < |list| ==> !list[k].isSelected by {
      if r.selected.Some? {
        var m := FindFlagged(r.suggestions, r.selected.value.value);
        if m.None? {
          assert forall k :: 0 <= k < |list| ==> !r.suggestions[k].isSelected;
        }
      } else {
        assert forall k :: 0 <= k < |list| ==> !r.suggestions[k].isSelected;
      }
    }
  }

  /** Re-selecting the candidate that is already selected changes nothing. */
  lemma ChangeSelectedIdempotent(r: MatchResult, i: int)
    requires 0 <= i < |r.suggestions|
    requires SelectionCoherent(r)
    ensures ChangeSelectedSuggestion(r, i).Success?
    ensures ChangeSelectedSuggestion(ChangeSelectedSuggestion(r, i).value, i) == ChangeSelectedSuggestion(r, i)
  {
    ChangeSelectedFlagsExactlyOne(r, i);
    var r1 := ChangeSelectedSuggestion(r, i).value;
    var m := FindFlagged(r1.suggestions, r1.selected.value.value);
    assert m == Some(i as nat);
    var list := Deselected(r1);
    assert list[i := list[i].(isSelected := true)] == r1.suggestions;
  }

  /** Selecting `i` and then `j` leaves exactly `j` flagged, with `j`'s candidate
      as the selection, whatever was selected before. */
  lemma ChangeSelectedTwice(r: MatchResult, i: int, j: int)
    requires 0 <= i < |r.suggestions| && 0 <= j < |r.suggestions|
    requires SelectionCoherent(r)
    ensures ChangeSelectedSuggestion(r, i).Success?
    ensures var r2 := ChangeSelectedSuggestion(ChangeSelectedSuggestion(r, i).value, j);
      && r2.Success?
      && ExactlyFlagged(r2.value.suggestions, j)
      && r2.value.selected == Some(r2.value.suggestions[j])
  {
    ChangeSelectedFlagsExactlyOne(r, i);
    ChangeSelectedFlagsExactlyOne(ChangeSelectedSuggestion(r, i).value, j);
  }

  /** Without coherence the method can leave two candidates flagged: a stray flag
      with no selected suggestion is never cleared. */
  lemma ChangeSelectedKeepsStrayFlag()
    ensures var a := Suggestion("shoes", 10, [], Some(80), true);
      var b := Suggestion("boots", 20, [], Some(60), false);
      var r := MatchResult(1, 1, "shoes", 1, [a, b], None, None, Processed, None, None);
      var out := ChangeSelectedSuggestion(r, 1);
      out.Success? && out.value.suggestions[0].isSelected && out.value.suggestions[1].isSelected
  {
  }

  /** Re-selection keeps the schema bounds. */
  lemma ChangeSelectedKeepsSchema(r: MatchResult, i: int)
    requires SchemaValid(r)
    requires ChangeSelectedSuggestion(r, i).Success?
    ensures SchemaValid(ChangeSelectedSuggestion(r, i).value)
  {
    var r' := ChangeSelectedSuggestion(r, i).value;
    assert forall k :: 0 <= k < |r'.suggestions| ==>
      r'.suggestions[k].score == r.suggestions[k].score && r'.suggestions[k].value == r.suggestions[k].value;
  }

  /** Processing with an unflagged candidate list and a valid index stores
      the list unflagged and a flagged copy of candidate `i` as the selection:
      no stored candidate carries the flag, and the state is coherent, so a
      later re-selection of `j` leaves exactly `j` flagged. */
  lemma MarkProcessedFlagsExactlyOne(r: MatchResult, suggestions: seq<Suggestion>, i: int, score: Option<int>, now: int)
    requires 0 <= i < |suggestions|
    requires forall k :: 0 <= k < |suggestions| ==> !suggestions[k].isSelected
    ensures MarkProcessed(r, suggestions, Some(i), score, now).Success?
    ensures var r' := MarkProcessed(r, suggestions, Some(i), score, now).value;
      && (forall k :: 0 <= k < |r'.suggestions| ==> !r'.suggestions[k].isSelected)
      && r'.selected.Some? && r'.selected.value.isSelected
      && SameCandidate(r'.selected.value, suggestions[i])
      && SelectionCoherent(r')
    ensures forall j :: 0 <= j < |suggestions| ==>
      var r' := MarkProcessed(r, suggestions, Some(i), score, now).value;
      && ChangeSelectedSuggestion(r', j).Success?
      && ExactlyFlagged(ChangeSelectedSuggestion(r', j).value.suggestions, j)
  {
    var r' := MarkProcessed(r, suggestions, Some(i), score, now).value;
    forall j | 0 <= j < |suggestions|
      ensures ChangeSelectedSuggestion(r', j).Success?
      ensures ExactlyFlagged(ChangeSelectedSuggestion(r', j).value.suggestions, j)
    {
      ChangeSelectedFlagsExactlyOne(r', j);
    }
  }

  /** Processing keeps the schema checks when the supplied candidates pass
      them and the score is in range. */
  lemma MarkProcessedKeepsSchema(r: MatchResult, suggestions: seq<Suggestion>, index: Option<int>, score: Option<int>, now: int)
    requires SchemaValid(r) && ScoreInRange(score)
    requires forall k :: 0 <= k < |suggestions| ==> SuggestionValid(suggestions[k])
    requires MarkProcessed(r, suggestions, index, score, now).Success?
    ensures SchemaValid(MarkProcessed(r, suggestions, index, score, now).value)
  {
    var r' := MarkProcessed(r, suggestions, index, score, now).value;
    assert forall k :: 0 <= k < |r'.suggestions| ==>
      r'.suggestions[k].score == suggestions[k].score && r'.suggestions[k].value == suggestions[k].value;
  }
}

=== FILE: meta_service.dfy ===
/** The targeting-search service of the JavaScript server
    (server/services/metaService.js): the audience-size rule, the mapping of
    the provider's interest items to suggestions, the development fallback,
    the simulated suggestions and the word-by-word "translation" used by
    them. The provider's reply is an input value. */
module MetaService {
  import opened Wrappers
  import opened Text
  import Numbers
  import MatchResults

  /** One interest item of the provider's reply; absent numeric fields are `None`. */
  datatype Item = Item(
    id: string,
    name: string,
    audienceSize: Option<int>,
    lowerBound: Option<int>,
    upperBound: Option<int>)

  /** The outcome of the search request: `response.data.data` (absent when the
      reply carries no data array) or a failed request. */
  datatype Reply = Data(items: Option<seq<Item>>) | RequestFailed

  datatype Config = Config(accessToken: bool, development: bool)

  datatype MetaError = NoAccessToken | ProviderError

  /** `_calculateAudienceSize`: with both bounds truthy, the floor of their
      mean; otherwise the first truthy of `audience_size` and the lower bound,
      else 0. */
  function AudienceSize(item: Item): (size: int)
    ensures MatchResults.Truthy(item.lowerBound) && MatchResults.Truthy(item.upperBound) ==>
      2 * size <= item.lowerBound.value + item.upperBound.value < 2 * size + 2
    ensures !(MatchResults.Truthy(item.lowerBound) && MatchResults.Truthy(item.upperBound)) ==>
      (MatchResults.Truthy(item.audienceSize) ==> size == item.audienceSize.value)
    ensures !(MatchResults.Truthy(item.lowerBound) && MatchResults.Truthy(item.upperBound)) ==>
      (!MatchResults.Truthy(item.audienceSize) && MatchResults.Truthy(item.lowerBound) ==> size == item.lowerBound.value)
    ensures !MatchResults.Truthy(item.audienceSize) && !MatchResults.Truthy(item.lowerBound) ==> size == 0
  {
    if MatchResults.Truthy(item.lowerBound) && MatchResults.Truthy(item.upperBound) then
      Numbers.FloorDiv(item.lowerBound.value + item.upperBound.value, 2)
    else if MatchResults.Truthy(item.audienceSize) then item.audienceSize.value
    else if MatchResults.Truthy(item.lowerBound) then item.lowerBound.value
    else 0
  }

  /** With ordered bounds the midpoint lies between them. */
  lemma MidpointBetweenBounds(item: Item)
    requires MatchResults.Truthy(item.lowerBound) && MatchResults.Truthy(item.upperBound)
    requires item.lowerBound.value <= item.upperBound.value
    ensures item.lowerBound.value <= AudienceSize(item) <= item.upperBound.value
  {
  }

  /** Non-negative provider figures give a non-negative audience size. */
  lemma AudienceSizeNonNegative(item: Item)
    requires item.audienceSize.Some? ==> item.audienceSize.value >= 0
    requires item.lowerBound.Some? ==> item.lowerBound.value >= 0
    requires item.upperBound.Some? ==> item.upperBound.value >= 0
    ensures AudienceSize(item) >= 0
  {
  }

  /** Each item becomes, in order, the suggestion named after it, with its
      audience size and its id as the only interest; no score, not selected. */
  function MapItems(items: seq<Item>): (r: seq<MatchResults.Suggestion>)
    ensures |r| == |items|
    ensures forall k :: 0 <= k < |items| ==>
      r[k] == MatchResults.Suggestion(items[k].name, AudienceSize(items[k]), [items[k].id], None, false)
  {
    if |items| == 0 then [] else [ToSuggestion(items[0])] + MapItems(items[1..])
  }

  function ToSuggestion(item: Item): MatchResults.Suggestion {
    MatchResults.Suggestion(item.name, AudienceSize(item), [item.id], None, false)
  }

  /** `/^[a-zA-Z\s]+$/`: a non-empty run of ASCII letters and whitespace. */
  predicate IsLatinWords(keyword: string) {
    |keyword| > 0 &&
    forall i :: 0 <= i < |keyword| ==>
      ('a' <= keyword[i] <= 'z') || ('A' <= keyword[i] <= 'Z') || IsSpace(keyword[i])
  }

  /** The demonstration dictionary. */
  const Dictionary: map<string, string> := map[
    "marketing" := "marketing",
    "digital" := "digital",
    "r\U{E9}seaux" := "networks",
    "sociaux" := "social",
    "m\U{E9}dias" := "media",
    "vente" := "sales",
    "en" := "online",
    "ligne" := "online",
    "commerce" := "commerce",
    "publicit\U{E9}" := "advertising",
    "annonce" := "ad",
    "campagne" := "campaign"
  ]

  /** `simpleDictionary[word] || word`. */
  function Translate(word: string): (t: string)
    ensures word in Dictionary ==> t == Dictionary[word]
    ensures word !in Dictionary ==> t == word
  {
    if word in Dictionary && Dictionary[word] != "" then Dictionary[word] else word
  }

  /** The lower-cased keyword's whitespace-separated words, each translated. */
  function EnglishWords(keyword: string): (words: seq<string>)
    ensures |words| == |Split(Lower(keyword))|
    ensures forall k :: 0 <= k < |words| ==> words[k] == Translate(Split(Lower(keyword))[k])
  {
    var pieces := Split(Lower(keyword));
    seq(|pieces|, k requires 0 <= k < |pieces| => Translate(pieces[k]))
  }

  /** `_getEnglishSimulation`: the translated words joined by single spaces,
      first character upper-cased. */
  function EnglishSimulation(keyword: string): string {
    Capitalize(JoinSpace(EnglishWords(keyword)))
  }

  /** Every dictionary entry is a single non-empty word. */
  lemma DictionaryWords()
    ensures forall w :: w in Dictionary ==> |Dictionary[w]| > 0 && NoSpace(Dictionary[w])
  {
    forall w | w in Dictionary
      ensures |Dictionary[w]| > 0 && NoSpace(Dictionary[w])
    {
      var t := Dictionary[w];
      assert t in {"marketing", "digital", "networks", "social", "media", "sales", "online",
                   "commerce", "advertising", "ad", "campaign"};
    }
  }

  /** The translation keeps the number of words: splitting the simulated
      English phrase yields as many words as the keyword has, and before
      capitalisation exactly the translated words. A leading or trailing
      whitespace run gives an empty first or last word, which translates to
      itself. */
  lemma EnglishSimulationKeepsWords(keyword: string)
    ensures Split(JoinSpace(EnglishWords(keyword))) == EnglishWords(keyword)
    ensures |Split(EnglishSimulation(keyword))| == |Split(Lower(keyword))|
  {
    var words := EnglishWords(keyword);
    var pieces := Split(Lower(keyword));
    DictionaryWords();
    SplitInnerNonEmpty(Lower(keyword));
    assert forall k :: 0 <= k < |words| ==> NoSpace(words[k]) by {
      forall k | 0 <= k < |words|
        ensures NoSpace(words[k])
      {
        assert words[k] == Translate(pieces[k]);
      }
    }
    assert forall k :: 0 < k < |words| - 1 ==> |words[k]| > 0 by {
      forall k | 0 < k < |words| - 1
        ensures |words[k]| > 0
      {
        assert words[k] == Translate(pieces[k]);
        assert |pieces[k]| > 0;
      }
    }
    SplitJoinEnds(words);
    CapitalizeKeepsWordCount(JoinSpace(words));
  }

  /** The demonstration audience sizes `Math.random()` would draw are inputs. */
  function Simulated(value: string, size: int, interest: string): MatchResults.Suggestion {
    MatchResults.Suggestion(value, size, [interest], None, false)
  }

  /** `_getSimulatedSuggestions`: five variations of the keyword, and two
      English variants after them when the keyword is not plain Latin words. */
  function SimulatedSuggestions(keyword: string, sizes: seq<int>): (r: seq<MatchResults.Suggestion>)
    requires |sizes| == 7
    ensures IsLatinWords(keyword) ==> |r| == 5
    ensures !IsLatinWords(keyword) ==> |r| == 7
    ensures r[0].value == keyword
    ensures forall k :: 0 <= k < |r| ==> r[k].size == sizes[k] && r[k].score.None? && !r[k].isSelected
    ensures !IsLatinWords(keyword) ==>
      r[5].value == EnglishSimulation(keyword) && r[6].value == EnglishSimulation(keyword) + " Trends"
  {
    var base := Variations(keyword, sizes);
    if !IsLatinWords(keyword) then
      var english := EnglishVariants(EnglishSimulation(keyword), sizes[5], sizes[6]);
      assert forall k :: 5 <= k < 7 ==> (base + english)[k] == english[k - 5];
      base + english
    else base
  }

  /** The five variations every keyword gets, sized by the first five draws. */
  function Variations(keyword: string, sizes: seq<int>): (r: seq<MatchResults.Suggestion>)
    requires |sizes| >= 5
    ensures |r| == 5 && r[0].value == keyword
    ensures forall k :: 0 <= k < 5 ==> r[k].size == sizes[k] && r[k].score.None? && !r[k].isSelected
  {
    [Simulated(keyword, sizes[0], "123456"),
     Simulated(keyword + " Marketing", sizes[1], "234567"),
     Simulated("Digital " + keyword, sizes[2], "345678"),
     Simulated(keyword + " Social Media", sizes[3], "456789"),
     Simulated("Online " + keyword, sizes[4], "567890")]
  }

  /** The two English variants, the plain translation first. */
  function EnglishVariants(english: string, size5: int, size6: int): (r: seq<MatchResults.Suggestion>)
    ensures |r| == 2 && r[0].value == english && r[1].value == english + " Trends"
    ensures r[0].size == size5 && r[1].size == size6
    ensures forall k :: 0 <= k < 2 ==> r[k].score.None? && !r[k].isSelected
  {
    [Simulated(english, size5, "678901"), Simulated(english + " Trends", size6, "789012")]
  }

  /** `searchTargetingSuggestions(keyword)`. Without an access token, or when
      the request fails, the development mode answers with simulated
      suggestions and any other mode fails; a reply without a data array
      yields no suggestions. */
  function SearchTargetingSuggestions(config: Config, reply: Reply, keyword: string, sizes: seq<int>)
    : (out: Result<seq<MatchResults.Suggestion>, MetaError>)
    requires |sizes| == 7
    ensures (!config.accessToken || reply.RequestFailed?) ==>
      (config.development ==> out == Success(SimulatedSuggestions(keyword, sizes)))
    ensures (!config.accessToken || reply.RequestFailed?) && !config.development ==> out.Failure?
    ensures !config.accessToken && !config.development ==> out == Failure(NoAccessToken)
    ensures config.accessToken && reply.Data? ==>
      out == Success(if reply.items.Some? then MapItems(reply.items.value) else [])
  {
    if !config.accessToken then
      if config.development then Success(SimulatedSuggestions(keyword, sizes)) else Failure(NoAccessToken)
    else
      match reply
      case RequestFailed =>
        if config.development then Success(SimulatedSuggestions(keyword, sizes)) else Failure(ProviderError)
      case Data(items) =>
        Success(if items.Some? then MapItems(items.value) else [])
  }

  /** A Latin keyword's simulated suggestions open with the keyword itself and
      its marketing variant. */
  lemma SimulatedLatinExample(sizes: seq<int>)
    requires |sizes| == 7
    ensures var r := SimulatedSuggestions("shoes", sizes);
      |r| == 5 && r[0].value == "shoes" && r[1].value == "shoes Marketing"
  {
    assert IsLatinWords("shoes");
  }

  /** The French keyword "réseaux sociaux" is not plain Latin words and gets
      the English variant "Networks social". */
  lemma SimulatedFrenchExample(sizes: seq<int>)
    requires |sizes| == 7
    ensures var r := SimulatedSuggestions("r\U{E9}seaux sociaux", sizes);
      |r| == 7 && r[5].value == "Networks social"
  {
    var k := "r\U{E9}seaux sociaux";
    assert !IsLatinWords(k) by { assert k[1] == '\U{E9}'; }
    EnglishVariantAt(k, sizes);
    FrenchEnglish();
  }

  /** The sixth simulated suggestion of a non-Latin keyword is its English phrase. */
  lemma EnglishVariantAt(keyword: string, sizes: seq<int>)
    requires |sizes| == 7 && !IsLatinWords(keyword)
    ensures var r := SimulatedSuggestions(keyword, sizes);
      |r| == 7 && r[5].value == EnglishSimulation(keyword)
  {
  }

  lemma FrenchEnglish()
    ensures EnglishSimulation("r\U{E9}seaux sociaux") == "Networks social"
  {
    var k := "r\U{E9}seaux sociaux";
    FrenchWords();
    EnglishPhrase();
  }

  /** The translated words of the French example, joined and capitalised. */
  lemma EnglishPhrase()
    ensures Capitalize(JoinSpace(["networks", "social"])) == "Networks social"
  {
    var w: seq<string> := ["networks", "social"];
    assert w[1..] == ["social"];
    var j := JoinSpace(w);
    assert j == "networks social";
    assert UpperChar('n') == 'N';
  }

  /** The two words of the French example, translated. */
  lemma FrenchWords()
    ensures EnglishWords("r\U{E9}seaux sociaux") == ["networks", "social"]
  {
    var k := "r\U{E9}seaux sociaux";
    assert Lower(k) == k by {
      assert forall i :: 0 <= i < |k| ==> !IsUpper(k[i]);
    }
    FrenchSplit();
    FrenchTranslations();
  }

  lemma FrenchTranslations()
    ensures Translate("r\U{E9}seaux") == "networks" && Translate("sociaux") == "social"
  {
  }

  lemma FrenchSplit()
    ensures Split("r\U{E9}seaux sociaux") == ["r\U{E9}seaux", "sociaux"]
  {
    var w1, w2 := "r\U{E9}seaux", "sociaux";
    var words := [w1, w2];
    assert NoSpace(w1) && NoSpace(w2);
    assert JoinSpace(words) == w1 + " " + JoinSpace(words[1..]);
    assert JoinSpace(words) == "r\U{E9}seaux sociaux";
    SplitJoinEnds(words);
  }
}

=== FILE: numbers.dfy ===
/** Decimal rendering (`String(n)`), integer parsing (`parseInt(s)`) and the
    rounding divisions (`Math.ceil(a / b)`) the servers and the client use on integers. */
module Numbers {
  import opened Wrappers
  import Text

  predicate IsDigit(c: char) {
    '0' <= c <= '9'
  }

  function DigitChar(d: nat): (c: char)
    requires d < 10
    ensures IsDigit(c)
  {
    ('0' as int + d) as char
  }

  function DigitValue(c: char): (d: nat)
    requires IsDigit(c)
    ensures d < 10 && DigitChar(d) == c
  {
    c as int - '0' as int
  }

  /** The decimal numeral of `n`, without leading zeros. */
  function NatString(n: nat): (s: string)
    ensures |s| >= 1
    ensures forall i :: 0 <= i < |s| ==> IsDigit(s[i])
    ensures |s| > 1 ==> s[0] != '0'
    decreases n
  {
    if n < 10 then [DigitChar(n)] else NatString(n / 10) + [DigitChar(n % 10)]
  }

  /** `String(n)` for an integer `n`. */
  function IntString(n: int): (s: string)
    ensures |s| >= 1
    ensures n < 0 <==> s[0] == '-'
  {
    if n < 0 then "-" + NatString(-n) else NatString(n)
  }

  /** The value of a string of decimal digits, most significant first. */
  function DigitsValue(ds: string): nat
    requires forall i :: 0 <= i < |ds| ==> IsDigit(ds[i])
  {
    if |ds| == 0 then 0
    else DigitsValue(ds[..|ds| - 1]) * 10 + DigitValue(ds[|ds| - 1])
  }

  /** Index just past the run of decimal digits that starts at `from`. */
  function DigitsEnd(s: string, from: nat): (k: nat)
    requires from <= |s|
    ensures from <= k <= |s|
    ensures forall i :: from <= i < k ==> IsDigit(s[i])
    ensures k < |s| ==> !IsDigit(s[k])
    decreases |s| - from
  {
    if from == |s| || !IsDigit(s[from]) then from else DigitsEnd(s, from + 1)
  }

  predicate IsHexDigit(c: char) {
    IsDigit(c) || ('a' <= c <= 'f') || ('A' <= c <= 'F')
  }

  function HexValue(c: char): (d: nat)
    requires IsHexDigit(c)
    ensures d < 16
  {
    if IsDigit(c) then DigitValue(c)
    else if 'a' <= c <= 'f' then c as int - 'a' as int + 10
    else c as int - 'A' as int + 10
  }

  /** The value of a string of hexadecimal digits, most significant first. */
  function HexDigitsValue(ds: string): nat
    requires forall i :: 0 <= i < |ds| ==> IsHexDigit(ds[i])
  {
    if |ds| == 0 then 0
    else HexDigitsValue(ds[..|ds| - 1]) * 16 + HexValue(ds[|ds| - 1])
  }

  /** Index just past the run of hexadecimal digits that starts at `from`. */
  function HexDigitsEnd(s: string, from: nat): (k: nat)
    requires from <= |s|
    ensures from <= k <= |s|
    ensures forall i :: from <= i < k ==> IsHexDigit(s[i])
    ensures k < |s| ==> !IsHexDigit(s[k])
    decreases |s| - from
  {
    if from == |s| || !IsHexDigit(s[from]) then from else HexDigitsEnd(s, from + 1)
  }

  /** Whether the digits that start at `j` carry the `0x`/`0X` prefix that
      switches `parseInt` without a radix to base 16. */
  predicate HexPrefixAt(s: string, j: nat) {
    j + 1 < |s| && s[j] == '0' && (s[j + 1] == 'x' || s[j + 1] == 'X')
  }

  /** `parseInt(s)` without a radix: leading whitespace is skipped and one
      optional sign is read; a `0x` or `0X` prefix then selects base 16, else
      base 10, and the longest run of digits of that base is read. `None`
      stands for NaN: no digit where the digits should start (so `"0x"` alone
      is NaN). */
  function ParseInt(s: string): (r: Option<int>)
    ensures r.None? <==>
      var i := Text.SkipSpaces(s, 0);
      var j := if i < |s| && (s[i] == '-' || s[i] == '+') then i + 1 else i;
      if HexPrefixAt(s, j) then j + 2 == |s| || !IsHexDigit(s[j + 2])
      else j == |s| || !IsDigit(s[j])
  {
    var i := Text.SkipSpaces(s, 0);
    var negative := i < |s| && s[i] == '-';
    var j := if i < |s| && (s[i] == '-' || s[i] == '+') then i + 1 else i;
    var digits := if HexPrefixAt(s, j) then HexRun(s, j + 2) else DecimalRun(s, j);
    if digits.None? then None
    else
      var v: int := digits.value;
      Some(if negative then -v else v)
  }

  /** The value of the longest run of hexadecimal digits at `from`, or none
      when there is no digit there. */
  function HexRun(s: string, from: nat): (r: Option<nat>)
    requires from <= |s|
    ensures r.None? <==> from == |s| || !IsHexDigit(s[from])
  {
    var k := HexDigitsEnd(s, from);
    if k == from then None
    else
      var ds := s[from..k];
      assert forall i :: 0 <= i < |ds| ==> ds[i] == s[from + i];
      Some(HexDigitsValue(ds))
  }

  /** The value of the longest run of decimal digits at `from`, or none when
      there is no digit there. */
  function DecimalRun(s: string, from: nat): (r: Option<nat>)
    requires from <= |s|
    ensures r.None? <==> from == |s| || !IsDigit(s[from])
  {
    var k := DigitsEnd(s, from);
    if k == from then None
    else
      assert forall i :: 0 <= i < k - from ==> s[from..k][i] == s[from + i];
      Some(DigitsValue(s[from..k]))
  }

  /** A hexadecimal literal reads in base 16. */
  lemma HexExample()
    ensures ParseInt("0x10") == Some(16)
  {
    HexAfterPrefix("0x10", 0, 4);
    assert "0x10"[2..4] == "10";
    assert HexDigitsValue("10") == 16 by { assert "10"[..1] == "1"; }
  }

  /** The bare prefix has no digit after it and is NaN. */
  lemma BareHexPrefix()
    ensures ParseInt("0x") == None
  {
    assert Text.SkipSpaces("0x", 0) == 0;
  }

  /** A string that is whitespace-free, with an optional sign before index
      `j`, then `0x` and hexadecimal digits up to `k == |s|`, reads those digits. */
  lemma HexAfterPrefix(s: string, j: nat, k: nat)
    requires j <= 1 && j + 2 < k == |s|
    requires j == 1 ==> s[0] == '-'
    requires HexPrefixAt(s, j)
    requires forall i :: j + 2 <= i < k ==> IsHexDigit(s[i])
    ensures ParseInt(s) == Some(if j == 1 then -(HexDigitsValue(s[j + 2..k]) as int) else HexDigitsValue(s[j + 2..k]))
  {
    assert !Text.IsSpace(s[0]);
    assert Text.SkipSpaces(s, 0) == 0;
    HexDigitsEndWhole(s, j + 2);
  }

  lemma HexDigitsEndWhole(s: string, from: nat)
    requires from <= |s|
    requires forall i :: from <= i < |s| ==> IsHexDigit(s[i])
    ensures HexDigitsEnd(s, from) == |s|
    decreases |s| - from
  {
    if from < |s| {
      HexDigitsEndWhole(s, from + 1);
    }
  }

  lemma {:induction false} NatStringValue(n: nat)
    ensures DigitsValue(NatString(n)) == n
    decreases n
  {
    var s := NatString(n);
    if n >= 10 {
      NatStringValue(n / 10);
      assert s[..|s| - 1] == NatString(n / 10);
    }
  }

  lemma DigitsEndWhole(s: string, from: nat)
    requires from <= |s|
    requires forall i :: from <= i < |s| ==> IsDigit(s[i])
    ensures DigitsEnd(s, from) == |s|
    decreases |s| - from
  {
    if from < |s| {
      DigitsEndWhole(s, from + 1);
    }
  }

  /** `parseInt(String(n)) == n` for every integer `n`. */
  lemma ParseIntString(n: int)
    ensures ParseInt(IntString(n)) == Some(n)
  {
    var s := IntString(n);
    var m: nat := if n < 0 then -n else n;
    var digits := NatString(m);
    var j := if n < 0 then 1 else 0;
    assert s[j..] == digits;
    assert s[0] == '-' || s[0] == digits[0];
    assert !HexPrefixAt(s, j) by {
      if j + 1 < |s| { assert s[j + 1] == digits[1]; }
    }
    DecimalAfterSign(s, j);
    NatStringValue(m);
  }

  /** A string that is whitespace-free, with a minus sign before index `j`
      or no sign at all, then decimal digits without the `0x` prefix up to
      its end, reads those digits. */
  lemma DecimalAfterSign(s: string, j: nat)
    requires j <= 1 && j < |s|
    requires j == 1 <==> s[0] == '-'
    requires !HexPrefixAt(s, j)
    requires forall i :: j <= i < |s| ==> IsDigit(s[i])
    ensures ParseInt(s) == Some(if j == 1 then -(DigitsValue(s[j..]) as int) else DigitsValue(s[j..]))
  {
    assert !Text.IsSpace(s[0]);
    assert Text.SkipSpaces(s, 0) == 0;
    DigitsEndWhole(s, j);
    assert s[j..|s|] == s[j..];
  }

  /** Distinct numbers have distinct numerals. */
  lemma NatStringInjective(a: nat, b: nat)
    requires NatString(a) == NatString(b)
    ensures a == b
  {
    NatStringValue(a);
    NatStringValue(b);
  }

  /** `Math.ceil(a / b)` for a non-zero integer divisor. */
  function CeilDiv(a: int, b: int): (q: int)
    requires b != 0
    ensures b > 0 ==> (q - 1) * b < a <= q * b
    ensures b < 0 ==> q * b <= a < (q - 1) * b
  {
    if b > 0 then -((-a) / b) else -(a / (-b))
  }

  /** `Math.floor(a / b)` for a positive divisor. */
  function FloorDiv(a: int, b: int): (q: int)
    requires b > 0
    ensures q * b <= a < (q + 1) * b
  {
    a / b
  }

  /** Multiplying by a non-negative factor keeps the order. */
  lemma MulLe(a: int, b: int, c: nat)
    requires a <= b
    ensures a * c <= b * c
  {
  }
}

=== FILE: results_page.dfy ===
/** The results page's client-side filter (client/src/pages/ResultsPage.tsx,
    `filteredResults`): a text query over the keyword and the selected
    suggestion, inclusive score bounds and a status. The callback reads
    `selectedSuggestion.value` without a guard, so a result without a
    selection makes the filter throw when the query does not already match
    its keyword. */
module ResultsPage {
  import opened Wrappers
  import opened ClientTypes
  import Seqs
  import Text

  /** `SearchFilters`; an absent bound or status is `undefined`. */
  datatype SearchFilters = SearchFilters(query: string, minScore: Option<int>, maxScore: Option<int>, status: Option<string>)

  /** The page's initial filters, `{ query: '' }`. */
  const Initial := SearchFilters("", None, None, None)

  /** `x < b` for a score that may be null (compares as 0) or undefined
      (compares as NaN, so never less). */
  predicate Below(x: JsNumber, b: int) {
    match x
    case Num(n) => n < b
    case Null => 0 < b
    case Undefined => false
  }

  /** `x > b`, with the same coercions. */
  predicate Above(x: JsNumber, b: int) {
    match x
    case Num(n) => n > b
    case Null => 0 > b
    case Undefined => false
  }

  /** `haystack.toLowerCase().includes(query.toLowerCase())`. */
  predicate Mentions(haystack: string, query: string) {
    Text.Contains(Text.Lower(haystack), Text.Lower(query))
  }

  /** The score and status tests that follow the query test. */
  predicate PassesBounds(r: MatchResult, f: SearchFilters) {
    && !(f.minScore.Some? && Below(r.matchScore, f.minScore.value))
    && !(f.maxScore.Some? && Above(r.matchScore, f.maxScore.value))
    && !(f.status.Some? && f.status.value != "" && f.status.value != "all" && r.status != f.status.value)
  }

  /** The callback for one result: `None` when it throws. */
  function Keep(r: MatchResult, f: SearchFilters): (k: Option<bool>)
    ensures k.None? <==> f.query != "" && !Mentions(r.originalValue, f.query) && r.selected.None?
  {
    if f.query != "" && !Mentions(r.originalValue, f.query) then
      if r.selected.None? then None
      else if !Mentions(r.selected.value.value, f.query) then Some(false)
      else Some(PassesBounds(r, f))
    else Some(PassesBounds(r, f))
  }

  /** What a result must satisfy to be shown, stated declaratively. */
  predicate Shown(r: MatchResult, f: SearchFilters) {
    && (f.query == "" || Mentions(r.originalValue, f.query)
        || (r.selected.Some? && Mentions(r.selected.value.value, f.query)))
    && (f.minScore.None? || !Below(r.matchScore, f.minScore.value))
    && (f.maxScore.None? || !Above(r.matchScore, f.maxScore.value))
    && (f.status.None? || f.status.value in {"", "all"} || r.status == f.status.value)
  }

  /** A result the callback can judge is kept exactly when it is to be shown. */
  lemma KeepMeansShown(r: MatchResult, f: SearchFilters)
    requires Keep(r, f).Some?
    ensures Keep(r, f).value <==> Shown(r, f)
  {
  }

  /** The callback throws on this result. */
  predicate Throws(r: MatchResult, f: SearchFilters) {
    f.query != "" && !Mentions(r.originalValue, f.query) && r.selected.None?
  }

  /** `results.filter(...)` over the loaded results; `Failure` carries the
      TypeError the callback throws. */
  function FilterLoaded(rs: seq<MatchResult>, f: SearchFilters): (out: Result<seq<MatchResult>, string>)
    ensures out.Failure? <==> exists i :: 0 <= i < |rs| && Throws(rs[i], f)
    ensures out.Success? ==> |out.value| <= |rs|
  {
    if |rs| == 0 then Success([])
    else
      match Keep(rs[0], f)
      case None => Failure("TypeError")
      case Some(keep) =>
        var rest := FilterLoaded(rs[1..], f);
        assert forall i :: 1 <= i < |rs| ==> rs[i] == rs[1..][i - 1];
        if rest.Failure? then
          assert exists i :: 0 <= i < |rs[1..]| && Throws(rs[1..][i], f);
          rest
        else Success((if keep then [rs[0]] else []) + rest.value)
  }

  /** `filteredResults`: nothing before the results load. */
  function FilteredResults(results: Option<seq<MatchResult>>, f: SearchFilters): (out: Result<seq<MatchResult>, string>)
    ensures results.None? ==> out == Success([])
    ensures results.Some? ==> out == FilterLoaded(results.value, f)
  {
    if results.None? then Success([]) else FilterLoaded(results.value, f)
  }

  /** The filter keeps exactly the results to be shown, in their order. */
  lemma {:induction false} FilterLoadedExact(rs: seq<MatchResult>, f: SearchFilters)
    requires FilterLoaded(rs, f).Success?
    ensures var out := FilterLoaded(rs, f).value;
      && Seqs.Subseq(out, rs)
      && (forall k :: 0 <= k < |out| ==> Shown(out[k], f))
      && (forall i :: 0 <= i < |rs| && Shown(rs[i], f) ==> rs[i] in out)
  {
    if |rs| > 0 {
      var rest := FilterLoaded(rs[1..], f);
      assert forall i :: 1 <= i < |rs| ==> rs[i] == rs[1..][i - 1];
      FilterLoadedExact(rs[1..], f);
      KeepMeansShown(rs[0], f);
      var out := FilterLoaded(rs, f).value;
      if !Keep(rs[0], f).value {
        assert out == rest.value;
        Seqs.SubseqDropFront(rest.value, rs);
      } else {
        assert out == [rs[0]] + rest.value;
        assert out[1..] == rest.value;
      }
    }
  }

  /** The initial filters show every loaded result. */
  lemma {:induction false} InitialKeepsAll(rs: seq<MatchResult>)
    ensures FilterLoaded(rs, Initial) == Success(rs)
  {
    if |rs| > 0 {
      InitialKeepsAll(rs[1..]);
      assert rs == [rs[0]] + rs[1..];
    }
  }

  /** Both score bounds are inclusive, and a bound of 0 is applied, not
      mistaken for an absent one. */
  lemma BoundsInclusive(r: MatchResult, n: int)
    requires r.matchScore == Num(n)
    ensures Shown(r, SearchFilters("", Some(n), Some(n), None))
    ensures n > 0 ==> !Shown(r, SearchFilters("", None, Some(0), None))
    ensures n < 0 ==> !Shown(r, SearchFilters("", Some(0), None, None))
  {
  }

  /** Without a status, or with 'all', a result's status does not matter. */
  lemma StatusAllIgnored(r: MatchResult, f: SearchFilters, s: string)
    requires f.status == None || f.status == Some("all")
    ensures Shown(r, f) <==> Shown(r.(status := s), f)
  {
  }

  /** With a status, only results with that status are shown. */
  lemma StatusSelects(r: MatchResult, f: SearchFilters)
    requires f.status.Some? && f.status.value != "" && f.status.value != "all"
    ensures Shown(r, f) ==> r.status == f.status.value
  {
  }
}

=== FILE: results_table.dfy ===
/** The results table's cell renderers (client/src/components/results/ResultsTable.tsx):
    the colour band of a score pill and the label and badge of a status. */
module ResultsTable {
  import opened Wrappers
  import opened ClientTypes

  datatype Band = Poor | Average | Good | Excellent

  /** The CSS class `ScoreCell` gives each band. */
  function BandClass(b: Band): string {
    match b
    case Excellent => "score-excellent"
    case Good => "score-good"
    case Average => "score-average"
    case Poor => "score-poor"
  }

  /** Position of a band from worst to best. */
  function Rank(b: Band): nat {
    match b
    case Poor => 0
    case Average => 1
    case Good => 2
    case Excellent => 3
  }

  /** `ScoreCell`'s cascade of thresholds. */
  function ScoreBand(v: int): (b: Band) {
    if v >= 90 then Excellent
    else if v >= 70 then Good
    else if v >= 50 then Average
    else Poor
  }

  /** The bands cut the integers into four consecutive ranges: each score
      lies in exactly one of them. */
  lemma BandRanges(v: int)
    ensures ScoreBand(v) == Excellent <==> 90 <= v
    ensures ScoreBand(v) == Good <==> 70 <= v < 90
    ensures ScoreBand(v) == Average <==> 50 <= v < 70
    ensures ScoreBand(v) == Poor <==> v < 50
  {
  }

  /** A higher score never gets a worse band. */
  lemma BandMonotone(a: int, b: int)
    requires a <= b
    ensures Rank(ScoreBand(a)) <= Rank(ScoreBand(b))
  {
  }

  /** The band of a score that may be null (compares as 0) or undefined
      (every comparison with NaN is false). */
  function CellBand(x: JsNumber): (b: Band)
    ensures x.Num? ==> b == ScoreBand(x.n)
    ensures !x.Num? ==> b == Poor
  {
    match x
    case Num(n) => ScoreBand(n)
    case Null => ScoreBand(0)
    case Undefined => Poor
  }

  /** The status cell: French label and badge class. */
  datatype Badge = Badge(text: string, cls: string)

  function StatusBadge(status: string): (b: Badge)
    ensures status !in {"processed", "pending", "failed"} ==> b == Badge(status, "badge-info")
  {
    match status
    case "processed" => Badge("Traité", "badge-success")
    case "pending" => Badge("En attente", "badge-warning")
    case "failed" => Badge("Échec", "badge-error")
    case _ => Badge(status, "badge-info")
  }

  /** The status a badge class stands for, when it stands for one. */
  function StatusOfClass(c: string): Option<string> {
    match c
    case "badge-success" => Some("processed")
    case "badge-warning" => Some("pending")
    case "badge-error" => Some("failed")
    case _ => None
  }

  /** The three known statuses get distinct classes from which the status
      can be read back; any other status shows its own text with the info
      class. */
  lemma BadgeReadsBack(status: string)
    ensures status in {"processed", "pending", "failed"} ==> StatusOfClass(StatusBadge(status).cls) == Some(status)
    ensures status !in {"processed", "pending", "failed"} ==>
      StatusOfClass(StatusBadge(status).cls) == None && StatusBadge(status).text == status
  {
  }
}

=== FILE: seqs.dfy ===
/** Sequence operations shared by the model: `Array.prototype.filter`,
    order-preserving subsequences, first-occurrence de-duplication
    (`[...new Set(xs)]`), `find`, occurrence counts and sums. */
module Seqs {
  import opened Wrappers

  /** `a` is obtained from `b` by deleting elements, keeping their order. */
  predicate Subseq<T(==)>(a: seq<T>, b: seq<T>)
    decreases |b|
  {
    if |a| == 0 then true
    else if |b| == 0 then false
    else (a[0] == b[0] && Subseq(a[1..], b[1..])) || Subseq(a, b[1..])
  }

  /** `xs.filter(p)`. */
  function Filter<T>(xs: seq<T>, p: T -> bool): (r: seq<T>)
    ensures |r| <= |xs|
    ensures forall i :: 0 <= i < |r| ==> r[i] in xs && p(r[i])
    ensures forall i :: 0 <= i < |xs| && p(xs[i]) ==> xs[i] in r
    ensures multiset(r) <= multiset(xs)
  {
    if |xs| == 0 then []
    else
      var rest := Filter(xs[1..], p);
      var r := if p(xs[0]) then [xs[0]] + rest else rest;
      FilterStep(xs, p, rest, r);
      r
  }

  /** One step of `Filter`: what holds of the filtered tail holds of the
      whole once the head is kept or dropped. */
  lemma FilterStep<T>(xs: seq<T>, p: T -> bool, rest: seq<T>, r: seq<T>)
    requires |xs| > 0
    requires |rest| <= |xs[1..]|
    requires forall i :: 0 <= i < |rest| ==> rest[i] in xs[1..] && p(rest[i])
    requires forall i :: 0 <= i < |xs[1..]| && p(xs[1..][i]) ==> xs[1..][i] in rest
    requires multiset(rest) <= multiset(xs[1..])
    requires r == if p(xs[0]) then [xs[0]] + rest else rest
    ensures |r| <= |xs|
    ensures forall i :: 0 <= i < |r| ==> r[i] in xs && p(r[i])
    ensures forall i :: 0 <= i < |xs| && p(xs[i]) ==> xs[i] in r
    ensures multiset(r) <= multiset(xs)
  {
    assert xs == [xs[0]] + xs[1..];
    forall i | 1 <= i < |xs| && p(xs[i])
      ensures xs[i] in r
    {
      assert xs[i] == xs[1..][i - 1];
    }
  }

  lemma {:induction false} FilterIsSubseq<T>(xs: seq<T>, p: T -> bool)
    ensures Subseq(Filter(xs, p), xs)
  {
    if |xs| > 0 {
      FilterIsSubseq(xs[1..], p);
      var rest := Filter(xs[1..], p);
      if !p(xs[0]) {
        SubseqDropFront(rest, xs);
      }
    }
  }

  lemma SubseqDropFront<T>(a: seq<T>, b: seq<T>)
    requires |b| > 0 && Subseq(a, b[1..])
    ensures Subseq(a, b)
  {
  }

  /** A subsequence is no longer than the sequence it is taken from. */
  lemma {:induction false} SubseqLength<T>(a: seq<T>, b: seq<T>)
    requires Subseq(a, b)
    ensures |a| <= |b|
    decreases |b|
  {
    if |a| > 0 {
      if a[0] == b[0] && Subseq(a[1..], b[1..]) {
        SubseqLength(a[1..], b[1..]);
      } else {
        SubseqLength(a, b[1..]);
      }
    }
  }

  /** Each element of `xs` is kept by the filter exactly when it passes the test. */
  lemma FilterMembers<T>(xs: seq<T>, p: T -> bool)
    ensures forall k :: 0 <= k < |xs| ==> (xs[k] in Filter(xs, p) <==> p(xs[k]))
  {
    forall k | 0 <= k < |xs|
      ensures xs[k] in Filter(xs, p) <==> p(xs[k])
    {
      FilterMember(xs, p, xs[k]);
    }
  }

  /** An element of `xs` is kept by the filter exactly when it passes the test. */
  lemma FilterMember<T>(xs: seq<T>, p: T -> bool, x: T)
    requires x in xs
    ensures x in Filter(xs, p) <==> p(x)
  {
    var r := Filter(xs, p);
    var i :| 0 <= i < |xs| && xs[i] == x;
    if x in r {
      var j :| 0 <= j < |r| && r[j] == x;
      assert p(r[j]);
    }
  }

  /** A subsequence that misses an element of the sequence is shorter. */
  lemma {:induction false} SubseqShorter<T>(a: seq<T>, b: seq<T>, x: T)
    requires Subseq(a, b) && x in b && x !in a
    ensures |a| < |b|
    decreases |b|
  {
    if |a| > 0 {
      if a[0] == b[0] && Subseq(a[1..], b[1..]) {
        assert x != b[0];
        assert x in b[1..] && x !in a[1..];
        SubseqShorter(a[1..], b[1..], x);
      } else {
        SubseqLength(a, b[1..]);
      }
    }
  }

  lemma FilterAll<T>(xs: seq<T>, p: T -> bool)
    requires forall x :: x in xs ==> p(x)
    ensures Filter(xs, p) == xs
  {
    if |xs| > 0 {
      FilterAll(xs[1..], p);
      assert xs == [xs[0]] + xs[1..];
    }
  }

  /** Filtering by `q` after a weaker filter `p` is filtering by `q` alone. */
  lemma {:induction false} FilterNarrow<T>(xs: seq<T>, p: T -> bool, q: T -> bool)
    requires forall x :: x in xs && q(x) ==> p(x)
    ensures Filter(Filter(xs, p), q) == Filter(xs, q)
  {
    if |xs| > 0 {
      var rest := Filter(xs[1..], p);
      assert forall x :: x in xs[1..] ==> x in xs;
      FilterNarrow(xs[1..], p, q);
      if p(xs[0]) {
        assert Filter(xs, p) == [xs[0]] + rest;
        assert ([xs[0]] + rest)[1..] == rest;
      } else {
        assert Filter(xs, p) == rest;
      }
    }
  }

  lemma FilterAppend<T>(a: seq<T>, b: seq<T>, p: T -> bool)
    ensures Filter(a + b, p) == Filter(a, p) + Filter(b, p)
  {
    if |a| == 0 {
      assert a + b == b;
    } else {
      assert (a + b)[1..] == a[1..] + b;
      FilterAppend(a[1..], b, p);
    }
  }

  /** Number of occurrences of `x` in `xs`. */
  function Count<T(==)>(xs: seq<T>, x: T): (n: nat)
    ensures n == multiset(xs)[x]
  {
    if |xs| == 0 then 0
    else
      assert xs == [xs[0]] + xs[1..];
      (if xs[0] == x then 1 else 0) + Count(xs[1..], x)
  }

  /** Number of elements satisfying `p`. */
  function CountIf<T>(xs: seq<T>, p: T -> bool): (n: nat)
    ensures n == |Filter(xs, p)|
  {
    if |xs| == 0 then 0 else (if p(xs[0]) then 1 else 0) + CountIf(xs[1..], p)
  }

  /** Every element satisfies exactly one of two complementary tests. */
  lemma {:induction false} CountIfComplement<T>(xs: seq<T>, p: T -> bool, q: T -> bool)
    requires forall x :: q(x) == !p(x)
    ensures CountIf(xs, p) + CountIf(xs, q) == |xs|
  {
    if |xs| > 0 {
      CountIfComplement(xs[1..], p, q);
    }
  }

  function Sum(xs: seq<int>): int {
    if |xs| == 0 then 0 else xs[0] + Sum(xs[1..])
  }

  predicate NoDuplicates<T(==)>(xs: seq<T>) {
    forall i, j :: 0 <= i < j < |xs| ==> xs[i] != xs[j]
  }

  /** No element repeats exactly when every multiplicity is at most one. */
  lemma {:induction false} NoDuplicatesMultiset<T>(xs: seq<T>)
    ensures NoDuplicates(xs) <==> forall x :: multiset(xs)[x] <= 1
  {
    if NoDuplicates(xs) {
      if |xs| > 0 {
        NoDuplicatesMultiset(xs[1..]);
        assert xs == [xs[0]] + xs[1..];
        assert xs[0] !in xs[1..] by {
          forall j | 0 <= j < |xs[1..]|
            ensures xs[1..][j] != xs[0]
          {
            assert xs[1..][j] == xs[j + 1];
          }
        }
      }
    } else {
      var i, j :| 0 <= i < j < |xs| && xs[i] == xs[j];
      assert xs == xs[..i] + [xs[i]] + xs[i + 1..j] + [xs[j]] + xs[j + 1..];
      assert multiset(xs)[xs[i]] >= 2;
    }
  }

  /** A sequence with the same elements as a duplicate-free one is duplicate-free. */
  lemma NoDuplicatesSubMultiset<T>(a: seq<T>, b: seq<T>)
    requires NoDuplicates(a) && multiset(b) <= multiset(a)
    ensures NoDuplicates(b)
  {
    NoDuplicatesMultiset(a);
    NoDuplicatesMultiset(b);
    forall x
      ensures multiset(b)[x] <= 1
    {
      assert multiset(b)[x] <= multiset(a)[x];
    }
  }

  /** `findIndex(p)` / `find(p)`: the position of the first element that
      satisfies `p`, or none when no element does. */
  function FindWhere<T>(xs: seq<T>, p: T -> bool): (k: Option<nat>)
    ensures k.Some? ==> k.value < |xs| && p(xs[k.value])
    ensures k.Some? ==> forall j :: 0 <= j < k.value ==> !p(xs[j])
    ensures k.None? <==> forall j :: 0 <= j < |xs| ==> !p(xs[j])
  {
    if |xs| == 0 then None
    else if p(xs[0]) then Some(0)
    else match FindWhere(xs[1..], p)
      case None =>
        assert forall j :: 1 <= j < |xs| ==> xs[j] == xs[1..][j - 1];
        None
      case Some(j) => Some(j + 1)
  }

  /** Position of the first occurrence of `x` in `xs`. */
  function FirstIndex<T(==)>(xs: seq<T>, x: T): (k: nat)
    requires x in xs
    ensures k < |xs| && xs[k] == x
    ensures forall i :: 0 <= i < k ==> xs[i] != x
  {
    if xs[0] == x then 0 else 1 + FirstIndex(xs[1..], x)
  }

  /** `[...new Set(xs)]`: each distinct element once, in order of first occurrence. */
  function Dedupe<T(==)>(xs: seq<T>): (r: seq<T>)
    ensures NoDuplicates(r)
    ensures forall i :: 0 <= i < |r| ==> r[i] in xs
    ensures forall i :: 0 <= i < |xs| ==> xs[i] in r
    ensures |r| <= |xs|
  {
    if |xs| == 0 then []
    else
      var d := Dedupe(xs[..|xs| - 1]);
      var last := xs[|xs| - 1];
      assert xs == xs[..|xs| - 1] + [last];
      if last in d then d else d + [last]
  }

  /** The elements of `Dedupe(xs)` appear in the order of their first occurrence in `xs`. */
  lemma {:induction false} DedupeFirstOccurrenceOrder<T>(xs: seq<T>)
    ensures forall i, j :: 0 <= i < j < |Dedupe(xs)| ==>
      FirstIndex(xs, Dedupe(xs)[i]) < FirstIndex(xs, Dedupe(xs)[j])
  {
    if |xs| > 0 {
      var init := xs[..|xs| - 1];
      var last := xs[|xs| - 1];
      var d := Dedupe(init);
      DedupeFirstOccurrenceOrder(init);
      forall x | x in init
        ensures FirstIndex(xs, x) == FirstIndex(init, x)
      {
        FirstIndexPrefix(xs, init, x);
      }
      if last !in d {
        var r := d + [last];
        assert last !in init;
        forall i, j | 0 <= i < j < |r|
          ensures FirstIndex(xs, r[i]) < FirstIndex(xs, r[j])
        {
          if j == |r| - 1 {
            assert FirstIndex(xs, last) == |xs| - 1;
          }
        }
      }
    }
  }

  lemma FirstIndexPrefix<T>(xs: seq<T>, init: seq<T>, x: T)
    requires |xs| > 0 && init == xs[..|xs| - 1] && x in init
    ensures FirstIndex(xs, x) == FirstIndex(init, x)
  {
    if xs[0] != x {
      assert xs[1..][..|xs[1..]| - 1] == init[1..];
      FirstIndexPrefix(xs[1..], init[1..], x);
    }
  }
}

=== FILE: sheets.dfy ===
/** Spreadsheet contents as the spreadsheet library hands them to the servers.
    A workbook's first sheet is seen two ways: as an array of rows of typed
    cells (the library's `header: 1` mode, where row 0 is the header row and
    an empty cell is `undefined`, written `Null` here) and as an array of row
    objects keyed by header name (the default mode, where an empty cell is an
    absent key). */
module Sheets {
  import opened Wrappers
  import Numbers

  /** A cell value: `null`, a string, an integer number or a boolean. */
  datatype Cell = Null | Text(s: string) | Num(n: int) | Flag(b: bool)

  /** A data row in object mode; a header name that is not a key is `undefined`. */
  type Record = map<string, Cell>

  /** The first sheet of a workbook in both modes. In `grid`, `Null` stands
      for an empty cell. */
  datatype Workbook = Workbook(grid: seq<seq<Cell>>, records: seq<Record>)

  /** Files on disk, by path. */
  type Disk = map<string, Workbook>

  /** `v === undefined || v === null || v === ''`. */
  predicate IsBlank(c: Option<Cell>) {
    c == None || c == Some(Null) || c == Some(Text(""))
  }

  /** `row[column]` in object mode. */
  function Field(row: Record, column: string): Option<Cell> {
    if column in row then Some(row[column]) else None
  }

  /** `String(v)` for a cell value. */
  function CellString(c: Cell): string {
    match c
    case Null => "null"
    case Text(s) => s
    case Num(n) => Numbers.IntString(n)
    case Flag(b) => if b then "true" else "false"
  }
}

=== FILE: sorting.dfy ===
/** `Array.prototype.sort` with a numeric comparator. ECMAScript requires the
    sort to be stable, so the model is a stable insertion sort: `SortDesc(xs,
    key)` is `xs.sort((a, b) => key(b) - key(a))`, and `SortAsc(xs, key)` is
    `xs.sort((a, b) => key(a) - key(b))`. */
module Sorting {

  ghost predicate SortedDesc<T>(xs: seq<T>, key: T -> int) {
    forall i, j :: 0 <= i < j < |xs| ==> key(xs[i]) >= key(xs[j])
  }

  ghost predicate SortedAsc<T>(xs: seq<T>, key: T -> int) {
    forall i, j :: 0 <= i < j < |xs| ==> key(xs[i]) <= key(xs[j])
  }

  /** The elements whose key is `k`, in their order in `xs`. */
  function WithKey<T>(xs: seq<T>, key: T -> int, k: int): (r: seq<T>)
    ensures forall i :: 0 <= i < |r| ==> key(r[i]) == k
  {
    if |xs| == 0 then [] else (if key(xs[0]) == k then [xs[0]] else []) + WithKey(xs[1..], key, k)
  }

  /** `r` and `xs` have the same elements of each key, in the same order:
      `r` is a stable reordering of `xs`. */
  ghost predicate SameGroups<T>(r: seq<T>, xs: seq<T>, key: T -> int) {
    forall k :: WithKey(r, key, k) == WithKey(xs, key, k)
  }

  /** Inserts `x` before the first element whose key is not greater than its
      own, so ahead of the elements with the same key. */
  function Insert<T>(x: T, ys: seq<T>, key: T -> int): (r: seq<T>)
    requires SortedDesc(ys, key)
    ensures |r| == |ys| + 1
    ensures multiset(r) == multiset(ys) + multiset{x}
    ensures SortedDesc(r, key)
    ensures r[0] == x || (|ys| > 0 && r[0] == ys[0])
    ensures forall k :: WithKey(r, key, k) == (if key(x) == k then [x] else []) + WithKey(ys, key, k)
  {
    if |ys| == 0 || key(x) >= key(ys[0]) then
      ConsSorted(x, ys, key);
      assert forall k :: WithKey([x] + ys, key, k) == (if key(x) == k then [x] else []) + WithKey(ys, key, k) by {
        forall k { WithKeyCons(x, ys, key, k); }
      }
      [x] + ys
    else
      var rest := Insert(x, ys[1..], key);
      assert ys == [ys[0]] + ys[1..];
      HeadBoundsRest(x, ys, rest, key);
      ConsSorted(ys[0], rest, key);
      InsertBehindHead(x, ys, rest, key);
      [ys[0]] + rest
  }

  lemma WithKeyCons<T>(h: T, rest: seq<T>, key: T -> int, k: int)
    ensures WithKey([h] + rest, key, k) == (if key(h) == k then [h] else []) + WithKey(rest, key, k)
  {
    assert ([h] + rest)[1..] == rest;
  }

  /** When `x` goes behind a head with a larger key, the groups are those of
      `ys` with `x` in front of its own group. */
  lemma InsertBehindHead<T>(x: T, ys: seq<T>, rest: seq<T>, key: T -> int)
    requires |ys| > 0 && key(x) < key(ys[0])
    requires forall k :: WithKey(rest, key, k) == (if key(x) == k then [x] else []) + WithKey(ys[1..], key, k)
    ensures forall k :: WithKey([ys[0]] + rest, key, k) == (if key(x) == k then [x] else []) + WithKey(ys, key, k)
  {
    forall k
      ensures WithKey([ys[0]] + rest, key, k) == (if key(x) == k then [x] else []) + WithKey(ys, key, k)
    {
      WithKeyCons(ys[0], rest, key, k);
      WithKeyCons(ys[0], ys[1..], key, k);
      assert [ys[0]] + ys[1..] == ys;
      var tail := WithKey(ys[1..], key, k);
      if key(ys[0]) == k {
        assert WithKey(rest, key, k) == tail;
        assert WithKey(ys, key, k) == [ys[0]] + tail;
      } else if key(x) == k {
        assert WithKey([ys[0]] + rest, key, k) == WithKey(rest, key, k);
        assert WithKey(ys, key, k) == tail;
      } else {
        assert WithKey(ys, key, k) == tail;
      }
    }
  }

  /** A head no smaller than anything after it extends a sorted sequence. */
  lemma ConsSorted<T>(h: T, rest: seq<T>, key: T -> int)
    requires SortedDesc(rest, key)
    requires forall j :: 0 <= j < |rest| ==> key(h) >= key(rest[j])
    ensures SortedDesc([h] + rest, key)
  {
    var r := [h] + rest;
    assert forall j :: 1 <= j < |r| ==> r[j] == rest[j - 1];
  }

  /** After inserting a smaller `x` into the tail, the old head still bounds it. */
  lemma HeadBoundsRest<T>(x: T, ys: seq<T>, rest: seq<T>, key: T -> int)
    requires SortedDesc(ys, key) && |ys| > 0 && key(x) < key(ys[0])
    requires multiset(rest) == multiset(ys[1..]) + multiset{x}
    ensures forall j :: 0 <= j < |rest| ==> key(ys[0]) >= key(rest[j])
  {
    forall j | 0 <= j < |rest|
      ensures key(ys[0]) >= key(rest[j])
    {
      assert rest[j] in multiset(rest);
      if rest[j] != x {
        assert rest[j] in multiset(ys[1..]);
        var i :| 0 <= i < |ys[1..]| && ys[1..][i] == rest[j];
        assert ys[i + 1] == rest[j];
      }
    }
  }

  /** The stable sort by non-increasing key: a permutation in order in which
      the elements of every key keep their relative order. */
  function SortDesc<T>(xs: seq<T>, key: T -> int): (r: seq<T>)
    ensures |r| == |xs|
    ensures multiset(r) == multiset(xs)
    ensures SortedDesc(r, key)
    ensures SameGroups(r, xs, key)
  {
    if |xs| == 0 then []
    else
      assert xs == [xs[0]] + xs[1..];
      Insert(xs[0], SortDesc(xs[1..], key), key)
  }

  /** The stable sort by non-decreasing key. */
  function SortAsc<T>(xs: seq<T>, key: T -> int): (r: seq<T>)
    ensures |r| == |xs|
    ensures multiset(r) == multiset(xs)
    ensures SortedAsc(r, key)
    ensures SameGroups(r, xs, key)
  {
    var r := SortDesc(xs, x => -key(x));
    forall k
      ensures WithKey(r, key, k) == WithKey(xs, key, k)
    {
      WithKeyNegated(r, key, k);
      WithKeyNegated(xs, key, k);
    }
    r
  }

  /** Grouping by the negated key groups the same elements. */
  lemma {:induction false} WithKeyNegated<T>(xs: seq<T>, key: T -> int, k: int)
    ensures WithKey(xs, x => -key(x), -k) == WithKey(xs, key, k)
  {
    if |xs| > 0 {
      WithKeyNegated(xs[1..], key, k);
    }
  }

  /** A sorted sequence's prefix dominates its suffix: what `slice(0, n)` drops
      has no larger key than anything it keeps. */
  lemma PrefixDominates<T>(xs: seq<T>, key: T -> int, n: nat)
    requires SortedDesc(xs, key) && n <= |xs|
    ensures forall i, j :: 0 <= i < n <= j < |xs| ==> key(xs[i]) >= key(xs[j])
  {
  }

  /** Sorting a sequence whose keys all agree leaves it unchanged (stability). */
  lemma {:induction false} SortDescEqualKeys<T>(xs: seq<T>, key: T -> int)
    requires forall i, j :: 0 <= i < |xs| && 0 <= j < |xs| ==> key(xs[i]) == key(xs[j])
    ensures SortDesc(xs, key) == xs
  {
    if |xs| > 0 {
      SortDescEqualKeys(xs[1..], key);
      assert xs == [xs[0]] + xs[1..];
    }
  }

  /** The first element of a non-empty sorted sequence has the maximal key. */
  lemma HeadIsMax<T>(xs: seq<T>, key: T -> int)
    requires |xs| > 0
    ensures forall i :: 0 <= i < |xs| ==> key(SortDesc(xs, key)[0]) >= key(xs[i])
  {
    var r := SortDesc(xs, key);
    forall i | 0 <= i < |xs|
      ensures key(r[0]) >= key(xs[i])
    {
      assert xs[i] in multiset(r);
      var k :| 0 <= k < |r| && r[k] == xs[i];
    }
  }
}

=== FILE: store.dfy ===
/** The two collections of the JavaScript server, files and match results, as
    one in-memory value. Identifiers are numbers handed out in increasing
    order; a query returns the stored order unless it sorts. */
module Store {
  import opened Wrappers
  import Seqs
  import Text
  import Files
  import MatchResults

  datatype Db = Db(
    files: map<nat, Files.FileRecord>,
    results: seq<MatchResults.MatchResult>,
    nextId: nat)

  /** `MatchResult.find({ file })`: the results of one file, in stored order. */
  function ResultsOf(results: seq<MatchResults.MatchResult>, fileId: nat): (rs: seq<MatchResults.MatchResult>)
    ensures forall r :: r in rs <==> r in results && r.file == fileId
    ensures Seqs.Subseq(rs, results)
  {
    Seqs.FilterIsSubseq(results, (r: MatchResults.MatchResult) => r.file == fileId);
    Seqs.Filter(results, (r: MatchResults.MatchResult) => r.file == fileId)
  }

  /** `MatchResult.deleteMany({ file })`: every result of that file is removed,
      the others stay in order. */
  function DropFile(results: seq<MatchResults.MatchResult>, fileId: nat): (rs: seq<MatchResults.MatchResult>)
    ensures forall r :: r in rs <==> r in results && r.file != fileId
    ensures Seqs.Subseq(rs, results)
  {
    Seqs.FilterIsSubseq(results, (r: MatchResults.MatchResult) => r.file != fileId);
    Seqs.Filter(results, (r: MatchResults.MatchResult) => r.file != fileId)
  }

  /** `MatchResult.deleteMany({ _id: { $in: ids } })`. */
  function DropIds(results: seq<MatchResults.MatchResult>, ids: seq<nat>): (rs: seq<MatchResults.MatchResult>)
    ensures forall r :: r in rs <==> r in results && r.id !in ids
    ensures Seqs.Subseq(rs, results)
  {
    Seqs.FilterIsSubseq(results, (r: MatchResults.MatchResult) => r.id !in ids);
    Seqs.Filter(results, (r: MatchResults.MatchResult) => r.id !in ids)
  }

  /** The record `new MatchResult({ file, originalValue, rowIndex, status:
      'pending' })` builds for one (value, rowIndex) pair: the `trim: true`
      setter has already stripped the value. */
  function Record(id: nat, fileId: nat, item: (string, int)): MatchResults.MatchResult {
    MatchResults.NewPending(id, fileId, Text.Trim(item.0), item.1)
  }

  /** A built record passes validation exactly when its pair is kept. */
  lemma RecordValid(id: nat, fileId: nat, item: (string, int))
    ensures MatchResults.SchemaValid(Record(id, fileId, item)) <==> Kept(item)
  {
  }

  /** The records built for (value, rowIndex) pairs, with identifiers from
      `firstId` on, before any is saved. */
  function Created(fileId: nat, firstId: nat, items: seq<(string, int)>): (rs: seq<MatchResults.MatchResult>)
    ensures |rs| == |items|
    ensures forall k :: 0 <= k < |items| ==> rs[k] == Record(firstId + k, fileId, items[k])
  {
    seq(|items|, k requires 0 <= k < |items| => Record(firstId + k, fileId, items[k]))
  }

  /** Whether a (value, rowIndex) pair can be stored: its value is not blank,
      so what trimming leaves of it meets `required`. */
  predicate Kept(item: (string, int)) {
    Text.Trim(item.0) != ""
  }

  /** The records that are saved, one by one, for (value, rowIndex) pairs,
      with identifiers from `firstId` on: the record of a blank value fails
      validation and is not stored, though its identifier is used up. */
  function Pending(fileId: nat, firstId: nat, items: seq<(string, int)>): (rs: seq<MatchResults.MatchResult>)
    ensures forall k :: 0 <= k < |items| ==>
      (Created(fileId, firstId, items)[k] in rs <==> Kept(items[k]))
    ensures forall r :: r in rs ==>
      && r.file == fileId && r.status == MatchResults.Pending && r.originalValue != ""
      && r.suggestions == [] && r.selected.None?
    ensures Seqs.Subseq(rs, Created(fileId, firstId, items))
  {
    var all := Created(fileId, firstId, items);
    Seqs.FilterIsSubseq(all, MatchResults.SchemaValid);
    var rs := Seqs.Filter(all, MatchResults.SchemaValid);
    PendingMembers(fileId, firstId, items, all, rs);
    PendingShape(fileId, firstId, items, all, rs);
    rs
  }

  /** A created record survives validation exactly when its pair is kept. */
  lemma PendingMembers(fileId: nat, firstId: nat, items: seq<(string, int)>,
                       all: seq<MatchResults.MatchResult>, rs: seq<MatchResults.MatchResult>)
    requires all == Created(fileId, firstId, items)
    requires rs == Seqs.Filter(all, MatchResults.SchemaValid)
    ensures forall k :: 0 <= k < |items| ==> (all[k] in rs <==> Kept(items[k]))
  {
    Seqs.FilterMembers(all, MatchResults.SchemaValid);
    CreatedValid(fileId, firstId, items);
  }

  /** A created record passes validation exactly when its pair is kept. */
  lemma CreatedValid(fileId: nat, firstId: nat, items: seq<(string, int)>)
    ensures var all := Created(fileId, firstId, items);
      forall k :: 0 <= k < |items| ==> (MatchResults.SchemaValid(all[k]) <==> Kept(items[k]))
  {
    var all := Created(fileId, firstId, items);
    forall k | 0 <= k < |items|
      ensures MatchResults.SchemaValid(all[k]) <==> Kept(items[k])
    {
      RecordValid(firstId + k, fileId, items[k]);
    }
  }

  /** Every record that survives validation is a fresh pending record of the file. */
  lemma PendingShape(fileId: nat, firstId: nat, items: seq<(string, int)>,
                     all: seq<MatchResults.MatchResult>, rs: seq<MatchResults.MatchResult>)
    requires all == Created(fileId, firstId, items)
    requires rs == Seqs.Filter(all, MatchResults.SchemaValid)
    ensures forall r :: r in rs ==>
      && r.file == fileId && r.status == MatchResults.Pending && r.originalValue != ""
      && r.suggestions == [] && r.selected.None?
  {
    forall r | r in rs
      ensures r in all && MatchResults.SchemaValid(r)
    {
      var i :| 0 <= i < |rs| && rs[i] == r;
      var k :| 0 <= k < |all| && all[k] == r;
      assert r == Record(firstId + k, fileId, items[k]);
    }
  }

  /** Each pair's record is stored exactly when its `save()` succeeds, and
      then it is the record `save()` returns. */
  lemma PendingSaves(fileId: nat, firstId: nat, items: seq<(string, int)>)
    ensures forall k :: 0 <= k < |items| ==>
      var out := MatchResults.CreatePending(firstId + k, fileId, items[k].0, items[k].1);
      && (out.Success? <==> Kept(items[k]))
      && (out.Success? ==> out.value in Pending(fileId, firstId, items))
  {
  }

  /** As many records are stored as there are non-blank values, whatever
      the first identifier. */
  lemma PendingCount(fileId: nat, firstId: nat, items: seq<(string, int)>)
    ensures |Pending(fileId, firstId, items)| == Seqs.CountIf(items, Kept)
  {
    CreatedCount(fileId, firstId, items);
  }

  lemma {:induction false} CreatedCount(fileId: nat, firstId: nat, items: seq<(string, int)>)
    ensures Seqs.CountIf(Created(fileId, firstId, items), MatchResults.SchemaValid) == Seqs.CountIf(items, Kept)
    decreases |items|
  {
    if |items| > 0 {
      var all := Created(fileId, firstId, items);
      var tail := Created(fileId, firstId + 1, items[1..]);
      CreatedTail(fileId, firstId, items, all, tail);
      CreatedCount(fileId, firstId + 1, items[1..]);
      RecordValid(firstId, fileId, items[0]);
      assert Seqs.CountIf(all, MatchResults.SchemaValid)
        == (if MatchResults.SchemaValid(all[0]) then 1 else 0) + Seqs.CountIf(tail, MatchResults.SchemaValid);
    }
  }

  /** The records after the first are those created from the next identifier on. */
  lemma CreatedTail(fileId: nat, firstId: nat, items: seq<(string, int)>,
                    all: seq<MatchResults.MatchResult>, tail: seq<MatchResults.MatchResult>)
    requires |items| > 0
    requires all == Created(fileId, firstId, items)
    requires tail == Created(fileId, firstId + 1, items[1..])
    ensures all[1..] == tail
  {
    forall k | 0 <= k < |tail|
      ensures all[1..][k] == tail[k]
    {
      assert all[1 + k] == Record(firstId + 1 + k, fileId, items[1 + k]);
    }
  }

  /** A blank value is not stored and the next one is stored trimmed. */
  lemma BlankSkippedExample()
    ensures Pending(7, 0, [(" ", 1), (" ab ", 2)]) == [MatchResults.NewPending(1, 7, "ab", 2)]
  {
    var items := [(" ", 1), (" ab ", 2)];
    TrimExamples();
    var all := Created(7, 0, items);
    assert all == [Record(0, 7, items[0]), Record(1, 7, items[1])];
    assert !MatchResults.SchemaValid(all[0]);
    assert MatchResults.SchemaValid(all[1]);
    assert Seqs.Filter(all[1..], MatchResults.SchemaValid) == [all[1]] by {
      assert all[1..][1..] == [];
    }
  }

  lemma TrimExamples()
    ensures Text.Trim(" ") == ""
    ensures Text.Trim(" ab ") == "ab"
  {
    assert Text.IsSpace(' ');
    assert Text.SkipSpaces(" ab ", 0) == 1;
    assert Text.TrimEnd(" ab ", 4, 1) == 3;
    assert " ab "[1..3] == "ab";
  }

  /** With no blank value, every pair's record is stored, in order. */
  lemma PendingAllKept(fileId: nat, firstId: nat, items: seq<(string, int)>)
    requires forall k :: 0 <= k < |items| ==> Kept(items[k])
    ensures Pending(fileId, firstId, items) == Created(fileId, firstId, items)
  {
    Seqs.FilterAll(Created(fileId, firstId, items), MatchResults.SchemaValid);
  }

  /** `MatchResult.findById(id)`: the first stored result with that id. */
  function FindResult(results: seq<MatchResults.MatchResult>, id: nat): (k: Option<nat>)
    ensures k.Some? ==> k.value < |results| && results[k.value].id == id
    ensures k.Some? ==> forall j :: 0 <= j < k.value ==> results[j].id != id
    ensures k.None? <==> forall j :: 0 <= j < |results| ==> results[j].id != id
  {
    Seqs.FindWhere(results, (r: MatchResults.MatchResult) => r.id == id)
  }
}

=== FILE: text.dfy ===
/** The JavaScript string operations the application relies on: case mapping,
    `includes`, `split(/\s+/)`, `join(' ')` and first-letter capitalisation. */
module Text {

  /** JavaScript's `\s` (the white space and line terminators that `trim`
      and `parseInt` also skip): ASCII whitespace, the no-break space, the
      Unicode space separators, the line and paragraph separators and the
      byte-order mark. */
  predicate IsSpace(c: char) {
    || c == ' ' || c == '\t' || c == '\n' || c == '\r' || c == '\U{0B}' || c == '\U{0C}'
    || c == '\U{A0}' || c == '\U{1680}' || ('\U{2000}' <= c <= '\U{200A}')
    || c == '\U{2028}' || c == '\U{2029}' || c == '\U{202F}' || c == '\U{205F}'
    || c == '\U{3000}' || c == '\U{FEFF}'
  }

  predicate IsUpper(c: char) {
    ('A' <= c <= 'Z') || ('\U{C0}' <= c <= '\U{DE}' && c != '\U{D7}')
  }

  predicate IsLower(c: char) {
    ('a' <= c <= 'z') || ('\U{E0}' <= c <= '\U{FE}' && c != '\U{F7}')
  }

  /** `toLowerCase` on one character (ASCII and Latin-1 letters). */
  function LowerChar(c: char): (r: char)
    ensures IsUpper(c) ==> IsLower(r) && r as int == c as int + 32
    ensures !IsUpper(c) ==> r == c
  {
    if IsUpper(c) then (c as int + 32) as char else c
  }

  /** `toUpperCase` on one character (ASCII and Latin-1 letters). */
  function UpperChar(c: char): (r: char)
    ensures IsLower(c) ==> IsUpper(r) && r as int == c as int - 32
    ensures !IsLower(c) ==> r == c
  {
    if IsLower(c) then (c as int - 32) as char else c
  }

  /** `s.toLowerCase()`. */
  function Lower(s: string): (r: string)
    ensures |r| == |s|
    ensures forall i :: 0 <= i < |s| ==> r[i] == LowerChar(s[i])
  {
    seq(|s|, i requires 0 <= i < |s| => LowerChar(s[i]))
  }

  lemma LowerIdempotent(s: string)
    ensures Lower(Lower(s)) == Lower(s)
  {
    assert forall i :: 0 <= i < |s| ==> LowerChar(LowerChar(s[i])) == LowerChar(s[i]);
  }

  /** `sub` occurs in `s` starting at offset `i`. */
  predicate OccursAt(s: string, sub: string, i: nat) {
    i + |sub| <= |s| && s[i..i + |sub|] == sub
  }

  /** `s.includes(sub)`: `sub` occurs in `s` at some offset. */
  predicate Contains(s: string, sub: string) {
    exists i: nat | i <= |s| :: OccursAt(s, sub, i)
  }

  lemma ContainsSelf(s: string)
    ensures Contains(s, s)
  {
    assert OccursAt(s, s, 0);
  }

  lemma ContainsEmpty(s: string)
    ensures Contains(s, "")
  {
    assert OccursAt(s, "", 0);
  }

  /** `s.charAt(0).toUpperCase() + s.slice(1)`. */
  function Capitalize(s: string): (r: string)
    ensures |r| == |s|
    ensures |s| > 0 ==> r[0] == UpperChar(s[0]) && r[1..] == s[1..]
  {
    if |s| == 0 then s else [UpperChar(s[0])] + s[1..]
  }

  predicate NoSpace(s: string) {
    forall i :: 0 <= i < |s| ==> !IsSpace(s[i])
  }

  /** Index of the first whitespace character at or after `from`, or `|s|`. */
  function NextSpace(s: string, from: nat): (k: nat)
    requires from <= |s|
    ensures from <= k <= |s|
    ensures forall i :: from <= i < k ==> !IsSpace(s[i])
    ensures k < |s| ==> IsSpace(s[k])
    decreases |s| - from
  {
    if from == |s| || IsSpace(s[from]) then from else NextSpace(s, from + 1)
  }

  /** Index just past the run of whitespace that starts at `from`. */
  function SkipSpaces(s: string, from: nat): (k: nat)
    requires from <= |s|
    ensures from <= k <= |s|
    ensures forall i :: from <= i < k ==> IsSpace(s[i])
    ensures k < |s| ==> !IsSpace(s[k])
    decreases |s| - from
  {
    if from == |s| || !IsSpace(s[from]) then from else SkipSpaces(s, from + 1)
  }

  /** `s.split(/\s+/)`: the pieces between maximal whitespace runs. A leading
      or trailing run yields an empty first or last piece, and the empty
      string splits into one empty piece. */
  function Split(s: string): (r: seq<string>)
    ensures |r| >= 1
    ensures forall k :: 0 <= k < |r| ==> NoSpace(r[k])
    decreases |s|
  {
    var i := NextSpace(s, 0);
    if i == |s| then [s]
    else
      var j := SkipSpaces(s, i);
      [s[..i]] + Split(s[j..])
  }

  /** `words.join(' ')`. */
  function JoinSpace(words: seq<string>): (r: string)
    ensures |words| == 1 ==> r == words[0]
  {
    if |words| == 0 then ""
    else if |words| == 1 then words[0]
    else words[0] + " " + JoinSpace(words[1..])
  }

  /** Splitting the space-joined words gives the words back when each is a
      non-empty run of non-whitespace characters. */
  lemma {:induction false} SplitJoin(words: seq<string>)
    requires |words| >= 1
    requires forall k :: 0 <= k < |words| ==> |words[k]| > 0 && NoSpace(words[k])
    ensures Split(JoinSpace(words)) == words
    decreases |words|
  {
    var w := words[0];
    if |words| == 1 {
      NextSpaceNone(w, 0);
    } else {
      var rest := JoinSpace(words[1..]);
      var s := w + " " + rest;
      assert s == JoinSpace(words);
      NextSpaceAfterWord(w, rest);
      assert NextSpace(s, 0) == |w|;
      SplitJoin(words[1..]);
      assert |rest| > 0 && !IsSpace(rest[0]) by { JoinStartsWithFirst(words[1..]); }
      assert SkipSpaces(s, |w|) == |w| + 1 by {
        assert s[|w|] == ' ';
        assert s[|w| + 1] == rest[0];
      }
      assert s[..|w|] == w;
      assert s[|w| + 1..] == rest;
    }
  }

  /** The same round trip when only the first and the last word may be
      empty, as the pieces of a string with leading or trailing whitespace are. */
  lemma {:induction false} SplitJoinEnds(words: seq<string>)
    requires |words| >= 1
    requires forall k :: 0 <= k < |words| ==> NoSpace(words[k])
    requires forall k :: 0 < k < |words| - 1 ==> |words[k]| > 0
    ensures Split(JoinSpace(words)) == words
    decreases |words|
  {
    var w := words[0];
    if |words| == 1 {
      NextSpaceNone(w, 0);
    } else {
      var rest := JoinSpace(words[1..]);
      var s := w + " " + rest;
      assert s == JoinSpace(words);
      NextSpaceAfterWord(w, rest);
      SplitJoinEnds(words[1..]);
      assert |rest| == 0 || !IsSpace(rest[0]) by {
        if |words| > 2 {
          JoinStartsWithFirst(words[1..]);
          assert NoSpace(words[1]);
        } else if |rest| > 0 {
          assert rest == words[1];
          assert NoSpace(words[1]);
        }
      }
      assert SkipSpaces(s, |w|) == |w| + 1 by {
        assert s[|w|] == ' ';
        if |rest| > 0 {
          assert s[|w| + 1] == rest[0];
        }
      }
      assert s[..|w|] == w;
      assert s[|w| + 1..] == rest;
    }
  }

  /** Only the first and the last piece of a split can be empty: whitespace
      runs are maximal. */
  lemma {:induction false} SplitInnerNonEmpty(s: string)
    ensures forall k :: 0 < k < |Split(s)| - 1 ==> |Split(s)[k]| > 0
    decreases |s|
  {
    var i := NextSpace(s, 0);
    if i < |s| {
      var j := SkipSpaces(s, i);
      var t := s[j..];
      SplitInnerNonEmpty(t);
      var r := Split(s);
      assert r == [s[..i]] + Split(t);
      if |t| > 0 {
        assert !IsSpace(t[0]);
        assert NextSpace(t, 0) > 0;
        assert |Split(t)[0]| > 0;
      }
      forall k | 0 < k < |r| - 1
        ensures |r[k]| > 0
      {
        assert r[k] == Split(t)[k - 1];
      }
    }
  }

  lemma NextSpaceNone(s: string, from: nat)
    requires from <= |s|
    requires NoSpace(s)
    ensures NextSpace(s, from) == |s|
    decreases |s| - from
  {
    if from < |s| {
      NextSpaceNone(s, from + 1);
    }
  }

  lemma NextSpaceAfterWord(w: string, rest: string)
    requires NoSpace(w)
    ensures NextSpace(w + " " + rest, 0) == |w|
  {
    var s := w + " " + rest;
    var k := NextSpace(s, 0);
    assert forall i :: 0 <= i < |w| ==> s[i] == w[i];
    assert s[|w|] == ' ';
  }

  lemma JoinStartsWithFirst(words: seq<string>)
    requires |words| >= 1 && |words[0]| > 0
    ensures |JoinSpace(words)| > 0 && JoinSpace(words)[0] == words[0][0]
  {
  }

  /** Strings with whitespace at the same positions split into equally many pieces. */
  lemma {:induction false} SplitSameShape(a: string, b: string)
    requires |a| == |b|
    requires forall i :: 0 <= i < |a| ==> (IsSpace(a[i]) <==> IsSpace(b[i]))
    ensures |Split(a)| == |Split(b)|
    decreases |a|
  {
    NextSpaceSameShape(a, b, 0);
    var i := NextSpace(a, 0);
    if i < |a| {
      SkipSpacesSameShape(a, b, i);
      var j := SkipSpaces(a, i);
      SplitSameShape(a[j..], b[j..]);
    }
  }

  lemma NextSpaceSameShape(a: string, b: string, from: nat)
    requires |a| == |b| && from <= |a|
    requires forall i :: 0 <= i < |a| ==> (IsSpace(a[i]) <==> IsSpace(b[i]))
    ensures NextSpace(a, from) == NextSpace(b, from)
    decreases |a| - from
  {
    if from < |a| {
      NextSpaceSameShape(a, b, from + 1);
    }
  }

  lemma SkipSpacesSameShape(a: string, b: string, from: nat)
    requires |a| == |b| && from <= |a|
    requires forall i :: 0 <= i < |a| ==> (IsSpace(a[i]) <==> IsSpace(b[i]))
    ensures SkipSpaces(a, from) == SkipSpaces(b, from)
    decreases |a| - from
  {
    if from < |a| {
      SkipSpacesSameShape(a, b, from + 1);
    }
  }

  /** `toLowerCase` leaves no upper-case letter behind. */
  lemma LowerHasNoUpper(s: string)
    ensures forall i :: 0 <= i < |Lower(s)| ==> !IsUpper(Lower(s)[i])
  {
  }

  /** Every character of every piece of `Split(s)` is a character of `s`. */
  lemma {:induction false} SplitPiecesFromSource(s: string)
    ensures forall k, i :: 0 <= k < |Split(s)| && 0 <= i < |Split(s)[k]| ==> Split(s)[k][i] in s
    decreases |s|
  {
    var n := NextSpace(s, 0);
    if n < |s| {
      var j := SkipSpaces(s, n);
      SplitPiecesFromSource(s[j..]);
      var r := Split(s);
      assert r == [s[..n]] + Split(s[j..]);
      forall k, i | 0 <= k < |r| && 0 <= i < |r[k]|
        ensures r[k][i] in s
      {
        if k == 0 {
          assert r[k][i] == s[i];
        } else {
          var c := r[k][i];
          assert c == Split(s[j..])[k - 1][i];
          assert c in s[j..];
        }
      }
    }
  }

  /** Capitalisation never turns whitespace into a letter or back, so it keeps
      the word count. */
  lemma CapitalizeKeepsWordCount(s: string)
    ensures |Split(Capitalize(s))| == |Split(s)|
  {
    var r := Capitalize(s);
    assert forall i :: 0 <= i < |s| ==> (IsSpace(r[i]) <==> IsSpace(s[i])) by {
      forall i | 0 <= i < |s|
        ensures IsSpace(r[i]) <==> IsSpace(s[i])
      {
        if i > 0 {
          assert r[i] == r[1..][i - 1];
        }
      }
    }
    SplitSameShape(r, s);
  }

  /** `s` with every maximal run of whitespace replaced by one space: the
      reference the pieces of `Split` are measured against. */
  function Collapse(s: string): string
    decreases |s|
  {
    if |s| == 0 then ""
    else if IsSpace(s[0]) then " " + Collapse(s[SkipSpaces(s, 0)..])
    else [s[0]] + Collapse(s[1..])
  }

  /** The pieces of `split(/\s+/)`, joined back with single spaces, give `s`
      with each whitespace run collapsed to one space. Together with
      `JoinInjective` this pins the pieces: they are the maximal runs of
      non-whitespace characters, empty at either end when `s` starts or ends
      with whitespace. */
  lemma {:induction false} SplitCollapse(s: string)
    ensures JoinSpace(Split(s)) == Collapse(s)
    decreases |s|
  {
    var i := NextSpace(s, 0);
    if i == |s| {
      CollapseWord(s, i);
      assert s[..i] == s;
      assert s[i..] == "";
    } else {
      var j := SkipSpaces(s, i);
      CollapseAtRun(s, i);
      SplitCollapse(s[j..]);
      SplitStep(s);
    }
  }

  /** Collapsing a string whose first whitespace is at `i`. */
  lemma CollapseAtRun(s: string, i: nat)
    requires i < |s| && i == NextSpace(s, 0)
    ensures Collapse(s) == s[..i] + " " + Collapse(s[SkipSpaces(s, i)..])
  {
    var j := SkipSpaces(s, i);
    var t := s[i..];
    CollapseWord(s, i);
    assert IsSpace(t[0]);
    CollapseSpace(t);
    SkipSpacesShift(s, i, i);
    assert t[SkipSpaces(t, 0)..] == s[j..];
    assert Collapse(s) == s[..i] + (" " + Collapse(s[j..]));
  }

  /** A string that starts with whitespace collapses that run to one space. */
  lemma CollapseSpace(t: string)
    requires |t| > 0 && IsSpace(t[0])
    ensures Collapse(t) == " " + Collapse(t[SkipSpaces(t, 0)..])
  {
  }

  /** Joining the pieces of a string with whitespace at `NextSpace(s, 0)`. */
  lemma SplitStep(s: string)
    requires NextSpace(s, 0) < |s|
    ensures var i := NextSpace(s, 0);
      JoinSpace(Split(s)) == s[..i] + " " + JoinSpace(Split(s[SkipSpaces(s, i)..]))
  {
    var i := NextSpace(s, 0);
    var rest := Split(s[SkipSpaces(s, i)..]);
    var ws := [s[..i]] + rest;
    assert Split(s) == ws;
    assert ws[1..] == rest;
  }

  /** Collapsing leaves a whitespace-free prefix as it is. */
  lemma {:induction false} CollapseWord(s: string, i: nat)
    requires i <= |s|
    requires forall k :: 0 <= k < i ==> !IsSpace(s[k])
    ensures Collapse(s) == s[..i] + Collapse(s[i..])
    decreases i
  {
    if i > 0 {
      var t := s[1..];
      assert !IsSpace(s[0]);
      assert Collapse(s) == [s[0]] + Collapse(t);
      assert forall k :: 0 <= k < i - 1 ==> t[k] == s[k + 1];
      CollapseWord(t, i - 1);
      assert t[i - 1..] == s[i..];
      assert s[..i] == [s[0]] + t[..i - 1];
    } else {
      assert s[..0] == "" && s[0..] == s;
    }
  }

  /** Skipping whitespace in a suffix is skipping it in the whole string. */
  lemma SkipSpacesShift(s: string, i: nat, from: nat)
    requires i <= from <= |s|
    ensures SkipSpaces(s[i..], from - i) == SkipSpaces(s, from) - i
    decreases |s| - from
  {
    if from < |s| {
      assert s[i..][from - i] == s[from];
      SkipSpacesShift(s, i, from + 1);
    }
  }

  /** Space-joining is injective on non-empty lists of whitespace-free pieces:
      the spaces of the joined string are exactly the separators. */
  lemma {:induction false} JoinInjective(a: seq<string>, b: seq<string>)
    requires |a| >= 1 && |b| >= 1
    requires forall k :: 0 <= k < |a| ==> NoSpace(a[k])
    requires forall k :: 0 <= k < |b| ==> NoSpace(b[k])
    requires JoinSpace(a) == JoinSpace(b)
    ensures a == b
    decreases |a|
  {
    var s := JoinSpace(a);
    JoinHasSpace(a);
    JoinHasSpace(b);
    if |a| > 1 {
      var ra := JoinSpace(a[1..]);
      var rb := JoinSpace(b[1..]);
      assert s == a[0] + " " + ra;
      assert s == b[0] + " " + rb;
      NextSpaceAfterWord(a[0], ra);
      NextSpaceAfterWord(b[0], rb);
      assert |a[0]| == |b[0]|;
      assert a[0] == s[..|a[0]|] == b[0];
      assert ra == s[|a[0]| + 1..] == rb;
      JoinInjective(a[1..], b[1..]);
      assert a == [a[0]] + a[1..] && b == [b[0]] + b[1..];
    }
  }

  /** The join of whitespace-free pieces has whitespace exactly when there
      are at least two pieces. */
  lemma JoinHasSpace(ws: seq<string>)
    requires |ws| >= 1
    requires forall k :: 0 <= k < |ws| ==> NoSpace(ws[k])
    ensures NoSpace(JoinSpace(ws)) <==> |ws| == 1
  {
    if |ws| > 1 {
      var s := JoinSpace(ws);
      assert s == ws[0] + " " + JoinSpace(ws[1..]);
      assert s[|ws[0]|] == ' ';
    }
  }

  /** `s.trim()`: `s` without its leading and trailing whitespace. */
  function Trim(s: string): (r: string)
    ensures |r| <= |s|
    ensures |r| > 0 ==> !IsSpace(r[0]) && !IsSpace(r[|r| - 1])
    ensures r == "" <==> forall k :: 0 <= k < |s| ==> IsSpace(s[k])
    ensures exists a: nat, b: nat | a <= b <= |s| ::
      && r == s[a..b]
      && (forall k :: 0 <= k < a ==> IsSpace(s[k]))
      && (forall k :: b <= k < |s| ==> IsSpace(s[k]))
  {
    var a := SkipSpaces(s, 0);
    var b := TrimEnd(s, |s|, a);
    assert forall k :: b <= k < |s| ==> IsSpace(s[k]);
    if a == |s| then
      assert s[a..a] == "";
      ""
    else
      s[a..b]
  }

  /** The end of `s[..hi]` once its trailing whitespace is dropped, never
      before `floor`, where `s[floor]` is not whitespace. */
  function TrimEnd(s: string, hi: nat, floor: nat): (b: nat)
    requires floor <= hi <= |s|
    requires floor < |s| ==> !IsSpace(s[floor])
    ensures floor <= b <= hi
    ensures floor < hi ==> floor < b
    ensures b > floor ==> !IsSpace(s[b - 1])
    ensures (forall k :: b <= k < hi ==> IsSpace(s[k]))
    decreases hi
  {
    if hi == floor || !IsSpace(s[hi - 1]) then hi
    else TrimEnd(s, hi - 1, floor)
  }

  /** A string padded by one whitespace character on each side trims to what
      it pads, when that does not itself begin or end with whitespace. */
  lemma TrimSpaced(s: string, w: string)
    requires |s| >= 3 && IsSpace(s[0]) && IsSpace(s[|s| - 1]) && w == s[1..|s| - 1]
    requires !IsSpace(w[0]) && !IsSpace(w[|w| - 1])
    ensures Trim(s) == w
  {
    var r := Trim(s);
    assert !IsSpace(s[1]);
    var a: nat, b: nat :| a <= b <= |s| && r == s[a..b]
      && (forall k :: 0 <= k < a ==> IsSpace(s[k]))
      && (forall k :: b <= k < |s| ==> IsSpace(s[k]));
    assert a <= 1 && b >= |s| - 1;
    assert r[0] == s[a] && r[|r| - 1] == s[b - 1];
  }

  /** Trimming twice is trimming once, and a string without surrounding
      whitespace is its own trim. */
  lemma TrimFixed(s: string)
    requires |s| > 0 ==> !IsSpace(s[0]) && !IsSpace(s[|s| - 1])
    ensures Trim(s) == s
  {
    if |s| > 0 {
      assert SkipSpaces(s, 0) == 0;
      assert TrimEnd(s, |s|, 0) == |s|;
      assert s[0..|s|] == s;
    }
  }

  lemma TrimIdempotent(s: string)
    ensures Trim(Trim(s)) == Trim(s)
  {
    TrimFixed(Trim(s));
  }

  /** Capitalising is invisible to a case-insensitive comparison. */
  lemma CapitalizeSameLower(s: string)
    ensures Lower(Capitalize(s)) == Lower(s)
  {
    if |s| > 0 {
      var r := Capitalize(s);
      assert LowerChar(UpperChar(s[0])) == LowerChar(s[0]);
      forall i | 0 <= i < |s|
        ensures Lower(r)[i] == Lower(s)[i]
      {
        if i > 0 {
          assert r[i] == r[1..][i - 1];
        }
      }
    }
  }
}

=== FILE: ts_export_routes.dfy ===
/** The export route of the TypeScript server (server/src/routes/exportRoutes.ts):
    one keyed row per stored result of a file, with the score column when
    scores are asked for and three columns per suggestion (the selected one
    included) when all suggestions are asked for. The rows are the model's
    output; of writing the workbook only the writer's refusal of an unknown
    book type is kept, and sending the file is left out. */
module TsExportRoutes {
  import opened Wrappers
  import Http
  import ExcelService
  import TsResultRoutes

  type TsResult = TsResultRoutes.TsResult
  type Value = ExcelService.Value

  datatype TsColumn =
    | Keyword                   // 'Mot-clé Original'
    | Selected                  // 'Suggestion Sélectionnée'
    | Audience                  // 'Taille Audience'
    | Score                     // 'Score de Correspondance'
    | Suggestion(n: nat)        // 'Suggestion n'
    | SuggestionScore(n: nat)   // 'Score Suggestion n'
    | SuggestionAudience(n: nat) // 'Audience Suggestion n'

  type Row = seq<(TsColumn, Value)>

  /** The request body after its defaults: format 'xlsx', scores included,
      all suggestions left out. */
  datatype TsExportOptions = TsExportOptions(format: string, includeScores: bool, includeAllSuggestions: bool)

  /** A JSON value as the body parser hands it over; only its truthiness
      matters for the two flags. */
  datatype Json = JNull | JBool(b: bool) | JNumber(x: real) | JString(s: string) | JArray | JObject

  /** JavaScript truthiness of a JSON value: null, false, 0 and '' are falsy. */
  predicate Truthy(v: Json) {
    match v
    case JNull => false
    case JBool(b) => b
    case JNumber(x) => x != 0.0
    case JString(s) => s != ""
    case JArray => true
    case JObject => true
  }

  /** The destructuring of the body: a default replaces only a missing
      field, and `if (includeScores)` and `if (includeAllSuggestions)` test
      the fields by truthiness. */
  function ParseBody(format: Option<string>, includeScores: Option<Json>, includeAll: Option<Json>): (opts: TsExportOptions)
    ensures opts.format == format.GetOr("xlsx")
    ensures opts.includeScores <==> includeScores.None? || Truthy(includeScores.value)
    ensures opts.includeAllSuggestions <==> includeAll.Some? && Truthy(includeAll.value)
  {
    TsExportOptions(format.GetOr("xlsx"),
                    includeScores.None? || Truthy(includeScores.value),
                    includeAll.Some? && Truthy(includeAll.value))
  }

  /** An empty body gives format xlsx with scores and without the other
      suggestions. */
  lemma DefaultBody()
    ensures ParseBody(None, None, None) == TsExportOptions("xlsx", true, false)
  {
  }

  /** The flags are tested by truthiness, not by type: the string 'false'
      still asks for scores, and an explicit null turns them off. */
  lemma FlagsByTruthiness()
    ensures ParseBody(None, Some(JString("false")), None).includeScores
    ensures !ParseBody(None, Some(JNull), None).includeScores
    ensures ParseBody(None, None, Some(JNumber(1.0))).includeAllSuggestions
  {
  }

  /** Sending the options back as a full body gives the same options, so a
      field left out is the same as its default sent explicitly. */
  lemma ParseBodyRoundTrip(o: TsExportOptions, format: Option<string>, includeScores: Option<Json>, includeAll: Option<Json>)
    ensures ParseBody(Some(o.format), Some(JBool(o.includeScores)), Some(JBool(o.includeAllSuggestions))) == o
    ensures ParseBody(format, includeScores, includeAll)
      == ParseBody(Some(format.GetOr("xlsx")), Some(includeScores.GetOr(JBool(true))), Some(includeAll.GetOr(JBool(false))))
  {
  }

  /** `row[column]`: the value of the first cell with that key. */
  function Lookup(row: Row, c: TsColumn): (v: Option<Value>)
    ensures v.None? <==> forall j :: 0 <= j < |row| ==> row[j].0 != c
  {
    if |row| == 0 then None
    else if row[0].0 == c then Some(row[0].1)
    else
      assert forall j :: 1 <= j < |row| ==> row[j] == row[1..][j - 1];
      Lookup(row[1..], c)
  }

  /** A cell whose key no earlier cell carries is what a lookup finds. */
  lemma {:induction false} LookupAt(row: Row, p: nat)
    requires p < |row|
    requires forall j :: 0 <= j < p ==> row[j].0 != row[p].0
    ensures Lookup(row, row[p].0) == Some(row[p].1)
  {
    if p > 0 {
      assert row[1..][p - 1] == row[p];
      LookupAt(row[1..], p - 1);
    }
  }

  /** The three cells of suggestion `i` (0-based), keyed `i + 1`. */
  function SuggestionCell(s: TsResultRoutes.Candidate, i: nat, kind: nat): (TsColumn, Value) {
    if kind == 0 then (Suggestion(i + 1), ExcelService.Str(s.value))
    else if kind == 1 then (SuggestionScore(i + 1), ExcelService.Number(s.score))
    else (SuggestionAudience(i + 1), ExcelService.Millions(s.size))
  }

  /** The `forEach` over the suggestions: three cells for each, in order. */
  function SuggestionCells(cs: seq<TsResultRoutes.Candidate>): (cells: Row)
    ensures |cells| == 3 * |cs|
  {
    seq(3 * |cs|, j requires 0 <= j < 3 * |cs| => SuggestionCell(cs[j / 3], j / 3, j % 3))
  }

  /** The keyword, selected value and audience, then the score when asked for. */
  function HeadCells(r: TsResult, opts: TsExportOptions): (cells: Row)
    requires r.selected.Some?
    ensures |cells| == if opts.includeScores then 4 else 3
    ensures forall j :: 0 <= j < |cells| ==> !IsSuggestionKey(cells[j].0)
  {
    [(Keyword, ExcelService.Str(r.originalValue)),
     (Selected, ExcelService.Str(r.selected.value.value)),
     (Audience, ExcelService.Millions(r.selected.value.size))]
    + (if opts.includeScores then [(Score, ExcelService.Number(r.matchScore))] else [])
  }

  /** The keys of the per-suggestion columns. */
  predicate IsSuggestionKey(c: TsColumn) {
    c.Suggestion? || c.SuggestionScore? || c.SuggestionAudience?
  }

  /** The row of one result: keyword, selected value and audience, then the
      score when asked for, then the suggestions when asked for. A result
      without a selection makes `selectedSuggestion.value` throw. */
  function ExportRow(r: TsResult, opts: TsExportOptions): (row: Option<Row>)
    ensures row.None? <==> r.selected.None?
    ensures row.Some? ==>
      |row.value| == 3 + (if opts.includeScores then 1 else 0)
                       + (if opts.includeAllSuggestions then 3 * |r.suggestions| else 0)
  {
    if r.selected.None? then None
    else Some(HeadCells(r, opts) + (if opts.includeAllSuggestions then SuggestionCells(r.suggestions) else []))
  }

  /** A cell after a prefix is found when no earlier cell carries its key. */
  lemma LookupAfter(prefix: Row, cells: Row, q: nat)
    requires q < |cells|
    requires forall j :: 0 <= j < |prefix| ==> prefix[j].0 != cells[q].0
    requires forall j :: 0 <= j < q ==> cells[j].0 != cells[q].0
    ensures Lookup(prefix + cells, cells[q].0) == Some(cells[q].1)
  {
    var row := prefix + cells;
    var p := |prefix| + q;
    assert row[p] == cells[q];
    forall j | 0 <= j < p
      ensures row[j].0 != row[p].0
    {
      if j < |prefix| {
        assert row[j] == prefix[j];
      } else {
        assert row[j] == cells[j - |prefix|];
      }
    }
    LookupAt(row, p);
  }

  /** Every suggestion cell is keyed by a suggestion column. */
  lemma CellsAreSuggestionKeys(cs: seq<TsResultRoutes.Candidate>, q: nat)
    requires q < 3 * |cs|
    ensures IsSuggestionKey(SuggestionCells(cs)[q].0)
  {
  }

  /** The keyword, the selected suggestion and its audience are always in the
      row; the score is present exactly when scores are asked for. */
  lemma ExportRowBase(r: TsResult, opts: TsExportOptions)
    requires r.selected.Some?
    ensures var row := ExportRow(r, opts).value;
      && Lookup(row, Keyword) == Some(ExcelService.Str(r.originalValue))
      && Lookup(row, Selected) == Some(ExcelService.Str(r.selected.value.value))
      && Lookup(row, Audience) == Some(ExcelService.Millions(r.selected.value.size))
      && (opts.includeScores ==> Lookup(row, Score) == Some(ExcelService.Number(r.matchScore)))
      && (!opts.includeScores ==> Lookup(row, Score).None?)
  {
    var row := ExportRow(r, opts).value;
    assert row[0].0 == Keyword && row[1].0 == Selected && row[2].0 == Audience;
    LookupAt(row, 0);
    LookupAt(row, 1);
    LookupAt(row, 2);
    if opts.includeScores {
      assert row[3].0 == Score;
      LookupAt(row, 3);
    } else {
      forall j | 0 <= j < |row|
        ensures row[j].0 != Score
      {
        if j >= 3 {
          var k := j - 3;
          assert row[j] == SuggestionCells(r.suggestions)[k];
        }
      }
    }
  }

  /** With all suggestions asked for, suggestion n (1-based) contributes its
      value, score and audience; without, none of the three keys is present. */
  lemma ExportRowSuggestion(r: TsResult, opts: TsExportOptions, n: nat)
    requires r.selected.Some? && 1 <= n <= |r.suggestions|
    ensures var row := ExportRow(r, opts).value;
      var s := r.suggestions[n - 1];
      && (opts.includeAllSuggestions ==>
            && Lookup(row, Suggestion(n)) == Some(ExcelService.Str(s.value))
            && Lookup(row, SuggestionScore(n)) == Some(ExcelService.Number(s.score))
            && Lookup(row, SuggestionAudience(n)) == Some(ExcelService.Millions(s.size)))
      && (!opts.includeAllSuggestions ==>
            && Lookup(row, Suggestion(n)).None?
            && Lookup(row, SuggestionScore(n)).None?
            && Lookup(row, SuggestionAudience(n)).None?)
  {
    if opts.includeAllSuggestions {
      SuggestionFound(r, opts, n, 0);
      SuggestionFound(r, opts, n, 1);
      SuggestionFound(r, opts, n, 2);
    }
  }

  /** Cell `kind` of suggestion n (1-based) is what a lookup of its key finds. */
  lemma SuggestionFound(r: TsResult, opts: TsExportOptions, n: nat, kind: nat)
    requires r.selected.Some? && opts.includeAllSuggestions
    requires 1 <= n <= |r.suggestions| && kind < 3
    ensures var row := ExportRow(r, opts).value;
      var c := SuggestionCell(r.suggestions[n - 1], n - 1, kind);
      Lookup(row, c.0) == Some(c.1)
  {
    var head := HeadCells(r, opts);
    var cells := SuggestionCells(r.suggestions);
    var row := ExportRow(r, opts).value;
    var i := n - 1;
    var q := 3 * i + kind;
    var c := SuggestionCell(r.suggestions[i], i, kind);
    assert q < 3 * |r.suggestions|;
    CellAt(r.suggestions, i, kind);
    assert cells[q] == c;
    assert row == head + cells;
    FoundInSuggestionCells(head, r.suggestions, q);
    assert Lookup(row, c.0) == Some(c.1);
  }

  /** After a head without suggestion keys, suggestion cell `q` is what a
      lookup of its key finds. */
  lemma FoundInSuggestionCells(head: Row, cs: seq<TsResultRoutes.Candidate>, q: nat)
    requires q < 3 * |cs|
    requires forall j :: 0 <= j < |head| ==> !IsSuggestionKey(head[j].0)
    ensures Lookup(head + SuggestionCells(cs), SuggestionCells(cs)[q].0) == Some(SuggestionCells(cs)[q].1)
  {
    var cells := SuggestionCells(cs);
    CellsAreSuggestionKeys(cs, q);
    forall j | 0 <= j < q
      ensures cells[j].0 != cells[q].0
    {
      DistinctCellKeys(cs, j, q);
    }
    LookupAfter(head, cells, q);
  }

  /** Cell `kind` of suggestion `i` sits at position `3 * i + kind`. */
  lemma CellAt(cs: seq<TsResultRoutes.Candidate>, i: nat, kind: nat)
    requires i < |cs| && kind < 3
    ensures SuggestionCells(cs)[3 * i + kind] == SuggestionCell(cs[i], i, kind)
  {
    assert (3 * i + kind) / 3 == i && (3 * i + kind) % 3 == kind;
  }

  /** A suggestion cell of a row is what a lookup of its key finds. */
  lemma FoundAmongSuggestions(r: TsResult, opts: TsExportOptions, p: nat)
    requires r.selected.Some? && opts.includeAllSuggestions
    requires (if opts.includeScores then 4 else 3) <= p < |ExportRow(r, opts).value|
    ensures var row := ExportRow(r, opts).value;
      p - (if opts.includeScores then 4 else 3) < |SuggestionCells(r.suggestions)|
      && row[p] == SuggestionCells(r.suggestions)[p - (if opts.includeScores then 4 else 3)]
      && Lookup(row, row[p].0) == Some(row[p].1)
  {
    var head := HeadCells(r, opts);
    var cells := SuggestionCells(r.suggestions);
    var row := ExportRow(r, opts).value;
    assert row == head + cells;
    var q := p - |head|;
    assert q < |cells|;
    assert row[p] == cells[q];
    FoundInSuggestionCells(head, r.suggestions, q);
  }

  /** Two different suggestion cells have different keys. */
  lemma DistinctCellKeys(cs: seq<TsResultRoutes.Candidate>, a: nat, b: nat)
    requires a < b < 3 * |cs|
    ensures SuggestionCells(cs)[a].0 != SuggestionCells(cs)[b].0
  {
    assert a == 3 * (a / 3) + a % 3;
    assert b == 3 * (b / 3) + b % 3;
  }

  /** `results.map(...)`: one row per result, in order; any result without a
      selection fails the whole export. */
  function ExportRows(results: seq<TsResult>, opts: TsExportOptions): (rows: Option<seq<Row>>)
    ensures rows.None? <==> exists k :: 0 <= k < |results| && results[k].selected.None?
    ensures rows.Some? ==>
      && |rows.value| == |results|
      && forall k :: 0 <= k < |results| ==> Some(rows.value[k]) == ExportRow(results[k], opts)
  {
    if |results| == 0 then Some([])
    else match ExportRow(results[0], opts)
      case None => None
      case Some(row) =>
        match ExportRows(results[1..], opts)
        case None =>
          var k :| 0 <= k < |results[1..]| && results[1..][k].selected.None?;
          assert results[k + 1].selected.None?;
          None
        case Some(rest) =>
          assert forall k :: 1 <= k < |results| ==> results[k] == results[1..][k - 1];
          Some([row] + rest)
  }

  /** `POST /:fileId`: an unknown file and a file without results are both a
      404; a result without a selection is a 500; otherwise the rows of the
      file's results in stored order. The workbook is then written to a file
      named with `format` as its extension, and the writer throws on a book
      type it does not recognise, which is a 500 as well. Which types the
      spreadsheet library recognises is the parameter `writable`. */
  function Export(db: TsResultRoutes.TsDb, fileId: nat, opts: TsExportOptions, writable: set<string>)
    : (out: Http.Reply<seq<Row>>)
    ensures fileId !in db.files ==> out == Http.Rejected(Http.NotFound)
    ensures fileId in db.files && TsResultRoutes.ListResults(db.results, fileId, None) == [] ==>
      out == Http.Rejected(Http.NotFound)
    ensures out.Ok? ==>
      var rs := TsResultRoutes.ListResults(db.results, fileId, None);
      && fileId in db.files && rs != [] && opts.format in writable
      && out.code == 200
      && |out.data| == |rs|
      && forall k :: 0 <= k < |rs| ==> Some(out.data[k]) == ExportRow(rs[k], opts)
    ensures out.Rejected? && out.code == Http.ServerError <==>
      && fileId in db.files && TsResultRoutes.ListResults(db.results, fileId, None) != []
      && ((exists r :: r in db.results && r.file == fileId && r.selected.None?) || opts.format !in writable)
  {
    if fileId !in db.files then Http.Rejected(Http.NotFound)
    else
      var rs := TsResultRoutes.ListResults(db.results, fileId, None);
      if rs == [] then Http.Rejected(Http.NotFound)
      else match ExportRows(rs, opts)
        case None =>
          var k :| 0 <= k < |rs| && rs[k].selected.None?;
          assert rs[k] in rs;
          Http.Rejected(Http.ServerError)
        case Some(rows) =>
          assert forall r :: r in db.results && r.file == fileId ==> r in rs;
          if opts.format !in writable then Http.Rejected(Http.ServerError)
          else Http.Ok(200, rows)
  }

  /** An unrecognised format fails an export that would otherwise succeed,
      and a recognised one does not change the rows. */
  lemma FormatOnlyDecidesWriting(db: TsResultRoutes.TsDb, fileId: nat, opts: TsExportOptions, writable: set<string>)
    requires Export(db, fileId, opts.(format := "xlsx"), {"xlsx"}).Ok?
    ensures opts.format !in writable ==> Export(db, fileId, opts, writable) == Http.Rejected(Http.ServerError)
    ensures opts.format in writable ==>
      Export(db, fileId, opts, writable) == Export(db, fileId, opts.(format := "xlsx"), {"xlsx"})
  {
    ExportRowsFormat(TsResultRoutes.ListResults(db.results, fileId, None), opts, "xlsx");
  }

  /** The rows do not depend on the format. */
  lemma {:induction false} ExportRowsFormat(results: seq<TsResult>, opts: TsExportOptions, f: string)
    ensures ExportRows(results, opts.(format := f)) == ExportRows(results, opts)
  {
    if |results| > 0 {
      ExportRowsFormat(results[1..], opts, f);
    }
  }

  /** Every row has the same keys: three, one more with scores, and three per
      suggestion of its result with all suggestions; keys never repeat. */
  lemma ExportRowKeysDistinct(r: TsResult, opts: TsExportOptions)
    requires r.selected.Some?
    ensures var row := ExportRow(r, opts).value;
      forall i, j :: 0 <= i < j < |row| ==> row[i].0 != row[j].0
  {
    var head := HeadCells(r, opts);
    var tail := if opts.includeAllSuggestions then SuggestionCells(r.suggestions) else [];
    assert ExportRow(r, opts).value == head + tail;
    forall i, j | 0 <= i < j < |tail|
      ensures tail[i].0 != tail[j].0
    {
      DistinctCellKeys(r.suggestions, i, j);
    }
    forall j | 0 <= j < |tail|
      ensures IsSuggestionKey(tail[j].0)
    {
      CellsAreSuggestionKeys(r.suggestions, j);
    }
    DistinctConcat(head, tail);
  }

  /** Two rows without a repeated key, whose keys never meet, concatenate
      into a row without a repeated key. */
  lemma DistinctConcat(head: Row, tail: Row)
    requires forall i, j :: 0 <= i < j < |head| ==> head[i].0 != head[j].0
    requires forall i, j :: 0 <= i < j < |tail| ==> tail[i].0 != tail[j].0
    requires forall j :: 0 <= j < |head| ==> !IsSuggestionKey(head[j].0)
    requires forall j :: 0 <= j < |tail| ==> IsSuggestionKey(tail[j].0)
    ensures var row := head + tail;
      forall i, j :: 0 <= i < j < |row| ==> row[i].0 != row[j].0
  {
    var row := head + tail;
    forall i, j | 0 <= i < j < |row|
      ensures row[i].0 != row[j].0
    {
      if j < |head| {
        assert row[i] == head[i] && row[j] == head[j];
      } else if i < |head| {
        assert row[i] == head[i] && row[j] == tail[j - |head|];
      } else {
        assert row[i] == tail[i - |head|] && row[j] == tail[j - |head|];
      }
    }
  }
}

=== FILE: ts_result_routes.dfy ===
/** The result routes of the TypeScript server (server/src/routes/resultRoutes.ts):
    analysing a column (one processed result per distinct cell value, with up
    to three provider suggestions and the best one selected), listing a
    file's results, and re-selecting a suggestion by its identifier. This
    revision keeps its own result record (server/src/models/Result.ts) and is
    not merged with the JavaScript server's. */
module TsResultRoutes {
  import opened Wrappers
  import Seqs
  import Sheets
  import Numbers
  import Http

  /** A stored suggestion; `id` is the identifier the database gives the
      embedded document (the provider's own id is not part of the schema). */
  datatype Candidate = Candidate(id: nat, value: string, size: int, score: int, isSelected: bool)

  /** One interest of the provider's reply, with the score computed for it. */
  datatype ProviderItem = ProviderItem(name: string, size: int, score: int)

  datatype Status = Pending | Processed | Failed

  datatype TsResult = TsResult(
    id: nat,
    file: nat,
    column: string,
    originalValue: string,
    suggestions: seq<Candidate>,
    selected: Option<Candidate>,
    matchScore: int,
    status: Status)

  /** The stored files (by id, with their path) and results. Identifiers of
      results and of embedded suggestions come from one counter. */
  datatype TsDb = TsDb(files: map<nat, string>, results: seq<TsResult>, nextId: nat)

  const MaxSuggestions := 3
  const FallbackSize := 1000000
  const FallbackScore := 70

  // ---------------------------------------------------------------------
  // Provider suggestions and the AI score
  // ---------------------------------------------------------------------

  /** `getMetaMarketingSuggestions(value)`: the first three interests of the
      reply, or, when the request fails (`reply` is None), one fallback
      suggestion for the value itself. */
  function MetaSuggestions(value: string, reply: Option<seq<ProviderItem>>): (items: seq<ProviderItem>)
    ensures reply.None? ==> items == [ProviderItem(value, FallbackSize, FallbackScore)]
    ensures reply.Some? ==>
      && |items| == (if |reply.value| < MaxSuggestions then |reply.value| else MaxSuggestions)
      && forall k :: 0 <= k < |items| ==> items[k] == reply.value[k]
  {
    if reply.None? then [ProviderItem(value, FallbackSize, FallbackScore)]
    else if |reply.value| < MaxSuggestions then reply.value
    else reply.value[..MaxSuggestions]
  }

  /** Only an empty reply gives no suggestion at all. */
  lemma MetaSuggestionsEmpty(value: string, reply: Option<seq<ProviderItem>>)
    ensures MetaSuggestions(value, reply) == [] <==> reply == Some([])
  {
  }

  /** What the completion service answered: some content (possibly none), or
      a failure. */
  datatype AiAnswer = Answered(content: Option<string>) | AiDown

  /** `getAIMatchScore`: the answer (or '70' when it is empty) parsed as an
      integer and clamped to [0, 100]; an unparsable answer stays NaN (None),
      because clamping NaN gives NaN; a failure gives 70. */
  function AiScore(answer: AiAnswer): (score: Option<int>)
    ensures answer.AiDown? ==> score == Some(FallbackScore)
    ensures score.Some? ==> 0 <= score.value <= 100
    ensures score.None? <==>
      answer.Answered? && answer.content.Some? && answer.content.value != ""
      && Numbers.ParseInt(answer.content.value).None?
  {
    match answer
    case AiDown => Some(FallbackScore)
    case Answered(content) =>
      var text := if content.None? || content.value == "" then "70" else content.value;
      match Numbers.ParseInt(text)
      case None => None
      case Some(n) => Some(if n < 0 then 0 else if n > 100 then 100 else n)
  }

  /** A numeric answer is clamped into [0, 100] and kept when it lies there;
      an empty answer scores 70. */
  lemma AiScoreClamps(n: int)
    ensures AiScore(Answered(Some(Numbers.IntString(n)))) == Some(if n < 0 then 0 else if n > 100 then 100 else n)
    ensures AiScore(Answered(None)) == Some(FallbackScore)
    ensures AiScore(Answered(Some(""))) == Some(FallbackScore)
  {
    var s := Numbers.IntString(n);
    Numbers.ParseIntString(n);
    assert s != "";
    ParseSeventy();
  }

  /** The stand-in answer "70" reads as 70. */
  lemma ParseSeventy()
    ensures Numbers.ParseInt("70") == Some(70)
  {
    Numbers.ParseIntString(70);
    assert Numbers.IntString(70) == "70" by {
      assert Numbers.NatString(7) == "7";
      assert Numbers.DigitChar(0) == '0';
    }
  }

  // ---------------------------------------------------------------------
  // Best suggestion
  // ---------------------------------------------------------------------

  /** `reduce((best, cur) => cur.score > best.score ? cur : best)` over the
      first `n` suggestions: a suggestion of maximal score, the earliest one
      when several tie. */
  function BestOf(cs: seq<Candidate>, n: nat): (b: nat)
    requires 0 < n <= |cs|
    ensures b < n
    ensures forall j :: 0 <= j < n ==> cs[j].score <= cs[b].score
    ensures forall j :: 0 <= j < b ==> cs[j].score < cs[b].score
  {
    if n == 1 then 0
    else
      var b := BestOf(cs, n - 1);
      if cs[n - 1].score > cs[b].score then n - 1 else b
  }

  /** The best suggestion is unique: any index with the two properties is it. */
  lemma BestOfUnique(cs: seq<Candidate>, i: nat)
    requires 0 < |cs| && i < |cs|
    requires forall j :: 0 <= j < |cs| ==> cs[j].score <= cs[i].score
    requires forall j :: 0 <= j < i ==> cs[j].score < cs[i].score
    ensures BestOf(cs, |cs|) == i
  {
  }

  // ---------------------------------------------------------------------
  // Analyse a column
  // ---------------------------------------------------------------------

  /** `row[col]` in `header: 1` mode: an empty cell, or one past the end of a
      short row, is `undefined` (None). */
  function CellAt(row: seq<Sheets.Cell>, col: nat): Option<Sheets.Cell> {
    if col < |row| && row[col] != Sheets.Null then Some(row[col]) else None
  }

  /** `(data[0] as string[]).indexOf(column)`: strict equality, so only a text
      cell equal to the column name matches; a number cell never matches. */
  function IndexOf(header: seq<Sheets.Cell>, column: string): (k: Option<nat>)
    ensures k.Some? ==> k.value < |header| && header[k.value] == Sheets.Text(column)
    ensures k.Some? ==> forall j :: 0 <= j < k.value ==> header[j] != Sheets.Text(column)
    ensures k.None? <==> Sheets.Text(column) !in header
  {
    if |header| == 0 then None
    else if header[0] == Sheets.Text(column) then Some(0)
    else match IndexOf(header[1..], column)
      case None => None
      case Some(j) => Some(j + 1)
  }

  /** `data.slice(1).map(row => row[columnIndex])`. */
  function DataCells(grid: seq<seq<Sheets.Cell>>, col: nat): (cells: seq<Option<Sheets.Cell>>)
    requires |grid| > 0
    ensures |cells| == |grid| - 1
    ensures forall i :: 1 <= i < |grid| ==> cells[i - 1] == CellAt(grid[i], col)
  {
    seq(|grid| - 1, i requires 0 <= i < |grid| - 1 => CellAt(grid[i + 1], col))
  }

  /** `[...new Set(cells)]`: the distinct cell values in order of first
      occurrence. A `Set` compares with SameValueZero, so the number 1 and the
      text "1" are two values, as `Num(1)` and `Text("1")` are here. */
  function ColumnValues(grid: seq<seq<Sheets.Cell>>, col: nat): (vs: seq<Option<Sheets.Cell>>)
    requires |grid| > 0
    ensures Seqs.NoDuplicates(vs)
    ensures forall v :: v in vs <==> exists i :: 1 <= i < |grid| && CellAt(grid[i], col) == v
    ensures forall i :: 0 <= i < |vs| ==> vs[i] in DataCells(grid, col)
    ensures forall i, j :: 0 <= i < j < |vs| ==>
      Seqs.FirstIndex(DataCells(grid, col), vs[i]) < Seqs.FirstIndex(DataCells(grid, col), vs[j])
  {
    var cells := DataCells(grid, col);
    var vs := Seqs.Dedupe(cells);
    assert forall v :: v in vs <==> v in cells;
    Seqs.DedupeFirstOccurrenceOrder(cells);
    vs
  }

  /** The suggestions as stored, with fresh identifiers from `firstId` on and
      no flag set. */
  function Stored(items: seq<ProviderItem>, firstId: nat): (cs: seq<Candidate>)
    ensures |cs| == |items|
    ensures forall k :: 0 <= k < |items| ==>
      cs[k] == Candidate(firstId + k, items[k].name, items[k].size, items[k].score, false)
  {
    seq(|items|, k requires 0 <= k < |items| => Candidate(firstId + k, items[k].name, items[k].size, items[k].score, false))
  }

  /** Whether every suggestion has a name: the schema's `value` is required,
      and `required` refuses the empty string. */
  predicate Named(items: seq<ProviderItem>) {
    forall k :: 0 <= k < |items| ==> items[k].name != ""
  }

  /** Whether a value yields a saved result: it is defined (else `toString`
      throws), it has at least one suggestion (else `reduce` throws), and the
      record passes the schema's `required` checks on save (else `save`
      throws): the column, the keyword `value.toString()` and every
      suggestion's name are non-empty. The provider is asked about
      `value.toString()`. */
  predicate Analyzable(v: Option<Sheets.Cell>, column: string, provider: string -> Option<seq<ProviderItem>>) {
    && v.Some? && column != ""
    && var key := Sheets.CellString(v.value);
    && key != ""
    && var items := MetaSuggestions(key, provider(key));
    && items != [] && Named(items)
  }

  /** The result passes the schema's `required` checks on its strings: the
      column, the keyword, and the name of every suggestion and of the
      selection are non-empty. */
  predicate SchemaValid(t: TsResult) {
    && t.column != "" && t.originalValue != ""
    && (forall k :: 0 <= k < |t.suggestions| ==> t.suggestions[k].value != "")
    && (t.selected.Some? ==> t.selected.value.value != "")
  }

  /** The processed result saved for one analysable value. The selection is
      the best suggestion as it stands in the list; the database would give
      the embedded copy an identifier of its own, which the model does not
      track, so `selected` carries the listed suggestion's `id`. */
  function ResultFor(id: nat, fileId: nat, column: string, value: string, items: seq<ProviderItem>): (r: TsResult)
    requires items != []
    ensures r.id == id && r.file == fileId && r.column == column && r.originalValue == value
    ensures r.status == Processed && |r.suggestions| == |items|
    ensures r.selected.Some? && r.selected.value in r.suggestions
    ensures r.matchScore == r.selected.value.score
    ensures forall k :: 0 <= k < |r.suggestions| ==> r.suggestions[k].score <= r.matchScore
    ensures forall k :: 0 <= k < |r.suggestions| ==> !r.suggestions[k].isSelected
    ensures SchemaValid(r) <==> column != "" && value != "" && Named(items)
  {
    var cs := Stored(items, id + 1);
    var b := BestOf(cs, |cs|);
    TsResult(id, fileId, column, value, cs, Some(cs[b]), cs[b].score, Processed)
  }

  /** The loop over the distinct values: a value whose processing throws is
      skipped and the loop goes on; a saved result's keyword is
      `value.toString()`. */
  function AnalyzeAll(values: seq<Option<Sheets.Cell>>, provider: string -> Option<seq<ProviderItem>>,
                      fileId: nat, column: string, nextId: nat): (out: (seq<TsResult>, nat))
    ensures out.1 >= nextId + |out.0|
    decreases |values|
  {
    if |values| == 0 then ([], nextId)
    else
      var v := values[0];
      if Analyzable(v, column, provider) then
        var key := Sheets.CellString(v.value);
        var items := MetaSuggestions(key, provider(key));
        var r := ResultFor(nextId, fileId, column, key, items);
        var run := AnalyzeAll(values[1..], provider, fileId, column, nextId + 1 + |items|);
        ([r] + run.0, run.1)
      else
        AnalyzeAll(values[1..], provider, fileId, column, nextId)
  }

  /** The number of analysable values. */
  function AnalyzableCount(values: seq<Option<Sheets.Cell>>, column: string, provider: string -> Option<seq<ProviderItem>>): nat {
    if |values| == 0 then 0
    else (if Analyzable(values[0], column, provider) then 1 else 0) + AnalyzableCount(values[1..], column, provider)
  }

  /** `toString()` of each analysable value, in order. */
  function AnalyzableKeys(values: seq<Option<Sheets.Cell>>, column: string, provider: string -> Option<seq<ProviderItem>>): seq<string> {
    if |values| == 0 then []
    else
      (if Analyzable(values[0], column, provider) then [Sheets.CellString(values[0].value)] else [])
      + AnalyzableKeys(values[1..], column, provider)
  }

  /** `toString()` of each defined value, in order. */
  function Keys(values: seq<Option<Sheets.Cell>>): seq<string> {
    if |values| == 0 then []
    else (if values[0].Some? then [Sheets.CellString(values[0].value)] else []) + Keys(values[1..])
  }

  /** The keywords of a list of results. */
  function Keywords(rs: seq<TsResult>): (ks: seq<string>)
    ensures |ks| == |rs| && forall k :: 0 <= k < |rs| ==> ks[k] == rs[k].originalValue
  {
    seq(|rs|, k requires 0 <= k < |rs| => rs[k].originalValue)
  }

  /** One result per analysable value. */
  lemma {:induction false} AnalyzeAllCount(values: seq<Option<Sheets.Cell>>, provider: string -> Option<seq<ProviderItem>>,
                                           fileId: nat, column: string, nextId: nat)
    ensures |AnalyzeAll(values, provider, fileId, column, nextId).0| == AnalyzableCount(values, column, provider)
    decreases |values|
  {
    if |values| > 0 {
      var v := values[0];
      if Analyzable(v, column, provider) {
        var key := Sheets.CellString(v.value);
        var items := MetaSuggestions(key, provider(key));
        AnalyzeAllCount(values[1..], provider, fileId, column, nextId + 1 + |items|);
        AnalyzeAllStep(values, provider, fileId, column, nextId);
      } else {
        AnalyzeAllCount(values[1..], provider, fileId, column, nextId);
        AnalyzeAllSkip(values, provider, fileId, column, nextId);
      }
    }
  }

  lemma KeywordsCons(r: TsResult, rest: seq<TsResult>)
    ensures Keywords([r] + rest) == [r.originalValue] + Keywords(rest)
  {
    assert forall k :: 1 <= k < |rest| + 1 ==> ([r] + rest)[k] == rest[k - 1];
  }

  /** The saved results carry, in order, `toString()` of exactly the
      analysable values. */
  lemma {:induction false} AnalyzeAllKeywords(values: seq<Option<Sheets.Cell>>, provider: string -> Option<seq<ProviderItem>>,
                                              fileId: nat, column: string, nextId: nat)
    ensures Keywords(AnalyzeAll(values, provider, fileId, column, nextId).0) == AnalyzableKeys(values, column, provider)
    decreases |values|
  {
    if |values| > 0 {
      var v := values[0];
      if Analyzable(v, column, provider) {
        var key := Sheets.CellString(v.value);
        var items := MetaSuggestions(key, provider(key));
        var next := nextId + 1 + |items|;
        var rest := AnalyzeAll(values[1..], provider, fileId, column, next).0;
        var r := ResultFor(nextId, fileId, column, key, items);
        AnalyzeAllKeywords(values[1..], provider, fileId, column, next);
        AnalyzeAllStep(values, provider, fileId, column, nextId);
        KeywordsCons(r, rest);
        assert AnalyzableKeys(values, column, provider) == [key] + AnalyzableKeys(values[1..], column, provider);
      } else {
        AnalyzeAllKeywords(values[1..], provider, fileId, column, nextId);
        AnalyzeAllSkip(values, provider, fileId, column, nextId);
      }
    }
  }

  /** Every result belongs to the file and column, is processed with its best
      suggestion selected, and carries one of the values. */
  lemma {:induction false} AnalyzeAllFrom(values: seq<Option<Sheets.Cell>>, provider: string -> Option<seq<ProviderItem>>,
                                          fileId: nat, column: string, nextId: nat)
    ensures var saved := AnalyzeAll(values, provider, fileId, column, nextId).0;
      forall k :: 0 <= k < |saved| ==> SavedFrom(saved[k], values, fileId, column)
    decreases |values|
  {
    if |values| > 0 {
      var v := values[0];
      var tail := values[1..];
      if Analyzable(v, column, provider) {
        var key := Sheets.CellString(v.value);
        var items := MetaSuggestions(key, provider(key));
        var rest := AnalyzeAll(tail, provider, fileId, column, nextId + 1 + |items|).0;
        var r := ResultFor(nextId, fileId, column, key, items);
        AnalyzeAllFrom(tail, provider, fileId, column, nextId + 1 + |items|);
        AnalyzeAllStep(values, provider, fileId, column, nextId);
        assert Keys(values) == [key] + Keys(tail);
        SavedFromCons(r, rest, values, fileId, column);
      } else {
        var rest := AnalyzeAll(tail, provider, fileId, column, nextId).0;
        AnalyzeAllFrom(tail, provider, fileId, column, nextId);
        AnalyzeAllSkip(values, provider, fileId, column, nextId);
        SavedFromAll(rest, values, fileId, column);
      }
    }
  }

  /** A result saved for the first value, followed by results saved for the
      later values, are all saved from the values. */
  lemma SavedFromCons(r: TsResult, rest: seq<TsResult>, values: seq<Option<Sheets.Cell>>, fileId: nat, column: string)
    requires |values| > 0 && SavedFrom(r, values, fileId, column)
    requires forall k :: 0 <= k < |rest| ==> SavedFrom(rest[k], values[1..], fileId, column)
    ensures forall k :: 0 <= k < |[r] + rest| ==> SavedFrom(([r] + rest)[k], values, fileId, column)
  {
    SavedFromAll(rest, values, fileId, column);
    assert forall k :: 1 <= k < |[r] + rest| ==> ([r] + rest)[k] == rest[k - 1];
  }

  /** Results saved for the later values are saved from all of them. */
  lemma SavedFromAll(rest: seq<TsResult>, values: seq<Option<Sheets.Cell>>, fileId: nat, column: string)
    requires |values| > 0
    requires forall k :: 0 <= k < |rest| ==> SavedFrom(rest[k], values[1..], fileId, column)
    ensures forall k :: 0 <= k < |rest| ==> SavedFrom(rest[k], values, fileId, column)
  {
    forall k | 0 <= k < |rest|
      ensures SavedFrom(rest[k], values, fileId, column)
    {
      SavedFromTail(rest[k], values, fileId, column);
    }
  }

  /** A result saved for one of the values, for the file and column, processed
      and scored by its selection. */
  predicate SavedFrom(t: TsResult, values: seq<Option<Sheets.Cell>>, fileId: nat, column: string) {
    && t.originalValue in Keys(values)
    && t.file == fileId && t.column == column
    && t.status == Processed && t.selected.Some?
    && t.matchScore == t.selected.value.score
    && SchemaValid(t)
  }

  /** What is saved from the later values is saved from all of them. */
  lemma SavedFromTail(t: TsResult, values: seq<Option<Sheets.Cell>>, fileId: nat, column: string)
    requires |values| > 0 && SavedFrom(t, values[1..], fileId, column)
    ensures SavedFrom(t, values, fileId, column)
  {
    assert Keys(values) == (if values[0].Some? then [Sheets.CellString(values[0].value)] else []) + Keys(values[1..]);
  }

  /** Every defined value is a text cell. */
  predicate AllText(values: seq<Option<Sheets.Cell>>) {
    forall i :: 0 <= i < |values| && values[i].Some? ==> values[i].value.Text?
  }

  /** Distinct text values give results with distinct keywords. Values of
      other types can collide: see `TypedDuplicatesShareKeyword`. */
  lemma AnalyzeAllDistinct(values: seq<Option<Sheets.Cell>>, provider: string -> Option<seq<ProviderItem>>,
                           fileId: nat, column: string, nextId: nat)
    requires Seqs.NoDuplicates(values) && AllText(values)
    ensures DistinctKeywords(AnalyzeAll(values, provider, fileId, column, nextId).0)
  {
    AnalyzeAllKeywords(values, provider, fileId, column, nextId);
    AnalyzableKeysDistinct(values, column, provider);
  }

  /** The keys of distinct text values are distinct. */
  lemma {:induction false} AnalyzableKeysDistinct(values: seq<Option<Sheets.Cell>>, column: string, provider: string -> Option<seq<ProviderItem>>)
    requires Seqs.NoDuplicates(values) && AllText(values)
    ensures Seqs.NoDuplicates(AnalyzableKeys(values, column, provider))
    decreases |values|
  {
    if |values| > 0 {
      var v := values[0];
      var tail := values[1..];
      assert Seqs.NoDuplicates(tail);
      assert AllText(tail);
      assert v !in tail;
      AnalyzableKeysDistinct(tail, column, provider);
      var rest := AnalyzableKeys(tail, column, provider);
      if Analyzable(v, column, provider) {
        var key := Sheets.CellString(v.value);
        TextKeyAbsent(v.value, tail);
        AnalyzableKeysAmongKeys(tail, column, provider);
        var ks := [key] + rest;
        assert key !in rest;
        forall i, j | 0 <= i < j < |ks|
          ensures ks[i] != ks[j]
        {
          assert ks[j] == rest[j - 1];
          if i > 0 { assert ks[i] == rest[i - 1]; }
        }
      }
    }
  }

  /** Analysable values are defined values. */
  lemma {:induction false} AnalyzableKeysAmongKeys(values: seq<Option<Sheets.Cell>>, column: string, provider: string -> Option<seq<ProviderItem>>)
    ensures forall x :: x in AnalyzableKeys(values, column, provider) ==> x in Keys(values)
    decreases |values|
  {
    if |values| > 0 {
      AnalyzableKeysAmongKeys(values[1..], column, provider);
    }
  }

  /** A text value absent from text-only values has a text no one else has. */
  lemma {:induction false} TextKeyAbsent(c: Sheets.Cell, values: seq<Option<Sheets.Cell>>)
    requires c.Text? && Some(c) !in values && AllText(values)
    ensures Sheets.CellString(c) !in Keys(values)
    decreases |values|
  {
    if |values| > 0 {
      assert Some(c) !in values[1..];
      assert AllText(values[1..]);
      TextKeyAbsent(c, values[1..]);
    }
  }

  /** The number 1 and the text "1" are two values of a `Set`, and both are
      saved, under the same keyword "1", unless the column is empty. */
  lemma TypedDuplicatesShareKeyword(fileId: nat, column: string, nextId: nat)
    ensures var values := [Some(Sheets.Num(1)), Some(Sheets.Text("1"))];
      && Seqs.NoDuplicates(values)
      && var saved := AnalyzeAll(values, (s: string) => None, fileId, column, nextId).0;
      && (column != "" ==> |saved| == 2 && saved[0].originalValue == "1" && saved[1].originalValue == "1")
      && (column == "" ==> saved == [])
  {
    var values := [Some(Sheets.Num(1)), Some(Sheets.Text("1"))];
    var provider := (s: string) => None;
    if column == "" {
      EmptyColumnSavesNothing(values, provider, fileId, nextId);
      return;
    }
    AnalyzeAllKeywords(values, provider, fileId, column, nextId);
    TypedKeys(values, column, provider);
    var saved := AnalyzeAll(values, provider, fileId, column, nextId).0;
    assert Keywords(saved) == ["1", "1"];
  }

  /** Both values are saved under a non-empty column, each keyed "1". */
  lemma TypedKeys(values: seq<Option<Sheets.Cell>>, column: string, provider: string -> Option<seq<ProviderItem>>)
    requires values == [Some(Sheets.Num(1)), Some(Sheets.Text("1"))]
    requires column != "" && forall s :: provider(s).None?
    ensures AnalyzableKeys(values, column, provider) == ["1", "1"]
  {
    assert Sheets.CellString(Sheets.Num(1)) == "1" by {
      assert Numbers.NatString(1) == [Numbers.DigitChar(1)];
    }
    assert provider("1").None?;
    assert Analyzable(values[0], column, provider) && Analyzable(values[1], column, provider);
    assert values[1..] == [Some(Sheets.Text("1"))];
    assert values[1..][1..] == [];
    assert AnalyzableKeys(values[1..], column, provider) == ["1"];
  }

  predicate DistinctKeywords(rs: seq<TsResult>) {
    forall i, j :: 0 <= i < j < |rs| ==> rs[i].originalValue != rs[j].originalValue
  }

  /** One step of the loop over an analysable first value. */
  lemma AnalyzeAllStep(values: seq<Option<Sheets.Cell>>, provider: string -> Option<seq<ProviderItem>>,
                       fileId: nat, column: string, nextId: nat)
    requires |values| > 0 && Analyzable(values[0], column, provider)
    ensures var key := Sheets.CellString(values[0].value);
      var items := MetaSuggestions(key, provider(key));
      AnalyzeAll(values, provider, fileId, column, nextId).0
        == [ResultFor(nextId, fileId, column, key, items)]
           + AnalyzeAll(values[1..], provider, fileId, column, nextId + 1 + |items|).0
  {
  }

  /** One step of the loop over a first value that is skipped. */
  lemma AnalyzeAllSkip(values: seq<Option<Sheets.Cell>>, provider: string -> Option<seq<ProviderItem>>,
                       fileId: nat, column: string, nextId: nat)
    requires |values| > 0 && !Analyzable(values[0], column, provider)
    ensures AnalyzeAll(values, provider, fileId, column, nextId)
         == AnalyzeAll(values[1..], provider, fileId, column, nextId)
  {
  }

  /** `POST /:fileId/analyze`: an unknown file is a 404; a file that cannot be
      read, or an empty sheet (no header row), is a 500; a column that no
      text cell of the header row equals is a 400. Otherwise the results of
      the loop over the distinct values are added and the reply counts them. */
  function Analyze(db: TsDb, disk: Sheets.Disk, fileId: nat, column: string,
                   provider: string -> Option<seq<ProviderItem>>): (out: (TsDb, Http.Reply<nat>))
    ensures fileId !in db.files ==> out == (db, Http.Rejected(Http.NotFound))
    ensures fileId in db.files && (db.files[fileId] !in disk || disk[db.files[fileId]].grid == []) ==>
      out == (db, Http.Rejected(Http.ServerError))
    ensures fileId in db.files && db.files[fileId] in disk && disk[db.files[fileId]].grid != [] ==>
      (out.1 == Http.Rejected(Http.BadRequest) <==> Sheets.Text(column) !in disk[db.files[fileId]].grid[0])
    ensures out.1.Rejected? ==> out.0 == db
    ensures out.1.Ok? ==>
      && fileId in db.files && db.files[fileId] in disk
      && var grid := disk[db.files[fileId]].grid;
      && |grid| > 0 && Sheets.Text(column) in grid[0]
      && var run := AnalyzeAll(ColumnValues(grid, IndexOf(grid[0], column).value), provider, fileId, column, db.nextId);
      && out.1.code == 201
      && out.0 == db.(results := db.results + run.0, nextId := run.1)
      && out.1.data == |run.0|
  {
    if fileId !in db.files then (db, Http.Rejected(Http.NotFound))
    else
      var path := db.files[fileId];
      if path !in disk || disk[path].grid == [] then (db, Http.Rejected(Http.ServerError))
      else
        var grid := disk[path].grid;
        var col := IndexOf(grid[0], column);
        if col.None? then (db, Http.Rejected(Http.BadRequest))
        else AnalyzeColumn(db, grid, col.value, fileId, column, provider)
  }

  /** The route past its guards: the loop's results are added after the
      stored ones and the reply counts them. */
  function AnalyzeColumn(db: TsDb, grid: seq<seq<Sheets.Cell>>, col: nat, fileId: nat, column: string,
                         provider: string -> Option<seq<ProviderItem>>): (out: (TsDb, Http.Reply<nat>))
    requires |grid| > 0
    ensures var run := AnalyzeAll(ColumnValues(grid, col), provider, fileId, column, db.nextId);
      && out.1 == Http.Ok(201, |run.0|)
      && out.0 == db.(results := db.results + run.0, nextId := run.1)
  {
    var run := AnalyzeAll(ColumnValues(grid, col), provider, fileId, column, db.nextId);
    (db.(results := db.results + run.0, nextId := run.1), Http.Ok(201, |run.0|))
  }

  /** A header cell holding the number 2023 does not match the column "2023":
      the route answers 400. */
  lemma NumericHeaderRejected(db: TsDb, disk: Sheets.Disk, fileId: nat,
                              provider: string -> Option<seq<ProviderItem>>)
    requires fileId in db.files && db.files[fileId] in disk
    requires disk[db.files[fileId]].grid == [[Sheets.Num(2023)]]
    ensures Analyze(db, disk, fileId, "2023", provider) == (db, Http.Rejected(Http.BadRequest))
  {
    assert Sheets.Text("2023") !in [Sheets.Num(2023)];
  }

  /** What the route stores past the guards: the new results after the old
      ones, one per analysable distinct value, keyed by its `toString()` in
      order of first occurrence; when every value is text, the keywords are
      distinct. */
  lemma AnalyzeStores(db: TsDb, disk: Sheets.Disk, fileId: nat, column: string,
                      provider: string -> Option<seq<ProviderItem>>)
    requires Analyze(db, disk, fileId, column, provider).1.Ok?
    ensures var (db', reply) := Analyze(db, disk, fileId, column, provider);
      var grid := disk[db.files[fileId]].grid;
      var values := ColumnValues(grid, IndexOf(grid[0], column).value);
      && reply.data == AnalyzableCount(values, column, provider)
      && |db'.results| == |db.results| + reply.data
      && db'.results[..|db.results|] == db.results
      && db'.files == db.files
      && Keywords(db'.results[|db.results|..]) == AnalyzableKeys(values, column, provider)
      && (AllText(values) ==> DistinctKeywords(db'.results[|db.results|..]))
  {
    var grid := disk[db.files[fileId]].grid;
    var values := ColumnValues(grid, IndexOf(grid[0], column).value);
    var saved := AnalyzeAll(values, provider, fileId, column, db.nextId).0;
    AnalyzeAllCount(values, provider, fileId, column, db.nextId);
    AnalyzeAllKeywords(values, provider, fileId, column, db.nextId);
    if AllText(values) {
      AnalyzeAllDistinct(values, provider, fileId, column, db.nextId);
    }
    var results := db.results + saved;
    assert results[..|db.results|] == db.results;
    assert results[|db.results|..] == saved;
  }

  /** Whether a value is defined and its text `value.toString()` is non-empty. */
  predicate HasText(v: Option<Sheets.Cell>) {
    v.Some? && Sheets.CellString(v.value) != ""
  }

  /** A provider that is down still yields one result per defined value with
      non-empty text, through the fallback suggestion named after the value;
      under an empty column nothing is saved. */
  lemma {:induction false} ProviderDownStillSaves(values: seq<Option<Sheets.Cell>>, column: string)
    ensures column != "" ==> AnalyzableCount(values, column, (s: string) => None) == Seqs.CountIf(values, HasText)
    ensures column == "" ==> AnalyzableCount(values, column, (s: string) => None) == 0
  {
    if |values| > 0 {
      ProviderDownStillSaves(values[1..], column);
    }
  }

  /** Under an empty column every `save` fails `required` on `column`:
      nothing is saved and no identifier is used. */
  lemma {:induction false} EmptyColumnSavesNothing(values: seq<Option<Sheets.Cell>>, provider: string -> Option<seq<ProviderItem>>,
                                                   fileId: nat, nextId: nat)
    ensures AnalyzeAll(values, provider, fileId, "", nextId) == ([], nextId)
    decreases |values|
  {
    if |values| > 0 {
      EmptyColumnSavesNothing(values[1..], provider, fileId, nextId);
      AnalyzeAllSkip(values, provider, fileId, "", nextId);
    }
  }

  /** A sheet whose only value under the column is the empty string: its
      `save` fails `required` on `originalValue`, and the route answers 201
      with nothing saved. */
  lemma EmptyTextSkipped(db: TsDb, disk: Sheets.Disk, fileId: nat, provider: string -> Option<seq<ProviderItem>>)
    requires fileId in db.files && db.files[fileId] in disk
    requires disk[db.files[fileId]].grid == [[Sheets.Text("k")], [Sheets.Text("")]]
    ensures Analyze(db, disk, fileId, "k", provider) == (db, Http.Ok(201, 0))
  {
    var grid := disk[db.files[fileId]].grid;
    assert IndexOf(grid[0], "k") == Some(0);
    EmptyTextValues(grid);
    EmptyTextRun(provider, fileId, db.nextId);
    assert db.results + [] == db.results;
  }

  /** The column of that sheet has the empty string as its only value. */
  lemma EmptyTextValues(grid: seq<seq<Sheets.Cell>>)
    requires grid == [[Sheets.Text("k")], [Sheets.Text("")]]
    ensures ColumnValues(grid, 0) == [Some(Sheets.Text(""))]
  {
    var cells := DataCells(grid, 0);
    assert cells == [Some(Sheets.Text(""))];
    assert Seqs.Dedupe(cells) == [Some(Sheets.Text(""))] by {
      assert cells[..0] == [];
    }
  }

  /** The loop over the empty string alone saves nothing. */
  lemma EmptyTextRun(provider: string -> Option<seq<ProviderItem>>, fileId: nat, nextId: nat)
    ensures AnalyzeAll([Some(Sheets.Text(""))], provider, fileId, "k", nextId) == ([], nextId)
  {
    var values := [Some(Sheets.Text(""))];
    assert !Analyzable(values[0], "k", provider);
    AnalyzeAllSkip(values, provider, fileId, "k", nextId);
  }

  /** An interest whose name is empty fails `required` on the suggestion's
      `value`: the keyword is skipped. */
  lemma UnnamedInterestSkipped(fileId: nat, nextId: nat)
    ensures AnalyzeAll([Some(Sheets.Text("a"))], (s: string) => Some([ProviderItem("", 5, 50)]), fileId, "k", nextId)
      == ([], nextId)
  {
    var values := [Some(Sheets.Text("a"))];
    var provider := (s: string) => Some([ProviderItem("", 5, 50)]);
    var items := MetaSuggestions("a", provider("a"));
    assert provider("a") == Some([ProviderItem("", 5, 50)]);
    assert items[0].name == "";
    AnalyzeAllSkip(values, provider, fileId, "k", nextId);
  }

  // ---------------------------------------------------------------------
  // Listing
  // ---------------------------------------------------------------------

  /** The query `{ file, column? }`: the column only counts when given and
      non-empty. */
  predicate Listed(r: TsResult, fileId: nat, column: Option<string>) {
    r.file == fileId && (column.Some? && column.value != "" ==> r.column == column.value)
  }

  /** `GET /:fileId`: the file's results, restricted to one column when the
      query names one, in stored order. */
  function ListResults(results: seq<TsResult>, fileId: nat, column: Option<string>): (rs: seq<TsResult>)
    ensures Seqs.Subseq(rs, results)
    ensures forall r :: r in rs <==>
      r in results && r.file == fileId && (column.Some? && column.value != "" ==> r.column == column.value)
  {
    var keep := (r: TsResult) => Listed(r, fileId, column);
    Seqs.FilterIsSubseq(results, keep);
    Seqs.Filter(results, keep)
  }

  /** After an analysis the column's listing is the earlier listing followed
      by every result the analysis saved, in the order saved. */
  lemma AnalyzeThenList(db: TsDb, disk: Sheets.Disk, fileId: nat, column: string,
                        provider: string -> Option<seq<ProviderItem>>)
    requires Analyze(db, disk, fileId, column, provider).1.Ok?
    ensures var db' := Analyze(db, disk, fileId, column, provider).0;
      ListResults(db'.results, fileId, Some(column))
        == ListResults(db.results, fileId, Some(column)) + db'.results[|db.results|..]
  {
    var db' := Analyze(db, disk, fileId, column, provider).0;
    var grid := disk[db.files[fileId]].grid;
    var values := ColumnValues(grid, IndexOf(grid[0], column).value);
    var saved := AnalyzeAll(values, provider, fileId, column, db.nextId).0;
    assert db'.results == db.results + saved;
    AnalyzeAllListed(db.results, values, provider, fileId, column, db.nextId);
    assert db'.results[|db.results|..] == saved;
  }

  lemma AnalyzeAllListed(earlier: seq<TsResult>, values: seq<Option<Sheets.Cell>>,
                         provider: string -> Option<seq<ProviderItem>>, fileId: nat, column: string, nextId: nat)
    ensures var saved := AnalyzeAll(values, provider, fileId, column, nextId).0;
      ListResults(earlier + saved, fileId, Some(column)) == ListResults(earlier, fileId, Some(column)) + saved
  {
    var saved := AnalyzeAll(values, provider, fileId, column, nextId).0;
    AnalyzeAllFrom(values, provider, fileId, column, nextId);
    forall r | r in saved
      ensures Listed(r, fileId, Some(column))
    {
      var k :| 0 <= k < |saved| && saved[k] == r;
      SavedListed(saved[k], values, fileId, column);
    }
    ListAppendSaved(earlier, saved, fileId, column);
  }

  /** A result saved for the file and column is listed under that column. */
  lemma SavedListed(t: TsResult, values: seq<Option<Sheets.Cell>>, fileId: nat, column: string)
    requires SavedFrom(t, values, fileId, column)
    ensures Listed(t, fileId, Some(column))
  {
  }

  /** Appending results listed under the file and column appends them to its listing. */
  lemma ListAppendSaved(earlier: seq<TsResult>, saved: seq<TsResult>, fileId: nat, column: string)
    requires forall r :: r in saved ==> Listed(r, fileId, Some(column))
    ensures ListResults(earlier + saved, fileId, Some(column)) == ListResults(earlier, fileId, Some(column)) + saved
  {
    var keep := (r: TsResult) => Listed(r, fileId, Some(column));
    Seqs.FilterAppend(earlier, saved, keep);
    Seqs.FilterAll(saved, keep);
  }

  // ---------------------------------------------------------------------
  // Re-selection
  // ---------------------------------------------------------------------

  /** `results.find(r => r._id == id)`. */
  function FindResult(results: seq<TsResult>, id: nat): (k: Option<nat>)
    ensures k.Some? ==> k.value < |results| && results[k.value].id == id
    ensures k.Some? ==> forall j :: 0 <= j < k.value ==> results[j].id != id
    ensures k.None? <==> forall j :: 0 <= j < |results| ==> results[j].id != id
  {
    Seqs.FindWhere(results, (r: TsResult) => r.id == id)
  }

  /** `metaSuggestions.find(s => s.id === suggestionId)`. */
  function FindCandidate(cs: seq<Candidate>, id: nat): (k: Option<nat>)
    ensures k.Some? ==> k.value < |cs| && cs[k.value].id == id
    ensures k.Some? ==> forall j :: 0 <= j < k.value ==> cs[j].id != id
    ensures k.None? <==> forall j :: 0 <= j < |cs| ==> cs[j].id != id
  {
    Seqs.FindWhere(cs, (c: Candidate) => c.id == id)
  }

  predicate ExactlyFlagged(cs: seq<Candidate>, i: nat) {
    forall k :: 0 <= k < |cs| ==> (cs[k].isSelected <==> k == i)
  }

  /** The flags cleared and the suggestion at `i` flagged. */
  function FlagOnly(cs: seq<Candidate>, i: nat): (out: seq<Candidate>)
    requires i < |cs|
    ensures |out| == |cs| && ExactlyFlagged(out, i)
    ensures forall k :: 0 <= k < |cs| ==> out[k].(isSelected := false) == cs[k].(isSelected := false)
  {
    seq(|cs|, k requires 0 <= k < |cs| => cs[k].(isSelected := k == i))
  }

  /** `PATCH /:resultId/suggestion`: an unknown result is a 404 and an unknown
      suggestion id a 400, with nothing stored; otherwise exactly that
      suggestion is flagged, becomes the selection, and `matchScore` takes its
      score (whatever its value). */
  function Reselect(db: TsDb, resultId: nat, suggestionId: nat): (out: (TsDb, Http.Reply<TsResult>))
    ensures FindResult(db.results, resultId).None? ==> out == (db, Http.Rejected(Http.NotFound))
    ensures out.1.Rejected? ==> out.0 == db
    ensures var k := FindResult(db.results, resultId);
      k.Some? ==>
        (out.1 == Http.Rejected(Http.BadRequest) <==> FindCandidate(db.results[k.value].suggestions, suggestionId).None?)
    ensures out.1.Ok? ==>
      var k := FindResult(db.results, resultId).value;
      var r := db.results[k];
      var i := FindCandidate(r.suggestions, suggestionId).value;
      var r' := out.1.data;
      && |r'.suggestions| == |r.suggestions|
      && ExactlyFlagged(r'.suggestions, i)
      && r'.suggestions[i].id == suggestionId
      && r'.selected == Some(r'.suggestions[i])
      && r'.matchScore == r.suggestions[i].score
      && r' == r.(suggestions := r'.suggestions, selected := r'.selected, matchScore := r'.matchScore)
      && out.0 == db.(results := db.results[k := r'])
  {
    match FindResult(db.results, resultId)
    case None => (db, Http.Rejected(Http.NotFound))
    case Some(k) =>
      var r := db.results[k];
      match FindCandidate(r.suggestions, suggestionId)
      case None => (db, Http.Rejected(Http.BadRequest))
      case Some(i) =>
        var cs := FlagOnly(r.suggestions, i);
        var r' := r.(suggestions := cs, selected := Some(cs[i]), matchScore := cs[i].score);
        (db.(results := db.results[k := r']), Http.Ok(200, r'))
  }

  /** Re-selecting the same suggestion again stores nothing new. */
  lemma ReselectIdempotent(db: TsDb, resultId: nat, suggestionId: nat)
    requires Reselect(db, resultId, suggestionId).1.Ok?
    ensures var db' := Reselect(db, resultId, suggestionId).0;
      Reselect(db', resultId, suggestionId) == (db', Http.Ok(200, Reselect(db, resultId, suggestionId).1.data))
  {
    var k := FindResult(db.results, resultId).value;
    var r := db.results[k];
    var i := FindCandidate(r.suggestions, suggestionId).value;
    var (db', reply') := Reselect(db, resultId, suggestionId);
    var r' := reply'.data;
    assert db'.results[k] == r';
    assert db'.results[k].id == resultId;
    assert FindResult(db'.results, resultId) == Some(k);
    assert FindCandidate(r'.suggestions, suggestionId) == Some(i) by {
      assert forall j :: 0 <= j < |r'.suggestions| ==> r'.suggestions[j].id == r.suggestions[j].id;
    }
    var again := FlagOnly(r'.suggestions, i);
    assert forall j :: 0 <= j < |again| ==> again[j] == r'.suggestions[j];
    assert again == r'.suggestions;
    assert r'.(suggestions := again, selected := Some(again[i]), matchScore := again[i].score) == r';
    assert db'.results[k := r'] == db'.results;
  }
}

=== FILE: visualization.dfy ===
/** The client's visualisation service (client/src/services/visualizationService.ts):
    aggregates over the match results of a file. The score summary, audience
    summary, keyword comparisons, word cloud, progress counts and
    score/audience correlation. Averages, medians and percentages are exact
    real numbers rather than IEEE doubles. */
module Visualization {
  import opened Wrappers
  import opened ClientTypes
  import Seqs
  import Sorting
  import Text

  // ---------------------------------------------------------------------
  // Score summary
  // ---------------------------------------------------------------------

  /** The results the score summary reads: processed, with a non-null score
      (an undefined score passes and later reads as 0). */
  predicate Scored(r: MatchResult) {
    r.status == "processed" && r.matchScore != Null
  }

  /** `processedResults.map(result => result.matchScore || 0)`. */
  function ScoresOf(rs: seq<MatchResult>): (scores: seq<int>)
    ensures |scores| == |rs|
    ensures forall i :: 0 <= i < |rs| ==> scores[i] == OrZero(rs[i].matchScore)
  {
    seq(|rs|, i requires 0 <= i < |rs| => OrZero(rs[i].matchScore))
  }

  function Scores(results: seq<MatchResult>): seq<int> {
    ScoresOf(Seqs.Filter(results, Scored))
  }

  /** Number of scores `x` with `lo <= x < hi`. */
  function CountBetween(xs: seq<int>, lo: int, hi: int): (n: nat)
    ensures n <= |xs|
  {
    if |xs| == 0 then 0
    else (if lo <= xs[0] < hi then 1 else 0) + CountBetween(xs[1..], lo, hi)
  }

  /** Adjacent half-open ranges count what their union counts. */
  lemma {:induction false} CountBetweenSplit(xs: seq<int>, a: int, b: int, c: int)
    requires a <= b <= c
    ensures CountBetween(xs, a, b) + CountBetween(xs, b, c) == CountBetween(xs, a, c)
  {
    if |xs| > 0 {
      CountBetweenSplit(xs[1..], a, b, c);
    }
  }

  /** A range that holds every score counts them all. */
  lemma {:induction false} CountBetweenAll(xs: seq<int>, lo: int, hi: int)
    requires forall i :: 0 <= i < |xs| ==> lo <= xs[i] < hi
    ensures CountBetween(xs, lo, hi) == |xs|
  {
    if |xs| > 0 {
      CountBetweenAll(xs[1..], lo, hi);
    }
  }

  datatype Bucket = Bucket(range: string, count: nat, percentage: real)

  /** `(count / total) * 100`. */
  function Percentage(count: nat, total: nat): real
    requires total > 0
  {
    (count as real / total as real) * 100.0
  }

  function BucketOf(scores: seq<int>, lo: int, hi: int, range: string): (b: Bucket)
    requires |scores| > 0
  {
    var c := CountBetween(scores, lo, hi);
    Bucket(range, c, Percentage(c, |scores|))
  }

  /** Five buckets of width 20 starting at 0; the last one ends before `lastHi`. */
  function MakeBuckets(scores: seq<int>, lastHi: int): (bs: seq<Bucket>)
    requires |scores| > 0
    ensures |bs| == 5
  {
    [BucketOf(scores, 0, 20, "0-20"), BucketOf(scores, 20, 40, "20-40"), BucketOf(scores, 40, 60, "40-60"),
     BucketOf(scores, 60, 80, "60-80"), BucketOf(scores, 80, lastHi, "80-100")]
  }

  function BucketTotal(bs: seq<Bucket>): nat
    requires |bs| == 5
  {
    bs[0].count + bs[1].count + bs[2].count + bs[3].count + bs[4].count
  }

  /** The buckets as the service computes them: every range is half-open,
      the last one included, so the buckets count the scores in [0, 100). */
  function BucketsAsWritten(scores: seq<int>): (bs: seq<Bucket>)
    requires |scores| > 0
    ensures |bs| == 5
  {
    MakeBuckets(scores, 100)
  }

  lemma BucketsAsWrittenCover(scores: seq<int>)
    requires |scores| > 0
    ensures BucketTotal(BucketsAsWritten(scores)) == CountBetween(scores, 0, 100)
  {
    CountBetweenSplit(scores, 0, 20, 40);
    CountBetweenSplit(scores, 0, 40, 60);
    CountBetweenSplit(scores, 0, 60, 80);
    CountBetweenSplit(scores, 0, 80, 100);
  }

  /** A single perfect score lands in no bucket: the distribution shows 0%
      everywhere for a file whose one score is 100. */
  lemma HundredInNoBucket()
    ensures BucketTotal(BucketsAsWritten([100])) == 0
    ensures forall k :: 0 <= k < 5 ==> BucketsAsWritten([100])[k].percentage == 0.0
  {
    var bs := BucketsAsWritten([100]);
    assert bs[0].count == 0 && bs[1].count == 0 && bs[2].count == 0;
    assert bs[3].count == 0 && bs[4].count == 0;
  }

  /** The buckets with the last range closed, [80, 100]: every score the
      service can produce falls in exactly one bucket. */
  function BucketsClosed(scores: seq<int>): (bs: seq<Bucket>)
    requires |scores| > 0
    ensures |bs| == 5
  {
    MakeBuckets(scores, 101)
  }

  lemma BucketsClosedCover(scores: seq<int>)
    requires |scores| > 0
    requires forall i :: 0 <= i < |scores| ==> 0 <= scores[i] <= 100
    ensures BucketTotal(BucketsClosed(scores)) == |scores|
    ensures BucketsClosed(scores)[4].count == CountBetween(scores, 80, 101)
  {
    CountBetweenSplit(scores, 0, 20, 40);
    CountBetweenSplit(scores, 0, 40, 60);
    CountBetweenSplit(scores, 0, 60, 80);
    CountBetweenSplit(scores, 0, 80, 101);
    CountBetweenAll(scores, 0, 101);
  }

  lemma PercentageScaled(count: nat, total: nat)
    requires total > 0
    ensures Percentage(count, total) * total as real == count as real * 100.0
  {
  }

  /** Counts that add up to the total give percentages that add up to 100. */
  lemma PercentagesSum(bs: seq<Bucket>, total: nat)
    requires |bs| == 5 && total > 0 && BucketTotal(bs) == total
    requires forall k :: 0 <= k < 5 ==> bs[k].percentage == Percentage(bs[k].count, total)
    ensures bs[0].percentage + bs[1].percentage + bs[2].percentage + bs[3].percentage + bs[4].percentage == 100.0
  {
    var t := total as real;
    PercentageScaled(bs[0].count, total);
    PercentageScaled(bs[1].count, total);
    PercentageScaled(bs[2].count, total);
    PercentageScaled(bs[3].count, total);
    PercentageScaled(bs[4].count, total);
    SharesSum(bs[0].percentage, bs[1].percentage, bs[2].percentage, bs[3].percentage, bs[4].percentage,
              bs[0].count as real, bs[1].count as real, bs[2].count as real, bs[3].count as real, bs[4].count as real, t);
  }

  /** Five shares of a positive total, each scaled by 100, add up to 100. */
  lemma SharesSum(p0: real, p1: real, p2: real, p3: real, p4: real,
                  c0: real, c1: real, c2: real, c3: real, c4: real, t: real)
    requires t > 0.0 && c0 + c1 + c2 + c3 + c4 == t
    requires p0 * t == c0 * 100.0 && p1 * t == c1 * 100.0 && p2 * t == c2 * 100.0
    requires p3 * t == c3 * 100.0 && p4 * t == c4 * 100.0
    ensures p0 + p1 + p2 + p3 + p4 == 100.0
  {
    var sum := p0 + p1 + p2 + p3 + p4;
    assert sum * t == p0 * t + p1 * t + p2 * t + p3 * t + p4 * t;
    assert sum * t == (c0 + c1 + c2 + c3 + c4) * 100.0;
    assert sum * t == 100.0 * t;
    CancelPositive(sum, 100.0, t);
  }

  lemma CancelPositive(a: real, b: real, t: real)
    requires t > 0.0 && a * t == b * t
    ensures a == b
  {
  }

  datatype ScoreSummary = ScoreSummary(average: real, median: real, min: int, max: int, distributions: seq<Bucket>)

  /** The middle element of an odd-length sorted sequence, or the mean of the
      two middle elements of an even-length one. */
  function Median(sorted: seq<int>): real
    requires |sorted| > 0
  {
    var mid := |sorted| / 2;
    if |sorted| % 2 == 0 then (sorted[mid - 1] + sorted[mid]) as real / 2.0
    else sorted[mid] as real
  }

  /** `sum / scores.length`. */
  function Mean(scores: seq<int>): real
    requires |scores| > 0
  {
    Seqs.Sum(scores) as real / |scores| as real
  }

  /** The summary of a list of scores whose last bucket ends before
      `lastHi`: the mean, the median, the extremes and the five buckets. */
  function SummaryWith(scores: seq<int>, lastHi: int): (s: ScoreSummary)
    ensures |scores| == 0 ==> s == ScoreSummary(0.0, 0.0, 0, 0, [])
    ensures |scores| > 0 ==>
      && s.average == Mean(scores)
      && s.median == Median(Sorting.SortAsc(scores, x => x))
      && s.min in scores && s.max in scores
      && (forall i :: 0 <= i < |scores| ==> s.min <= scores[i] <= s.max)
      && |s.distributions| == 5
      && (forall k :: 0 <= k < 4 ==> s.distributions[k].count == CountBetween(scores, 20 * k, 20 * k + 20))
      && s.distributions[4].count == CountBetween(scores, 80, lastHi)
      && (forall k :: 0 <= k < 5 ==> s.distributions[k].percentage == Percentage(s.distributions[k].count, |scores|))
  {
    if |scores| == 0 then ScoreSummary(0.0, 0.0, 0, 0, [])
    else
      var sorted := Sorting.SortAsc(scores, x => x);
      SortedExtremes(scores);
      var bs := MakeBuckets(scores, lastHi);
      assert forall k :: 0 <= k < 4 ==> bs[k].count == CountBetween(scores, 20 * k, 20 * k + 20) by {
        assert bs[0].count == CountBetween(scores, 0, 20);
        assert bs[1].count == CountBetween(scores, 20, 40);
        assert bs[2].count == CountBetween(scores, 40, 60);
        assert bs[3].count == CountBetween(scores, 60, 80);
      }
      ScoreSummary(Mean(scores), Median(sorted), sorted[0], sorted[|sorted| - 1], bs)
  }

  /** The summary as the service computes it, with the half-open last
      bucket [80, 100). */
  function SummaryOf(scores: seq<int>): (s: ScoreSummary)
    ensures s == SummaryWith(scores, 100)
    ensures |scores| > 0 ==> s.distributions == BucketsAsWritten(scores)
  {
    SummaryWith(scores, 100)
  }

  /** The summary with the last bucket closed, [80, 100]. */
  function SummaryClosed(scores: seq<int>): (s: ScoreSummary)
    ensures s == SummaryWith(scores, 101)
    ensures |scores| > 0 ==> s.distributions == BucketsClosed(scores)
  {
    SummaryWith(scores, 101)
  }

  /** With the last bucket closed, the percentages of scores in [0, 100] add
      up to 100. */
  lemma SummaryClosedComplete(scores: seq<int>)
    requires |scores| > 0
    requires forall i :: 0 <= i < |scores| ==> 0 <= scores[i] <= 100
    ensures var bs := SummaryClosed(scores).distributions;
      bs[0].percentage + bs[1].percentage + bs[2].percentage + bs[3].percentage + bs[4].percentage == 100.0
  {
    var bs := SummaryClosed(scores).distributions;
    BucketsClosedCover(scores);
    PercentagesSum(bs, |scores|);
  }

  /** As written, a file whose one processed score is 100 shows a summary
      whose percentages add up to 0. */
  lemma SummaryMissesHundred()
    ensures var bs := SummaryOf([100]).distributions;
      bs[0].percentage + bs[1].percentage + bs[2].percentage + bs[3].percentage + bs[4].percentage == 0.0
  {
    HundredInNoBucket();
  }

  /** `generateScoreSummary`: the summary of the processed results' scores. */
  function SummarizeScores(results: seq<MatchResult>): ScoreSummary {
    SummaryOf(Scores(results))
  }

  /** The sum of n values lies between n times their minimum and n times their maximum. */
  lemma {:induction false} SumBounds(xs: seq<int>, lo: int, hi: int)
    requires forall i :: 0 <= i < |xs| ==> lo <= xs[i] <= hi
    ensures |xs| * lo <= Seqs.Sum(xs) <= |xs| * hi
  {
    if |xs| > 0 {
      SumBounds(xs[1..], lo, hi);
    }
  }

  /** The ends of the ascending sort are the extremes of the scores, and
      the median lies between them. */
  lemma SortedExtremes(scores: seq<int>)
    requires |scores| > 0
    ensures var sorted := Sorting.SortAsc(scores, x => x); var n := |sorted|;
      && sorted[0] in scores && sorted[n - 1] in scores
      && (forall i :: 0 <= i < |scores| ==> sorted[0] <= scores[i] <= sorted[n - 1])
      && sorted[0] as real <= Median(sorted) <= sorted[n - 1] as real
  {
    var sorted := Sorting.SortAsc(scores, x => x);
    var n := |sorted|;
    assert sorted[0] in multiset(sorted) && sorted[n - 1] in multiset(sorted);
    forall i | 0 <= i < |scores|
      ensures sorted[0] <= scores[i] <= sorted[n - 1]
    {
      assert scores[i] in multiset(sorted);
      var k :| 0 <= k < n && sorted[k] == scores[i];
    }
    MedianBetween(sorted);
  }

  lemma MedianBetween(sorted: seq<int>)
    requires |sorted| > 0 && Sorting.SortedAsc(sorted, x => x)
    ensures sorted[0] as real <= Median(sorted) <= sorted[|sorted| - 1] as real
  {
    var n := |sorted|;
    var mid := n / 2;
    assert sorted[0] <= sorted[mid] <= sorted[n - 1];
    if n % 2 == 0 {
      assert sorted[0] <= sorted[mid - 1] <= sorted[n - 1];
    }
  }

  /** A mean of values between lo and hi is between lo and hi. */
  lemma MeanBetween(sum: int, n: nat, lo: int, hi: int)
    requires n > 0 && n * lo <= sum <= n * hi
    ensures (sum as real / n as real) * n as real == sum as real
    ensures lo as real <= sum as real / n as real <= hi as real
  {
    var m := sum as real / n as real;
    assert m * n as real == sum as real;
    assert (n * lo) as real == n as real * lo as real;
    assert (n * hi) as real == n as real * hi as real;
  }

  /** min and max are scores and bound all scores; the median and the
      average lie between them. */
  lemma ScoreSummaryBounds(scores: seq<int>)
    requires |scores| > 0
    ensures var s := SummaryOf(scores);
      && s.min in scores && s.max in scores
      && (forall i :: 0 <= i < |scores| ==> s.min <= scores[i] <= s.max)
      && s.min as real <= s.median <= s.max as real
      && s.min as real <= s.average <= s.max as real
  {
    var sorted := Sorting.SortAsc(scores, x => x);
    var n := |sorted|;
    SortedExtremes(scores);
    AverageBetween(scores, sorted[0], sorted[n - 1]);
  }

  /** The average times the number of scores is their sum, and it lies
      between any bounds of the scores. */
  lemma AverageBetween(scores: seq<int>, lo: int, hi: int)
    requires |scores| > 0
    requires forall i :: 0 <= i < |scores| ==> lo <= scores[i] <= hi
    ensures lo as real <= Mean(scores) <= hi as real
    ensures Mean(scores) * |scores| as real == Seqs.Sum(scores) as real
  {
    SumBounds(scores, lo, hi);
    MeanBetween(Seqs.Sum(scores), |scores|, lo, hi);
  }

  /** For an odd number of scores the median is itself one of the scores. */
  lemma OddMedianIsScore(scores: seq<int>)
    requires |scores| % 2 == 1
    ensures exists i :: 0 <= i < |scores| && SummaryOf(scores).median == scores[i] as real
  {
    var sorted := Sorting.SortAsc(scores, x => x);
    var m := sorted[|sorted| / 2];
    assert m in multiset(sorted);
    var i :| 0 <= i < |scores| && scores[i] == m;
  }

  // ---------------------------------------------------------------------
  // Audience summary and correlation
  // ---------------------------------------------------------------------

  /** Processed, with a selection whose audience size is truthy. */
  predicate HasAudience(r: MatchResult) {
    r.status == "processed" && r.selected.Some? && r.selected.value.size != 0
  }

  function SizeOf(r: MatchResult): int {
    if r.selected.Some? then r.selected.value.size else 0
  }

  datatype AudienceRow = AudienceRow(originalValue: string, audienceSize: int, matchScore: int)

  function AudienceRowOf(r: MatchResult): AudienceRow {
    AudienceRow(r.originalValue, SizeOf(r), OrZero(r.matchScore))
  }

  function SizesOf(rs: seq<MatchResult>): (sizes: seq<int>)
    ensures |sizes| == |rs|
  {
    seq(|rs|, i requires 0 <= i < |rs| => SizeOf(rs[i]))
  }

  function AudienceRowsOf(rs: seq<MatchResult>): (rows: seq<AudienceRow>)
    ensures |rows| == |rs|
  {
    seq(|rs|, i requires 0 <= i < |rs| => AudienceRowOf(rs[i]))
  }

  /** `Math.min(...xs)` on a non-empty list. */
  function MinOf(xs: seq<int>): (m: int)
    requires |xs| > 0
    ensures m in xs
    ensures forall i :: 0 <= i < |xs| ==> m <= xs[i]
  {
    if |xs| == 1 then xs[0]
    else
      var rest := MinOf(xs[1..]);
      assert forall i :: 1 <= i < |xs| ==> xs[i] == xs[1..][i - 1];
      if xs[0] <= rest then xs[0] else rest
  }

  /** `Math.max(...xs)` on a non-empty list. */
  function MaxOf(xs: seq<int>): (m: int)
    requires |xs| > 0
    ensures m in xs
    ensures forall i :: 0 <= i < |xs| ==> xs[i] <= m
  {
    if |xs| == 1 then xs[0]
    else
      var rest := MaxOf(xs[1..]);
      assert forall i :: 1 <= i < |xs| ==> xs[i] == xs[1..][i - 1];
      if xs[0] >= rest then xs[0] else rest
  }

  datatype AudienceSummary = AudienceSummary(total: int, average: real, min: int, max: int, byKeyword: seq<AudienceRow>)

  /** `generateAudienceSummary`: totals over the results with an audience and
      their rows sorted by descending audience size. */
  function SummarizeAudience(results: seq<MatchResult>): (a: AudienceSummary)
    ensures var kept := Seqs.Filter(results, HasAudience);
      && (|kept| == 0 ==> a == AudienceSummary(0, 0.0, 0, 0, []))
      && (|kept| > 0 ==>
            && a.total == Seqs.Sum(SizesOf(kept))
            && a.average == Mean(SizesOf(kept))
            && a.min in SizesOf(kept) && a.max in SizesOf(kept)
            && (forall i :: 0 <= i < |kept| ==> a.min <= SizesOf(kept)[i] <= a.max)
            && multiset(a.byKeyword) == multiset(AudienceRowsOf(kept))
            && Sorting.SortedDesc(a.byKeyword, (row: AudienceRow) => row.audienceSize))
  {
    var kept := Seqs.Filter(results, HasAudience);
    if |kept| == 0 then AudienceSummary(0, 0.0, 0, 0, [])
    else
      var sizes := SizesOf(kept);
      AudienceSummary(Seqs.Sum(sizes), Mean(sizes), MinOf(sizes), MaxOf(sizes),
                      Sorting.SortDesc(AudienceRowsOf(kept), (row: AudienceRow) => row.audienceSize))
  }

  /** The average audience lies between the smallest and the largest one. */
  lemma AudienceAverage(results: seq<MatchResult>)
    requires |Seqs.Filter(results, HasAudience)| > 0
    ensures var a := SummarizeAudience(results);
      a.min as real <= a.average <= a.max as real
  {
    var kept := Seqs.Filter(results, HasAudience);
    var a := SummarizeAudience(results);
    var sizes := SizesOf(kept);
    AverageBetween(sizes, a.min, a.max);
  }

  /** Every per-keyword row has a non-zero audience and comes from a
      processed result. */
  lemma AudienceRowsNonZero(results: seq<MatchResult>)
    ensures forall k :: 0 <= k < |SummarizeAudience(results).byKeyword| ==>
      SummarizeAudience(results).byKeyword[k].audienceSize != 0
  {
    var kept := Seqs.Filter(results, HasAudience);
    var a := SummarizeAudience(results);
    forall k | 0 <= k < |a.byKeyword|
      ensures a.byKeyword[k].audienceSize != 0
    {
      var row := a.byKeyword[k];
      assert row in multiset(AudienceRowsOf(kept));
      var i :| 0 <= i < |kept| && AudienceRowsOf(kept)[i] == row;
      assert HasAudience(kept[i]);
    }
  }

  datatype CorrelationPoint = CorrelationPoint(matchScore: int, audienceSize: int, keyword: string)

  /** `generateCorrelationData`: one point per result with an audience, in
      input order. */
  function Correlation(results: seq<MatchResult>): (c: seq<CorrelationPoint>)
    ensures |c| == |Seqs.Filter(results, HasAudience)|
  {
    var kept := Seqs.Filter(results, HasAudience);
    seq(|kept|, i requires 0 <= i < |kept| =>
      CorrelationPoint(OrZero(kept[i].matchScore), SizeOf(kept[i]), kept[i].originalValue))
  }

  /** The correlation points are the audience summary's rows, unsorted. */
  lemma CorrelationMatchesAudience(results: seq<MatchResult>)
    ensures var c := Correlation(results);
      multiset(seq(|c|, i requires 0 <= i < |c| => AudienceRow(c[i].keyword, c[i].audienceSize, c[i].matchScore)))
        == multiset(SummarizeAudience(results).byKeyword)
  {
    var kept := Seqs.Filter(results, HasAudience);
    var c := Correlation(results);
    assert seq(|c|, i requires 0 <= i < |c| => AudienceRow(c[i].keyword, c[i].audienceSize, c[i].matchScore))
        == AudienceRowsOf(kept);
  }

  // ---------------------------------------------------------------------
  // Keyword comparisons
  // ---------------------------------------------------------------------

  predicate HasSelection(r: MatchResult) {
    r.status == "processed" && r.selected.Some?
  }

  datatype Comparison = Comparison(keyword: string, suggestion: string, score: int, audienceSize: int)

  function ComparisonOf(r: MatchResult): Comparison
    requires r.selected.Some?
  {
    Comparison(r.originalValue, r.selected.value.value, OrZero(r.matchScore), r.selected.value.size)
  }

  function ComparisonsOf(rs: seq<MatchResult>): (cs: seq<Comparison>)
    requires forall i :: 0 <= i < |rs| ==> rs[i].selected.Some?
    ensures |cs| == |rs|
  {
    seq(|rs|, i requires 0 <= i < |rs| && rs[i].selected.Some? => ComparisonOf(rs[i]))
  }

  /** `generateKeywordComparisons`: one entry per processed result with a
      selection, sorted by descending score. */
  function KeywordComparisons(results: seq<MatchResult>): (cs: seq<Comparison>)
    ensures |cs| == Seqs.CountIf(results, HasSelection)
    ensures Sorting.SortedDesc(cs, (c: Comparison) => c.score)
    ensures multiset(cs) == multiset(ComparisonsOf(Seqs.Filter(results, HasSelection)))
  {
    Sorting.SortDesc(ComparisonsOf(Seqs.Filter(results, HasSelection)), (c: Comparison) => c.score)
  }

  /** Each comparison comes from a processed result with a selection. */
  lemma KeywordComparisonsSound(results: seq<MatchResult>)
    ensures var cs := KeywordComparisons(results);
      forall k :: 0 <= k < |cs| ==>
        exists i :: 0 <= i < |results| && HasSelection(results[i]) && cs[k] == ComparisonOf(results[i])
  {
    var kept := Seqs.Filter(results, HasSelection);
    var rows := ComparisonsOf(kept);
    var cs := KeywordComparisons(results);
    forall k | 0 <= k < |cs|
      ensures exists i :: 0 <= i < |results| && HasSelection(results[i]) && cs[k] == ComparisonOf(results[i])
    {
      assert cs[k] in multiset(rows);
      ComparisonFrom(results, kept, rows, cs[k]);
    }
  }

  /** A comparison built from the kept results is the comparison of one of them. */
  lemma ComparisonFrom(results: seq<MatchResult>, kept: seq<MatchResult>, rows: seq<Comparison>, c: Comparison)
    requires kept == Seqs.Filter(results, HasSelection)
    requires rows == ComparisonsOf(kept)
    requires c in rows
    ensures exists i :: 0 <= i < |results| && HasSelection(results[i]) && c == ComparisonOf(results[i])
  {
    var j :| 0 <= j < |rows| && rows[j] == c;
    assert kept[j] in results;
    var i :| 0 <= i < |results| && results[i] == kept[j];
  }

  /** Each processed result with a selection has its comparison. */
  lemma KeywordComparisonsComplete(results: seq<MatchResult>)
    ensures var cs := KeywordComparisons(results);
      forall i :: 0 <= i < |results| && HasSelection(results[i]) ==> ComparisonOf(results[i]) in cs
  {
    var kept := Seqs.Filter(results, HasSelection);
    var rows := ComparisonsOf(kept);
    var cs := KeywordComparisons(results);
    forall i | 0 <= i < |results| && HasSelection(results[i])
      ensures ComparisonOf(results[i]) in cs
    {
      var j :| 0 <= j < |kept| && kept[j] == results[i];
      assert rows[j] == ComparisonOf(results[i]);
      assert rows[j] in multiset(cs);
    }
  }

  // ---------------------------------------------------------------------
  // Word cloud
  // ---------------------------------------------------------------------

  const MaxCloudWords: nat := 50

  /** The lower-cased whitespace-separated words of a suggestion longer than
      two characters. */
  function WordsOf(v: string): seq<string> {
    Seqs.Filter(Text.Split(Text.Lower(v)), (w: string) => |w| > 2)
  }

  /** `allWords`: the words of every processed result's selected suggestion,
      in result order. */
  function AllWords(rs: seq<MatchResult>): seq<string> {
    if |rs| == 0 then []
    else
      var r := rs[0];
      (if r.status == "processed" && r.selected.Some? && r.selected.value.value != ""
       then WordsOf(r.selected.value.value) else [])
      + AllWords(rs[1..])
  }

  datatype WordCount = WordCount(text: string, value: nat)

  /** `Object.entries(wordFrequency)`: each distinct word once, in order of
      first occurrence, with its number of occurrences. */
  function Frequencies(words: seq<string>): (f: seq<WordCount>)
    ensures |f| == |Seqs.Dedupe(words)|
  {
    var d := Seqs.Dedupe(words);
    seq(|d|, i requires 0 <= i < |d| => WordCount(d[i], Seqs.Count(words, d[i])))
  }

  /** The frequencies of the words seen more than once. */
  function Candidates(words: seq<string>): (c: seq<WordCount>)
    ensures forall k :: 0 <= k < |c| ==>
      c[k].value >= 2 && c[k].text in words && c[k].value == Seqs.Count(words, c[k].text)
  {
    var freq := Frequencies(words);
    assert forall k :: 0 <= k < |freq| ==> freq[k].text in Seqs.Dedupe(words);
    Seqs.Filter(freq, (w: WordCount) => w.value > 1)
  }

  /** The candidates, most frequent first. */
  function Ranked(words: seq<string>): (r: seq<WordCount>)
    ensures multiset(r) == multiset(Candidates(words))
    ensures Sorting.SortedDesc(r, (w: WordCount) => w.value)
  {
    Sorting.SortDesc(Candidates(words), (w: WordCount) => w.value)
  }

  /** `slice(0, 50)`. */
  function Top(r: seq<WordCount>): (t: seq<WordCount>)
    ensures |t| <= MaxCloudWords && |t| <= |r|
    ensures |t| == |r| || |t| == MaxCloudWords
    ensures forall k :: 0 <= k < |t| ==> t[k] == r[k]
  {
    r[..if |r| < MaxCloudWords then |r| else MaxCloudWords]
  }

  /** The most frequent candidates, at most 50, most frequent first. */
  function Cloud(words: seq<string>): seq<WordCount> {
    Top(Ranked(words))
  }

  /** `generateWordCloudData`: the words seen at least twice, most frequent
      first, at most 50 of them. */
  function WordCloud(results: seq<MatchResult>): seq<WordCount> {
    Cloud(AllWords(results))
  }

  /** The cloud lists the most frequent words first. */
  lemma CloudOrdered(words: seq<string>)
    ensures Sorting.SortedDesc(Cloud(words), (w: WordCount) => w.value)
  {
    var r := Ranked(words);
    var cloud := Cloud(words);
    forall i, j | 0 <= i < j < |cloud|
      ensures cloud[i].value >= cloud[j].value
    {
      assert cloud[i] == r[i] && cloud[j] == r[j];
    }
  }

  /** Every entry of the cloud is a word seen at least twice, with its
      number of occurrences. */
  lemma CloudSound(words: seq<string>)
    ensures var cloud := Cloud(words);
      forall k :: 0 <= k < |cloud| ==>
        && cloud[k].value >= 2
        && cloud[k].text in words
        && cloud[k].value == Seqs.Count(words, cloud[k].text)
  {
    var c := Candidates(words);
    var cloud := Cloud(words);
    forall k | 0 <= k < |cloud|
      ensures cloud[k] in c
    {
      assert Ranked(words)[k] in multiset(c);
    }
  }

  /** The frequencies have no repeated entry. */
  lemma FrequenciesDistinct(words: seq<string>)
    ensures Seqs.NoDuplicates(Frequencies(words))
  {
    var freq := Frequencies(words);
    var d := Seqs.Dedupe(words);
    forall i, j | 0 <= i < j < |freq|
      ensures freq[i] != freq[j]
    {
      assert freq[i].text == d[i] && freq[j].text == d[j];
    }
  }

  lemma RankedDistinct(words: seq<string>)
    ensures Seqs.NoDuplicates(Ranked(words))
  {
    FrequenciesDistinct(words);
    Seqs.NoDuplicatesSubMultiset(Frequencies(words), Candidates(words));
    Seqs.NoDuplicatesSubMultiset(Candidates(words), Ranked(words));
  }

  /** No word appears twice in the cloud. */
  lemma CloudDistinct(words: seq<string>)
    ensures var cloud := Cloud(words);
      forall i, j :: 0 <= i < j < |cloud| ==> cloud[i].text != cloud[j].text
  {
    var cloud := Cloud(words);
    RankedDistinct(words);
    CloudSound(words);
    forall i, j | 0 <= i < j < |cloud|
      ensures cloud[i].text != cloud[j].text
    {
      assert cloud[i] != cloud[j];
    }
  }

  /** Every word seen at least twice is ranked. */
  lemma RankedComplete(words: seq<string>, w: string)
    requires Seqs.Count(words, w) >= 2
    ensures WordCount(w, Seqs.Count(words, w)) in Ranked(words)
  {
    var freq := Frequencies(words);
    var d := Seqs.Dedupe(words);
    var entry := WordCount(w, Seqs.Count(words, w));
    assert w in words;
    var i :| 0 <= i < |d| && d[i] == w;
    assert freq[i] == entry;
    assert entry in Candidates(words);
    assert entry in multiset(Ranked(words));
  }

  /** A ranked entry left out of the cloud is seen no more often than any
      entry in it. */
  lemma CloudDominates(words: seq<string>, k: nat)
    requires |Cloud(words)| <= k < |Ranked(words)|
    ensures forall m :: 0 <= m < |Cloud(words)| ==> Cloud(words)[m].value >= Ranked(words)[k].value
  {
    var r := Ranked(words);
    var cloud := Cloud(words);
    forall m | 0 <= m < |cloud|
      ensures cloud[m].value >= r[k].value
    {
      assert cloud[m] == r[m];
    }
  }

  /** A word seen at least twice is in the cloud, unless the cloud is full
      with words seen at least as often. */
  lemma CloudComplete(words: seq<string>, w: string)
    requires Seqs.Count(words, w) >= 2
    ensures var cloud := Cloud(words);
      || (exists k :: 0 <= k < |cloud| && cloud[k].text == w)
      || (|cloud| == MaxCloudWords &&
          forall k :: 0 <= k < |cloud| ==> cloud[k].value >= Seqs.Count(words, w))
  {
    var r := Ranked(words);
    var cloud := Cloud(words);
    RankedComplete(words, w);
    var k :| 0 <= k < |r| && r[k] == WordCount(w, Seqs.Count(words, w));
    if k < |cloud| {
      assert cloud[k] == r[k];
    } else {
      assert |cloud| == MaxCloudWords;
      CloudDominates(words, k);
    }
  }

  /** Every word of the cloud is longer than two characters, holds no
      whitespace and no upper-case letter. */
  lemma WordCloudWordShape(results: seq<MatchResult>)
    ensures forall k :: 0 <= k < |WordCloud(results)| ==> WordShaped(WordCloud(results)[k].text)
  {
    var all := AllWords(results);
    AllWordsShape(results);
    CloudSound(all);
    forall k | 0 <= k < |Cloud(all)|
      ensures WordShaped(Cloud(all)[k].text)
    {
      var i :| 0 <= i < |all| && all[i] == Cloud(all)[k].text;
    }
  }

  predicate WordShaped(t: string) {
    |t| > 2 && Text.NoSpace(t) && forall i :: 0 <= i < |t| ==> !Text.IsUpper(t[i])
  }

  lemma {:induction false} AllWordsShape(rs: seq<MatchResult>)
    ensures forall k :: 0 <= k < |AllWords(rs)| ==> WordShaped(AllWords(rs)[k])
  {
    if |rs| > 0 {
      AllWordsShape(rs[1..]);
      var r := rs[0];
      if r.status == "processed" && r.selected.Some? && r.selected.value.value != "" {
        WordsOfShape(r.selected.value.value);
      }
    }
  }

  lemma WordsOfShape(v: string)
    ensures forall k :: 0 <= k < |WordsOf(v)| ==> WordShaped(WordsOf(v)[k])
  {
    var low := Text.Lower(v);
    var pieces := Text.Split(low);
    Text.SplitPiecesFromSource(low);
    Text.LowerHasNoUpper(v);
    forall k | 0 <= k < |WordsOf(v)|
      ensures WordShaped(WordsOf(v)[k])
    {
      var t := WordsOf(v)[k];
      assert t in pieces;
      var j :| 0 <= j < |pieces| && pieces[j] == t;
      forall i | 0 <= i < |t|
        ensures !Text.IsUpper(t[i])
      {
        assert t[i] in low;
      }
    }
  }

  // ---------------------------------------------------------------------
  // Progress
  // ---------------------------------------------------------------------

  const KnownStatuses: seq<string> := ["pending", "processed", "failed"]

  /** One progress entry; `None` stands for NaN, which is what the count and
      percentage of a status outside the three known ones become. */
  datatype Progress = Progress(status: string, count: Option<nat>, percentage: Option<real>)

  function StatusesOf(rs: seq<MatchResult>): (ss: seq<string>)
    ensures |ss| == |rs|
  {
    seq(|rs|, i requires 0 <= i < |rs| => rs[i].status)
  }

  /** The statuses outside the known three, each once, in order of first
      occurrence: the keys `statusCounts[result.status]++` adds. */
  function UnknownStatuses(rs: seq<MatchResult>): seq<string> {
    Seqs.Dedupe(Seqs.Filter(StatusesOf(rs), (s: string) => s !in KnownStatuses))
  }

  /** `generateProgressData`: nothing for no results; otherwise the three
      known statuses with their counts and shares, then every other status
      seen, with a NaN count. */
  function ProgressData(results: seq<MatchResult>): (p: seq<Progress>)
    ensures |results| == 0 <==> p == []
    ensures |results| > 0 ==>
      && |p| == 3 + |UnknownStatuses(results)|
      && (forall k :: 0 <= k < 3 ==>
            && p[k].status == KnownStatuses[k]
            && p[k].count == Some(multiset(StatusesOf(results))[KnownStatuses[k]])
            && p[k].percentage == Some(Percentage(p[k].count.value, |results|)))
      && (forall k :: 3 <= k < |p| ==>
            p[k].status !in KnownStatuses && p[k].count.None? && p[k].percentage.None?
            && p[k].status in StatusesOf(results))
  {
    if |results| == 0 then []
    else
      var known := KnownProgress(results);
      var other := OtherProgress(results);
      var p := known + other;
      ProgressConcat(known, other, p);
      p
  }

  /** The entries of a concatenation, by position. */
  lemma ProgressConcat(known: seq<Progress>, other: seq<Progress>, p: seq<Progress>)
    requires |known| == 3 && p == known + other
    ensures |p| == 3 + |other|
    ensures forall k :: 0 <= k < 3 ==> p[k] == known[k]
    ensures forall k :: 3 <= k < |p| ==> p[k] == other[k - 3]
  {
  }

  /** The entries of the three known statuses, counted over the results. */
  function KnownProgress(results: seq<MatchResult>): (p: seq<Progress>)
    requires |results| > 0
    ensures |p| == 3
    ensures forall k :: 0 <= k < 3 ==>
      && p[k].status == KnownStatuses[k]
      && p[k].count == Some(multiset(StatusesOf(results))[KnownStatuses[k]])
      && p[k].percentage == Some(Percentage(p[k].count.value, |results|))
  {
    var ss := StatusesOf(results);
    seq(3, k requires 0 <= k < 3 =>
      var c := Seqs.Count(ss, KnownStatuses[k]);
      Progress(KnownStatuses[k], Some(c), Some(Percentage(c, |results|))))
  }

  /** The entries of the other statuses seen, each once, without a count. */
  function OtherProgress(results: seq<MatchResult>): (p: seq<Progress>)
    ensures |p| == |UnknownStatuses(results)|
    ensures forall k :: 0 <= k < |p| ==>
      p[k].status !in KnownStatuses && p[k].count.None? && p[k].percentage.None?
      && p[k].status in StatusesOf(results)
  {
    var ss := StatusesOf(results);
    var unknown := UnknownStatuses(results);
    assert forall i :: 0 <= i < |unknown| ==> unknown[i] in Seqs.Filter(ss, (s: string) => s !in KnownStatuses);
    seq(|unknown|, i requires 0 <= i < |unknown| => Progress(unknown[i], None, None))
  }

  /** Counting the known statuses covers every result whose status is known. */
  lemma {:induction false} KnownCountsCover(ss: seq<string>)
    requires forall i :: 0 <= i < |ss| ==> ss[i] in KnownStatuses
    ensures Seqs.Count(ss, "pending") + Seqs.Count(ss, "processed") + Seqs.Count(ss, "failed") == |ss|
  {
    if |ss| > 0 {
      KnownCountsCover(ss[1..]);
    }
  }

  /** When every status is one of the three, there are exactly three
      entries and their counts add up to the number of results. */
  lemma ProgressCountsSum(results: seq<MatchResult>)
    requires |results| > 0
    requires forall i :: 0 <= i < |results| ==> results[i].status in KnownStatuses
    ensures var p := ProgressData(results);
      |p| == 3 && p[0].count.value + p[1].count.value + p[2].count.value == |results|
  {
    var ss := StatusesOf(results);
    KnownCountsCover(ss);
    var unknown := Seqs.Filter(ss, (s: string) => s !in KnownStatuses);
    assert unknown == [];
  }

  // ---------------------------------------------------------------------
  // All visualisations
  // ---------------------------------------------------------------------

  datatype VisualizationData = VisualizationData(
    scoreSummary: ScoreSummary,
    audienceSummary: AudienceSummary,
    keywordComparisons: seq<Comparison>,
    wordCloudData: seq<WordCount>,
    progressData: seq<Progress>,
    correlationData: seq<CorrelationPoint>)

  /** `generateVisualizationData`: every aggregate over the same results, so
      the correlation plots one point per keyword of the audience table and the
      progress chart is empty only for no results. */
  function Generate(results: seq<MatchResult>): (d: VisualizationData)
    ensures |d.correlationData| == |d.audienceSummary.byKeyword|
    ensures d.progressData == [] <==> |results| == 0
  {
    assert |multiset(SummarizeAudience(results).byKeyword)| == |multiset(AudienceRowsOf(Seqs.Filter(results, HasAudience)))|;
    VisualizationData(SummarizeScores(results), SummarizeAudience(results), KeywordComparisons(results),
                      WordCloud(results), ProgressData(results), Correlation(results))
  }
}

=== FILE: wrappers.dfy ===
/** Optional values and success/failure results, used wherever the source
    returns null/undefined or throws. */
module Wrappers {

  /** A value that may be absent: JavaScript's null/undefined. */
  datatype Option<+T> = None | Some(value: T) {

    /** The value, or `default` when absent (`x ?? default`). */
    function GetOr(default: T): T {
      match this
      case Some(v) => v
      case None => default
    }
  }

  /** The outcome of an operation that can throw: `Failure` carries what was thrown. */
  datatype Result<+T, +E> = Success(value: T) | Failure(error: E)
}
